=== FILE: README.md ===
# Shopware platform core rules in Dafny

This project models eleven small, independent parts of the Shopware 6 platform as pure Dafny functions over immutable datatypes, and proves what each part promises.

- **Product streams** (`ProductStreamFilter`, `product_stream.dfy`). The indexer rebuilds a stream's `api_filter` from its flat `product_stream_filter` rows. Rows are nested under their `multi` parent, then parsed into a typed filter tree. Parsing and serialisation form a round trip. An unknown type, a missing field or an empty value leaves the stream with `api_filter = null` and `invalid = true`.
- **Cascade delete** (`DeleteCascade`, `delete_cascade.dfy`). Covers the three-table schema with the composite parent key `(id, version_id)`, the expansion of a nested insert into ordered write commands, and `ON DELETE CASCADE` as a transitive delete that preserves referential integrity.
- **Manufacturer definition** (`ManufacturerDefinition`, `manufacturer_definition.dfy`). Covers the field registry of the `product_manufacturer` entity, its flags and translated fields, and the memoised `getFields` with extensions applied in registration order.
- **HTTP cache store** (`CacheStore`, `cache_store.dfy`). Covers the cache key derivation, with its cookie and attribute priority over a URI digest, and the lookup, write, invalidate, lock, unlock, cleanup and purge operations on a key/value store and a local lock record.
- **SEO resolver** (`SeoResolver`, `seo_resolver.dfy`). Covers slash trimming, the choice of a `seo_url` row (a sales-channel-specific row beats a row for all channels), and the canonical-URL lookup.
- **Promotion discount editor** (`PromotionDiscount`, `promotion_discount.dfy`). Covers the offered discount types and scopes, the graduation lists, the scope side effects and the advanced-price list rules.
- **CMS page editor** (`CmsDetail`, `cms_detail.dfy`). Covers position renumbering, section insertion, the required-slot validation and the save gates, config stripping, and block duplication.
- **CMS sidebar** (`CmsSidebar`, `cms_sidebar.dfy`). Covers the drag-between-sections state machine, the drop abort, and the main/sidebar block split.
- **Category tree** (`CategoryTree`, `category_tree.dfy`). Covers path parsing (`|a|b|c|` gives the parents nearest first), the load-once watcher and the creation of new categories.
- **Language store** (`LanguageStore`, `language_store.dfy`). Covers the fallback to the system language and keeping the store and the context service in step.
- **Routing test matrix** (`RoutingCases`, `routing_cases.dfy`). Covers the recursive case generator, proved equal to the cartesian product (48 cases for the storefront routing test), the request-context port selection, and the construction of one request case.

`Common` (`common.dfy`) holds `Option`/`Result` and the string and sequence helpers the modules share. These are PHP's `trim` with a character list, and JavaScript's `split` and `filter`. The manufacturer entity's name is the constant `ManufacturerDefinition.EntityName`, `"product_manufacturer"` (ProductManufacturerDefinition.php:48-51).

## Model

| member | source | states |
|---|---|---|
| Common.Trim | src/Storefront/Framework/Seo/SeoResolver.php:22 | `trim($s, '/')`: the result neither starts nor ends with the character, and it is the input with only that character removed from both ends |
| Common.Split | src/Administration/Resources/administration/src/module/sw-category/component/sw-category-tree/index.js:154 | JavaScript `split` on one character: there is at least one part, and no part contains the separator |
| ProductStreamFilter.Nest | src/Core/Content/Test/ProductStream/DataAbstractionLayer/ProductStreamIndexerTest.php:191-230 | the top-level nodes are exactly the rows without a parent, in table order, each carrying its own row's type, field, value, operator and parameters; a `multi` row's children are the rows naming it, taken from the table without that row, and any other row has no children |
| ProductStreamFilter.NestFrom | src/Core/Content/Test/ProductStream/DataAbstractionLayer/ProductStreamIndexerTest.php:191-216 | the nodes under a parent are exactly the rows naming that parent, in table order; the node for the row at position j carries, if it is `multi`, the rows naming it from the pool without row j, and otherwise no children |
| ProductStreamFilter.RowNodeFor | src/Core/Content/Test/ProductStream/DataAbstractionLayer/ProductStreamIndexerTest.php:191-216 | a row's node carries that row's own columns, and a `multi` row's node has as queries the rows that name it as parent, in table order |
| ProductStreamFilter.PrependHeads | src/Core/Content/Test/ProductStream/DataAbstractionLayer/ProductStreamIndexerTest.php:191-216 | a row naming the parent, placed before the nodes of the later rows naming it, gives the node list for the rows from that row on |
| ProductStreamFilter.PrependNode | src/Core/Content/Test/ProductStream/DataAbstractionLayer/ProductStreamIndexerTest.php:191-216 | the node for a row naming the parent followed by the nodes of the later rows pairs every node with the row position it came from |
| ProductStreamFilter.Parse | src/Core/Content/Test/ProductStream/DataAbstractionLayer/ProductStreamIndexerTest.php:277-294 | a parsed node is well formed and keeps its type. An unknown type, a missing field on a field-bearing type and an empty value on a valued type are reported as those errors. Otherwise an `equals`, `equalsAny` or `contains` node keeps its field and value, a `range` node its field and parameters (none read as the empty map), and a `multi` node parses exactly when all its queries do, connecting with OR only for the operator `OR` |
| ProductStreamFilter.ParseAll | src/Core/Content/Test/ProductStream/DataAbstractionLayer/ProductStreamIndexerTest.php:339-356 | a list parses if and only if every node parses, and then the result is those nodes' filters in order |
| ProductStreamFilter.Serialize | src/Core/Content/Test/ProductStream/DataAbstractionLayer/ProductStreamIndexerTest.php:143-149 | the persisted node carries the filter's type name, its field, its value or range parameters, and for a `multi` filter the operator name and one serialised node per query |
| ProductStreamFilter.ParseSerialize | src/Core/Content/Test/ProductStream/DataAbstractionLayer/ProductStreamIndexerTest.php:143-149 | parsing the persisted form of any well-formed filter gives that filter back |
| ProductStreamFilter.ParseSerializeAll | src/Core/Content/Test/ProductStream/DataAbstractionLayer/ProductStreamIndexerTest.php:224-230 | the round trip holds for a whole list of well-formed filters |
| ProductStreamFilter.Refresh | src/Core/Content/Test/ProductStream/DataAbstractionLayer/ProductStreamIndexerTest.php:143-149 | a stream is invalid exactly when it has no filter, and valid exactly when every nested node parses; a valid filter has one entry per top-level row and parses back to what the nested rows parsed to |
| ProductStreamFilter.StoredRoundTrip | src/Core/Content/Test/ProductStream/DataAbstractionLayer/ProductStreamIndexerTest.php:143-149 | what a valid stream stores has one node per nested node and parses back to the same filters |
| ProductStreamFilter.SerializeParse | src/Core/Content/Test/ProductStream/DataAbstractionLayer/ProductStreamIndexerTest.php:143-149 | storing a parsed node gives the node back with only the columns its type uses, a missing range parameter map as the empty map and a `multi` operator as AND unless it was OR, recursively |
| ProductStreamFilter.RefreshStoresRows | src/Core/Content/Test/ProductStream/DataAbstractionLayer/ProductStreamIndexerTest.php:126-148 | a valid refresh stores, in table order, one node per top-level row: that row's type and used columns, with its nested children |
| ProductStreamFilter.DefectiveRowInvalidates | src/Core/Content/Test/ProductStream/DataAbstractionLayer/ProductStreamIndexerTest.php:277-294 | one top-level row with an unknown type, a missing field or an empty value makes the whole stream invalid with a null filter, whatever the other rows are |
| ProductStreamFilter.SingleEqualsRow | src/Core/Content/Test/ProductStream/DataAbstractionLayer/ProductStreamIndexerTest.php:126-148 | a single valid `equals` row yields one `equals` node with the same field and value, and the stream is valid |
| ProductStreamFilter.MultiWithChild | src/Core/Content/Test/ProductStream/DataAbstractionLayer/ProductStreamIndexerTest.php:191-230 | a `multi` row without an operator and one child give a single top-level AND node whose only query is the child |
| ProductStreamFilter.NestMultiWithChild | src/Core/Content/Test/ProductStream/DataAbstractionLayer/ProductStreamIndexerTest.php:191-230 | a top-level `multi` row and one child naming it nest to a single node holding that child |
| ProductStreamFilter.MultiWithChildParses | src/Core/Content/Test/ProductStream/DataAbstractionLayer/ProductStreamIndexerTest.php:191-230 | those two rows parse to one AND filter over the child's `equals` filter |
| ProductStreamFilter.UnknownTypeRow | src/Core/Content/Test/ProductStream/DataAbstractionLayer/ProductStreamIndexerTest.php:277-294 | a row of an unrecognised type leaves the stream unindexed: null filter, invalid |
| ProductStreamFilter.EqualsRowWithoutFieldOrValue | src/Core/Content/Test/ProductStream/DataAbstractionLayer/ProductStreamIndexerTest.php:339-419 | an `equals` row with a null field or an empty value leaves the stream unindexed |
| ProductStreamFilter.SingleRangeRow | src/Core/Content/Test/ProductStream/DataAbstractionLayer/ProductStreamIndexerTest.php:464-484 | a `range` row keeps its parameters verbatim and the stream is valid |
| DeleteCascade.DeleteParent | src/Core/Framework/Test/DataAbstractionLayer/Write/DeleteTest.php:117-129 | deleting `(id, version_id)` removes that parent and exactly the children referencing the pair; every other row stays, and referential integrity is kept |
| DeleteCascade.DeleteManyToOne | src/Core/Framework/Test/DataAbstractionLayer/Write/DeleteTest.php:164-179 | deleting a many-to-one row removes exactly that row, the parents referencing it and, transitively, their children; every surviving row keeps its values, and integrity is kept |
| DeleteCascade.DeleteParents | src/Core/Framework/Test/DataAbstractionLayer/Write/DeleteTest.php:61-63 | deleting a set of parent keys removes exactly those parents and the children whose composite foreign key names one of them |
| DeleteCascade.ChildRows | src/Core/Framework/Test/DataAbstractionLayer/Write/DeleteTest.php:92-115 | each `cascades` entry becomes one child row referencing the parent's id at the context version |
| DeleteCascade.PlanInsert | src/Core/Framework/Test/DataAbstractionLayer/Write/DeleteTest.php:92-115 | a nested payload expands to the many-to-one row, then the parent, then one child per `cascades` entry, each child pointing at the parent's composite key |
| DeleteCascade.ApplyAll | src/Core/Framework/Test/DataAbstractionLayer/Write/DeleteTest.php:39-75 | a successful batch keeps the schema's referential integrity |
| DeleteCascade.ApplyChildren | src/Core/Framework/Test/DataAbstractionLayer/Write/DeleteTest.php:61-63 | child inserts whose parent exists all succeed and add exactly their rows |
| DeleteCascade.InsertNestedFresh | src/Core/Framework/Test/DataAbstractionLayer/Write/DeleteTest.php:92-115 | a nested insert with fresh keys adds exactly one many-to-one row, one parent and one child per `cascades` entry |
| DeleteCascade.InsertThenDeleteParent | src/Core/Framework/Test/DataAbstractionLayer/Write/DeleteTest.php:88-130 | the first test: one row per table after the insert, and no parent or child rows after deleting the parent |
| DeleteCascade.InsertThenDeleteManyToOne | src/Core/Framework/Test/DataAbstractionLayer/Write/DeleteTest.php:132-180 | the second test: deleting the many-to-one row empties all three tables |
| ManufacturerDefinition.BaseFieldsPrimaryKey | src/Api/Product/Definition/ProductManufacturerDefinition.php:60 | `id` is the only field flagged as primary key, and it is required |
| ManufacturerDefinition.BaseFieldsTranslated | src/Api/Product/Definition/ProductManufacturerDefinition.php:65-72 | the translated fields are exactly name, description, metaTitle, metaDescription and metaKeywords |
| ManufacturerDefinition.BaseFieldsDeleteBehaviour | src/Api/Product/Definition/ProductManufacturerDefinition.php:74-75 | `products` restricts deletion; `translations` cascades and is required |
| ManufacturerDefinition.BaseFieldsUnique | src/Api/Product/Definition/ProductManufacturerDefinition.php:58-76 | no two fields share a property name |
| ManufacturerDefinition.ExtensionFields | src/Api/Product/Definition/ProductManufacturerDefinition.php:78-80 | every extension field comes from some registered extension |
| ManufacturerDefinition.ExtensionFieldsConcat | src/Api/Product/Definition/ProductManufacturerDefinition.php:78-80 | extensions registered in two batches add the first batch's fields, then the second's |
| ManufacturerDefinition.BuildAfterAddExtension | src/Api/Product/Definition/ProductManufacturerDefinition.php:78-82 | registering one more extension before the first build appends exactly its fields to the collection that build returns |
| ManufacturerDefinition.AddedInExtensionFields | src/Api/Product/Definition/ProductManufacturerDefinition.php:78-80 | every field an extension adds is among the extension fields |
| ManufacturerDefinition.AddExtension | src/Api/Product/Definition/ProductManufacturerDefinition.php:78-80 | registering an extension appends it and leaves any built collection alone |
| ManufacturerDefinition.GetFields | src/Api/Product/Definition/ProductManufacturerDefinition.php:53-83 | the collection is stored and returned; a built collection is returned unchanged; a first build is the definition's own fields followed by the registered extensions' fields |
| ManufacturerDefinition.GetFieldsMemoised | src/Api/Product/Definition/ProductManufacturerDefinition.php:55-57 | once built, later calls return the same collection even when extensions were registered since |
| ManufacturerDefinition.FirstBuildOrder | src/Api/Product/Definition/ProductManufacturerDefinition.php:78-82 | the first build is the own fields, then the first extension's, then the second's |
| ManufacturerDefinition.ExtensionFieldsIncluded | src/Api/Product/Definition/ProductManufacturerDefinition.php:78-82 | every field a registered extension adds is in the first-built collection, after the definition's own fields |
| CacheStore.Variant | src/Storefront/Framework/Cache/CacheStore.php:200-210 | the variant is the context cookie if present, else the currency cookie, else the domain-currency attribute |
| CacheStore.CacheKey | src/Storefront/Framework/Cache/CacheStore.php:195-213 | the key is `md` plus the digest of URI and base URL, re-hashed with `-variant` when there is a variant |
| CacheStore.CacheKeyDeterminedBy | src/Storefront/Framework/Cache/CacheStore.php:195-213 | two requests with the same URI, base URL and variant get the same key |
| CacheStore.CacheKeyPriority | src/Storefront/Framework/Cache/CacheStore.php:200-210 | once a higher-priority cookie is present, the lower-priority values do not affect the key |
| CacheStore.LockKey | src/Storefront/Framework/Cache/CacheStore.php:178-181 | the lock key is `http_lock_` followed by the cache key |
| CacheStore.LockKeyNeverCacheKey | src/Storefront/Framework/Cache/CacheStore.php:178-213 | with a hexadecimal digest no lock key equals any cache key |
| CacheStore.Lookup | src/Storefront/Framework/Cache/CacheStore.php:55-73 | a response is found exactly when the key holds a serialized response that the state validator accepts, and it is that response |
| CacheStore.Write | src/Storefront/Framework/Cache/CacheStore.php:75-99 | stores the response under the request's key and returns that key; no other entry and no lock record changes |
| CacheStore.WriteThenLookup | src/Storefront/Framework/Cache/CacheStore.php:55-99 | a lookup right after a write returns the written response when the validator accepts it, and nothing otherwise |
| CacheStore.Invalidate | src/Storefront/Framework/Cache/CacheStore.php:101-106 | removes the request's entry and nothing else |
| CacheStore.InvalidateThenLookup | src/Storefront/Framework/Cache/CacheStore.php:55-106 | a lookup after invalidation misses |
| CacheStore.Lock | src/Storefront/Framework/Cache/CacheStore.php:123-137 | on a held key, returns that lock key and changes nothing; otherwise stores the lock, records it locally and succeeds; afterwards the request is locked |
| CacheStore.LockTwice | src/Storefront/Framework/Cache/CacheStore.php:123-137 | a second lock attempt on the same request reports the held lock key |
| CacheStore.Unlock | src/Storefront/Framework/Cache/CacheStore.php:144-153 | always returns true; removes the lock entry and its local record, and every other entry and record stays as it was |
| CacheStore.LockUnlockRestores | src/Storefront/Framework/Cache/CacheStore.php:123-153 | lock then unlock on an unlocked request restores the store exactly |
| CacheStore.Cleanup | src/Storefront/Framework/Cache/CacheStore.php:111-116 | deletes exactly the locally recorded locks from the cache, empties the record, and keeps every other entry unchanged |
| CacheStore.CleanupReleasesOwnLocks | src/Storefront/Framework/Cache/CacheStore.php:111-137 | a lock this store took is released by cleanup |
| CacheStore.HttpVariant | src/Storefront/Framework/Cache/CacheStore.php:169 | an `https:` prefix becomes `http:`; any other URL is unchanged |
| CacheStore.HttpsVariant | src/Storefront/Framework/Cache/CacheStore.php:170 | an `http:` prefix becomes `https:`; any other URL is unchanged |
| CacheStore.PurgeVariantsAgree | src/Storefront/Framework/Cache/CacheStore.php:167-176 | the http and https forms of a URL give the same two variants |
| CacheStore.Purge | src/Storefront/Framework/Cache/CacheStore.php:167-176 | removes exactly the lock entries and local lock records of the http and https forms of the URL, changes no other entry, and returns true |
| SeoResolver.FirstIndex | src/Storefront/Framework/Seo/SeoResolver.php:27-40 | the first row satisfying the condition, or none exactly when no row does |
| SeoResolver.SelectRow | src/Storefront/Framework/Seo/SeoResolver.php:27-40 | picks an eligible row: same language, the requested or no sales channel, the same SEO path; a channel-specific row is preferred; none only when no row is eligible |
| SeoResolver.MatchFor | src/Storefront/Framework/Seo/SeoResolver.php:27-44 | with an eligible row the match is the selected row's id, path and canonical flag; without one it is the SEO path itself, not canonical |
| SeoResolver.CanonicalPath | src/Storefront/Framework/Seo/SeoResolver.php:46-65 | a canonical path exists only for a non-canonical match. It is `'/' + trim(seoPathInfo)` of another canonical row with the same language, exact channel and normalised path. None is reported only when no such row exists |
| SeoResolver.CanonicalFromCanonicalRow | src/Storefront/Framework/Seo/SeoResolver.php:46-65 | a reported canonical path is the rooted SEO path of a canonical row with the requested language and channel |
| SeoResolver.Resolve | src/Storefront/Framework/Seo/SeoResolver.php:20-70 | the path always starts and ends with `/`; an empty trimmed path gives `/`, not canonical; a selected row gives its id, canonical flag and trimmed path in slashes, with the canonical URL of that match; no match gives the trimmed input in slashes, not canonical and without id, with the canonical URL of a canonical row whose normalised path is `/` + the trimmed input; a canonical URL is reported only for a non-canonical result |
| SeoResolver.EligibleRowResolves | src/Storefront/Framework/Seo/SeoResolver.php:27-44 | when some row is eligible for the trimmed path, the result is some eligible row's id, canonical flag and trimmed path in slashes |
| SeoResolver.ChannelSpecificWins | src/Storefront/Framework/Seo/SeoResolver.php:33-35 | when a channel-specific eligible row exists, the resolved id is that of a channel-specific eligible row |
| SeoResolver.CanonicalReportedIff | src/Storefront/Framework/Seo/SeoResolver.php:46-65 | a canonical URL is reported if and only if the match is not canonical and another canonical row matches |
| SeoResolver.SlashesIgnored | src/Storefront/Framework/Seo/SeoResolver.php:22 | surrounding the path with slashes does not change the result |
| SeoResolver.TrimSlashes | src/Storefront/Framework/Seo/SeoResolver.php:22 | trimming ignores one more slash on each side |
| PromotionDiscount.Open | src/Administration/Resources/administration/src/module/sw-promotion/component/sw-promotion-discount-component/index.js:38-40 | opening the editor derives the cart and shipping flags from the scope and remembers the initial advanced-rules setting |
| PromotionDiscount.Types | src/Administration/Resources/administration/src/module/sw-promotion/component/sw-promotion-discount-component/index.js:112-137 | starts with ABSOLUTE, PERCENTAGE, FIXED_UNIT and holds nothing else but FIXED; contains FIXED once when not cart-scoped or when advanced rules apply, else never |
| PromotionDiscount.TypesList | src/Administration/Resources/administration/src/module/sw-promotion/component/sw-promotion-discount-component/index.js:112-137 | the offered types are exactly ABSOLUTE, PERCENTAGE, FIXED_UNIT, followed by FIXED when the scope is not the cart or advanced rules apply |
| PromotionDiscount.Scopes | src/Administration/Resources/administration/src/module/sw-promotion/component/sw-promotion-discount-component/index.js:85-110 | CART, DELIVERY, SET, then SETGROUP-1..n; with no set groups, the current scope as the fourth entry |
| PromotionDiscount.Graduation | src/Administration/Resources/administration/src/module/sw-promotion/component/sw-promotion-discount-component/index.js:194-234 | `ALL` followed by the counts from the first value up to 9 |
| PromotionDiscount.GraduationAppliers | src/Administration/Resources/administration/src/module/sw-promotion/component/sw-promotion-discount-component/index.js:194-213 | `ALL` followed by 2..9 |
| PromotionDiscount.GraduationCounts | src/Administration/Resources/administration/src/module/sw-promotion/component/sw-promotion-discount-component/index.js:215-234 | `ALL` followed by 1..9 |
| PromotionDiscount.OnDiscountScopeChanged | src/Administration/Resources/administration/src/module/sw-promotion/component/sw-promotion-discount-component/index.js:372-381 | sets the cart and shipping flags from the value; DELIVERY switches advanced rules off, any other scope restores the remembered value; nothing else changes |
| PromotionDiscount.DeliveryRoundTrip | src/Administration/Resources/administration/src/module/sw-promotion/component/sw-promotion-discount-component/index.js:372-381 | switching to DELIVERY and back to another scope restores the discount as it was opened |
| PromotionDiscount.WithoutStep | src/Administration/Resources/administration/src/module/sw-promotion/component/sw-promotion-discount-component/index.js:325-331 | removing the prices one id at a time is the same as removing them all at once |
| PromotionDiscount.WithoutAllIds | src/Administration/Resources/administration/src/module/sw-promotion/component/sw-promotion-discount-component/index.js:325-331 | removing every price's own id leaves no price |
| PromotionDiscount.RemoveNextId | src/Administration/Resources/administration/src/module/sw-promotion/component/sw-promotion-discount-component/index.js:325-331 | removing one more id after the earlier ones is removing the longer prefix of ids |
| PromotionDiscount.RemoveEveryId | src/Administration/Resources/administration/src/module/sw-promotion/component/sw-promotion-discount-component/index.js:325-331 | removing the ids of all prices, read before the loop, leaves no price |
| PromotionDiscount.ClearAdvancedPrices | src/Administration/Resources/administration/src/module/sw-promotion/component/sw-promotion-discount-component/index.js:325-331 | the price list ends empty and nothing else changes |
| PromotionDiscount.OnMaxValueChanged | src/Administration/Resources/administration/src/module/sw-promotion/component/sw-promotion-discount-component/index.js:277-284 | zero clears the maximum value and the prices; any other value changes nothing |
| PromotionDiscount.IsMemberOfCollection | src/Administration/Resources/administration/src/module/sw-promotion/component/sw-promotion-discount-component/index.js:333-343 | true if and only if some advanced price has the currency's id |
| PromotionDiscount.OnClickAdvancedPrices | src/Administration/Resources/administration/src/module/sw-promotion/component/sw-promotion-discount-component/index.js:286-323 | keeps the existing prices and then covers every currency. Each added price is for a currency that had none, with distinct currencies, and is built from that currency. It then shows the advanced prices |
| PromotionDiscount.ExtendedStep | src/Administration/Resources/administration/src/module/sw-promotion/component/sw-promotion-discount-component/index.js:287-298 | one more currency adds nothing when it already has a price, and otherwise adds exactly its new price |
| CmsDetail.PageTypeSettings | src/Administration/Resources/administration/src/module/sw-cms/page/sw-cms-detail/index.js:99-130 | product_detail maps to a single product, product_list to a single category, anything else to static with no entity |
| CmsDetail.RenumberBlocks | src/Administration/Resources/administration/src/module/sw-cms/page/sw-cms-detail/index.js:542-546 | each block's position becomes its index; nothing else in a block changes |
| CmsDetail.Renumber | src/Administration/Resources/administration/src/module/sw-cms/page/sw-cms-detail/index.js:535-546 | each section's position is its index and each block's its index in its section; only positions change |
| CmsDetail.RenumberFixesNumbered | src/Administration/Resources/administration/src/module/sw-cms/page/sw-cms-detail/index.js:535-546 | renumbering leaves a page unchanged if and only if it is already numbered |
| CmsDetail.RenumberIdempotent | src/Administration/Resources/administration/src/module/sw-cms/page/sw-cms-detail/index.js:535-546 | renumbering twice is renumbering once |
| CmsDetail.SpliceStart | src/Administration/Resources/administration/src/module/sw-cms/page/sw-cms-detail/index.js:403 | JavaScript `splice` start clamping: in range as given, beyond the end the end, negative counted from the end |
| CmsDetail.Insert | src/Administration/Resources/administration/src/module/sw-cms/page/sw-cms-detail/index.js:403 | the element lands at the index, with the elements before and after it kept in order |
| CmsDetail.AddSectionAsWritten | src/Administration/Resources/administration/src/module/sw-cms/page/sw-cms-detail/index.js:392-405 | the handler as written: a falsy type changes nothing, but a missing index inserts the new section at the front |
| CmsDetail.AddSectionMissingIndexInserts | src/Administration/Resources/administration/src/module/sw-cms/page/sw-cms-detail/index.js:393 | adding a `default` section without an index changes the page |
| CmsDetail.AddSection | src/Administration/Resources/administration/src/module/sw-cms/page/sw-cms-detail/index.js:392-405 | a falsy type or a missing index changes nothing. Otherwise a `boxed` section for the page lands at the clamped index, every other section keeps its content and order with only its own and its blocks' positions renumbered, and the page is numbered |
| CmsDetail.RenumberInserted | src/Administration/Resources/administration/src/module/sw-cms/page/sw-cms-detail/index.js:403-404 | after inserting at `k` and renumbering, earlier sections keep their index, the new one gets `k` and later ones move up by one |
| CmsDetail.AddSectionAgreesWithIndex | src/Administration/Resources/administration/src/module/sw-cms/page/sw-cms-detail/index.js:392-405 | with an index given, the handler as written and the corrected one agree |
| CmsDetail.CheckRequired | src/Administration/Resources/administration/src/module/sw-cms/page/sw-cms-detail/index.js:528-533 | returns exactly the config fields, in config order, that are required and whose value is null or of length below 1; throws exactly when a required field has no value |
| CmsDetail.MissingRequired | src/Administration/Resources/administration/src/module/sw-cms/page/sw-cms-detail/index.js:442-465 | reports missing fields when some slot's check finds one and none when every slot's check is empty; it fails exactly when some check throws |
| CmsDetail.ClearBlocks | src/Administration/Resources/administration/src/module/sw-cms/page/sw-cms-detail/index.js:446-448 | every block loses its background media and nothing else |
| CmsDetail.ClearBackgroundMedia | src/Administration/Resources/administration/src/module/sw-cms/page/sw-cms-detail/index.js:445-453 | every section's blocks lose their background media and nothing else |
| CmsDetail.ClearedSlotsSame | src/Administration/Resources/administration/src/module/sw-cms/page/sw-cms-detail/index.js:442-465 | clearing background media does not change the slots the save gate checks |
| CmsDetail.StripField | src/Administration/Resources/administration/src/module/sw-cms/page/sw-cms-detail/index.js:511-526 | removes `entity` and `required` exactly when they are truthy and keeps every other key and value |
| CmsDetail.StripFieldIdempotent | src/Administration/Resources/administration/src/module/sw-cms/page/sw-cms-detail/index.js:511-526 | stripping twice is stripping once |
| CmsDetail.StripConfig | src/Administration/Resources/administration/src/module/sw-cms/page/sw-cms-detail/index.js:516-524 | strips every config field of a slot, keeping the field names |
| CmsDetail.StripSections | src/Administration/Resources/administration/src/module/sw-cms/page/sw-cms-detail/index.js:511-526 | strips every slot of every block; sections, blocks and slots keep everything else |
| CmsDetail.OnSave | src/Administration/Resources/administration/src/module/sw-cms/page/sw-cms-detail/index.js:426-509 | rejects exactly when (system language and no name) or no type. Past that gate, it rejects, with background media cleared, exactly when the checks all succeed and one finds an empty required field; it throws exactly when some check throws; otherwise it saves the page with background media cleared and configs stripped |
| CmsDetail.CloneSlots | src/Administration/Resources/administration/src/module/sw-cms/page/sw-cms-detail/index.js:570-581 | each slot is copied with a new id and points to the new block; nothing else changes |
| CmsDetail.DuplicateBlock | src/Administration/Resources/administration/src/module/sw-cms/page/sw-cms-detail/index.js:553-568 | the copy has the new id, the block's type and media and cloned slots, and lands at position + 1 of the same section; every other block and section keeps its content, with only positions renumbered |
| CmsDetail.DuplicateLandsAfterOriginal | src/Administration/Resources/administration/src/module/sw-cms/page/sw-cms-detail/index.js:553-568 | in a numbered page the copy lands directly after its original |
| CmsSidebar.RemoveId | src/Administration/Resources/administration/src/module/sw-cms/component/sw-cms-sidebar/index.js:170-174 | removes every block with the id and keeps every other block |
| CmsSidebar.RemoveFirst | src/Administration/Resources/administration/src/module/sw-cms/component/sw-cms-sidebar/index.js:187 | removing only the first block with the id: nothing changes without such a block, otherwise exactly one block goes |
| CmsSidebar.RemoveIdIsRemoveFirst | src/Administration/Resources/administration/src/module/sw-cms/component/sw-cms-sidebar/index.js:187 | within a section whose block ids are unique, removing every block with the id is removing the first one |
| CmsSidebar.MoveItem | src/Administration/Resources/administration/src/module/sw-cms/component/sw-cms-sidebar/index.js:189-192 | a permutation of the section that puts the moved block at the target index; an out-of-range source changes nothing |
| CmsSidebar.RemoveIndex | src/Administration/Resources/administration/src/module/sw-cms/component/sw-cms-sidebar/index.js:170-174 | the drag-start section, unless the current section differs from it and is one step from the drop section |
| CmsSidebar.StepToward | src/Administration/Resources/administration/src/module/sw-cms/component/sw-cms-sidebar/index.js:176-184 | moves the tracked section one step toward the drop section |
| CmsSidebar.OnBlockDragSort | src/Administration/Resources/administration/src/module/sw-cms/component/sw-cms-sidebar/index.js:141-196 | does nothing without a valid drop or with a negative index. A cross-section move relocates the block and steps the tracker. Otherwise the block moves within the drop section, and the tracker latches |
| CmsSidebar.CrossMoveRelocates | src/Administration/Resources/administration/src/module/sw-cms/component/sw-cms-sidebar/index.js:165-188 | after a cross-section move the drop section holds the block and the removal section no longer does |
| CmsSidebar.TrackingConverges | src/Administration/Resources/administration/src/module/sw-cms/component/sw-cms-sidebar/index.js:176-184 | every cross-section move brings the tracked section exactly one step closer to the drop section |
| CmsSidebar.OnBlockDragStop | src/Administration/Resources/administration/src/module/sw-cms/component/sw-cms-sidebar/index.js:217-220 | resets the tracker and clears `isDragging`; sections stay |
| CmsSidebar.DragStopResetsLatch | src/Administration/Resources/administration/src/module/sw-cms/component/sw-cms-sidebar/index.js:159-161 | after a stop, the next sort latches to the new drag's section |
| CmsSidebar.OnBlockDropAbort | src/Administration/Resources/administration/src/module/sw-cms/component/sw-cms-sidebar/index.js:222-234 | a negative index does nothing; a section index past the last section throws, naming the drag index first; otherwise it re-adds the block to the drag section exactly when neither section holds it, and afterwards one of them does |
| CmsSidebar.DropAbortIdempotent | src/Administration/Resources/administration/src/module/sw-cms/component/sw-cms-sidebar/index.js:222-234 | aborting the same drop again changes nothing more |
| CmsSidebar.PlacedIn | src/Administration/Resources/administration/src/module/sw-cms/component/sw-cms-sidebar/index.js:343-349 | the main and sidebar getters keep exactly the blocks placed at the given place |
| CmsSidebar.PlacedInKeepsOrder | src/Administration/Resources/administration/src/module/sw-cms/component/sw-cms-sidebar/index.js:343-349 | selecting by place keeps section order: it distributes over concatenation and keeps a single block exactly when it is placed there |
| CmsSidebar.MainAndSidebarPartition | src/Administration/Resources/administration/src/module/sw-cms/component/sw-cms-sidebar/index.js:343-349 | when every block is in main or sidebar, the two lists together are the blocks, as a multiset |
| CategoryTree.ParentIds | src/Administration/Resources/administration/src/module/sw-category/component/sw-category-tree/index.js:154-157 | the parent ids are non-empty and contain no separator |
| CategoryTree.ParentIdsOfStoredPath | src/Administration/Resources/administration/src/module/sw-category/component/sw-category-tree/index.js:154-157 | a stored path `\|id1\|…\|idn\|` gives back the ids, nearest parent first |
| CategoryTree.SplitJoinCons | src/Administration/Resources/administration/src/module/sw-category/component/sw-category-tree/index.js:154-157 | splitting joined ids gives the first id on its own, followed by the split of the rest |
| CategoryTree.GetParentItems | src/Administration/Resources/administration/src/module/sw-category/component/sw-category-tree/index.js:162-172 | records every id as loaded, in the given order, after those loaded before |
| CategoryTree.OpenTreeById | src/Administration/Resources/administration/src/module/sw-category/component/sw-category-tree/index.js:138-160 | nothing is loaded without an active category, an id or a path; otherwise exactly the path's parent ids are loaded |
| CategoryTree.OnActiveCategoryChanged | src/Administration/Resources/administration/src/module/sw-category/component/sw-category-tree/index.js:58-70 | fires only before the first load, for an active category with an id whose parent is not loaded yet; firing sets the latch and loads exactly the parent ids of the category's path (none without a path), changing nothing else; otherwise nothing changes |
| CategoryTree.WatcherFiresOnce | src/Administration/Resources/administration/src/module/sw-category/component/sw-category-tree/index.js:58-70 | once the watcher has fired it never fires again, and it loaded the path's parent ids after those loaded before |
| CategoryTree.Created | src/Administration/Resources/administration/src/module/sw-category/component/sw-category-tree/index.js:73-77 | loads exactly the parent ids of the active category's path after those loaded before; nothing changes without an active category, an id or a path, and the latch and categories are never touched |
| CategoryTree.CreateNewCategory | src/Administration/Resources/administration/src/module/sw-category/component/sw-category-tree/index.js:101-111 | sets name and parent, the child count (default 0), inactive and visible |
| CategoryTree.CreateNewElement | src/Administration/Resources/administration/src/module/sw-category/component/sw-category-tree/index.js:174-181 | a falsy parent id falls back to the context item's parent, and the new category is appended to the list |
| LanguageStore.Construct | src/Administration/Resources/administration/src/core/data/LanguageStore.js:11-25 | a missing or empty initial id falls back to the system language; a non-empty one is kept |
| LanguageStore.ConstructHasLanguage | src/Administration/Resources/administration/src/core/data/LanguageStore.js:18-24 | with a system language id, a new store always has a current language |
| LanguageStore.SetCurrentId | src/Administration/Resources/administration/src/core/data/LanguageStore.js:33-37 | sets both the store's current id and the context service's language id |
| LanguageStore.GetAfterSet | src/Administration/Resources/administration/src/core/data/LanguageStore.js:33-46 | the current id is the one most recently set |
| LanguageStore.SetKeepsContextInStep | src/Administration/Resources/administration/src/core/data/LanguageStore.js:33-55 | after a switch the store and the context agree, and the current language is the cached entry of that id |
| LanguageStore.GetCurrentLanguage | src/Administration/Resources/administration/src/core/data/LanguageStore.js:53-55 | the cached entity of the current id, present exactly when it is cached |
| LanguageStore.GetLanguageStore | src/Administration/Resources/administration/src/core/data/LanguageStore.js:57-59 | the store itself: same current id and language |
| RoutingCases.GenerateCases | src/Storefront/Test/Framework/Routing/StorefrontRoutingTest.php:156-177 | an empty key list gives no cases |
| RoutingCases.Accumulate | src/Storefront/Test/Framework/Routing/StorefrontRoutingTest.php:167-170 | one accumulated case per child result |
| RoutingCases.AccumulateExtends | src/Storefront/Test/Framework/Routing/StorefrontRoutingTest.php:166-170 | when every child has the same keys, the accumulated `$base` never shows through: each case is the popped key's value merged over that child |
| RoutingCases.GenerateIsCartesian | src/Storefront/Test/Framework/Routing/StorefrontRoutingTest.php:156-177 | with distinct keys that all have options, the generator builds exactly the cartesian product |
| RoutingCases.GenerateCount | src/Storefront/Test/Framework/Routing/StorefrontRoutingTest.php:156-177 | the number of cases is the product of the option counts |
| RoutingCases.GenerateSoundAndComplete | src/Storefront/Test/Framework/Routing/StorefrontRoutingTest.php:163-172 | a case is generated if and only if it assigns every key, and only those keys, one of its options |
| RoutingCases.SingleKey | src/Storefront/Test/Framework/Routing/StorefrontRoutingTest.php:164-175 | a single key gives one case per option, each mapping only that key |
| RoutingCases.CartesianSound | src/Storefront/Test/Framework/Routing/StorefrontRoutingTest.php:163-172 | every member of the product assigns each key one of its options |
| RoutingCases.CartesianComplete | src/Storefront/Test/Framework/Routing/StorefrontRoutingTest.php:163-172 | every such assignment is a member of the product |
| RoutingCases.CartesianCount | src/Storefront/Test/Framework/Routing/StorefrontRoutingTest.php:156-177 | the product has as many members as the product of the option counts |
| RoutingCases.MatrixCount | src/Storefront/Test/Framework/Routing/StorefrontRoutingTest.php:114-120 | the routing test's matrix has 48 cases |
| RoutingCases.HttpPort | src/Storefront/Test/Framework/Routing/StorefrontRoutingTest.php:134 | 80 unless the request is plain and on another port, which is then kept |
| RoutingCases.HttpsPort | src/Storefront/Test/Framework/Routing/StorefrontRoutingTest.php:135 | 443 unless the request is secure and on another port, which is then kept |
| RoutingCases.OwnSchemeKeepsPort | src/Storefront/Test/Framework/Routing/StorefrontRoutingTest.php:134-135 | the port of the request's own scheme is the request's port; the other scheme gets its default |
| RoutingCases.CreateCase | src/Storefront/Test/Framework/Routing/StorefrontRoutingTest.php:141-154 | a POST to the registration route on the given host and scheme, with path info `/account/register` |
| RoutingCases.CaseDecomposes | src/Storefront/Test/Framework/Routing/StorefrontRoutingTest.php:141-154 | the URI is the sub directory, then the sales channel prefix, then the path info; the script file is `/app` plus the script name |

## Left out

- Product streams: the indexer itself, its event-id extraction, cache clearing and JSON serialisation are not modelled. Only the reconstruction contract the indexer test asserts is. The order of sibling rows is table order; the `position` column is carried but not used for sorting.
- Product streams: filter types beyond `equals`, `equalsAny`, `contains`, `range` and `multi` count as unknown. Range parameters are a map from bound name to integer.
- Cascade delete: SQL, transactions across connections and the entity writer's payload normalisation are not modelled. Only the three tables of the test are, with their two `ON DELETE CASCADE` keys.
- Cascade delete: the child table declares no primary key and is a set of rows here, so two identical `cascades` entries of one parent collapse into one row where the database would hold two.
- Manufacturer definition: the framework builds field objects and derives the storage names of the version and reference-version fields. Neither is part of this model; each field is a record of storage name, property name, kind, translation and flags.
- ManufacturerDefinition.GetFields: an extension is modelled as the list of fields it appends to the collection. `extendFields` hands the whole mutable `FieldCollection` to code outside this model, which may also replace or remove fields, and the collection's behaviour on a repeated property name is not part of this model. So `GetFields`, `ExtensionFields`, `BuildAfterAddExtension`, `ExtensionFieldsIncluded` and `FirstBuildOrder` hold only for extensions that append.
- ManufacturerDefinition.BaseFieldsPrimaryKey: `VersionField` and `ReferenceVersionField` may set flags of their own, including a primary-key flag on the version field. Those classes are not part of this model, so their flags are taken as empty and the lemma speaks only of the flags set in the definition itself.
- CacheStore.CacheKey: sha256 is an uninterpreted digest parameter, so the key's value is stated in terms of that function.
- CacheStore.Lookup: the state validator is a predicate parameter. Response `unserialize`/`serialize` is identity, and the cache item's expiry and the tag-aware adapter internals are not modelled.
- CacheStore.Write: the tags the object-cache-key finder returns and the dispatched event are not modelled; only the stored response and the returned key are.
- CacheStore.Purge: Symfony's URL-to-request normalisation is not modelled; a URL is a request with no cookies and no base URL.
- SeoResolver: SQL query construction, collation and the UUID hex/bytes conversion are not modelled. The `seo_url` table is a sequence of records. Ties among equally eligible rows go to the first in table order, where the database leaves them unspecified.
- SeoResolver.Resolve: a stored `pathInfo` of `/` yields `//`, exactly as the code concatenates; the model keeps that and claims nothing about it.
- Promotion discount: `prepareAdvancedPrices` multiplies by the currency's floating-point factor and clamps through an unseen handler. Here it is the function parameter `convert`, and new price ids are the parameter `newId`.
- PromotionDiscount.IsMemberOfCollection: the loop's side effect of attaching the currency object to a matching price is not modelled; only the answer is.
- Promotion discount: `loadSetGroups` and `loadSorters` are server calls; the number of set groups is a parameter of `Scopes`. The string values of the discount types and scopes live in an unseen helper and are an enumeration here.
- CmsDetail.OnSave: when a required-field check throws, the page is already partly cleared. The model reports only that the save threw, without that intermediate state. The repository save, page reload and notifications are not modelled.
- CmsDetail.PageTypeSettings: lookups of inherited object keys such as `constructor` are not modelled; only own keys of the settings map are.
- CMS page editor: `onSectionDuplicate`, `checkSlotMappings` and `onPageTypeChange` are not modelled. They depend on an undeclared demo entity and an unseen collection type.
- CmsSidebar.RemoveId: removes every block with the id. The entity collection's `remove(id)` is not part of this model, and it may remove only the first block with that id (`RemoveFirst`); `RemoveIdIsRemoveFirst` proves the two agree while the ids within a section are unique, which the model assumes.
- CmsSidebar.OnBlockDragSort: requires both section indices to be below the number of sections, where the component would read `undefined`. The entity collection's `has`, `remove`, `add` and `moveItem` are modelled on sequences of blocks. `dragData.block` is shared with the collections, and only the returned dragged block reflects its updates.
- Category tree: loading a parent's children and setting the active tree item are asynchronous; only the list of requested parent ids is kept.
- Language store: fetching language entities from the server (`getByIdAsync`, `init`) is not modelled. The store's cache is a map from id to entity.
- RoutingCases.GenerateCases: only the empty key list is stated directly. The product, soundness and completeness hold for distinct keys that all have options (`GenerateIsCartesian`). A key with no options silently drops out of the cases, and no property is claimed for that.
- Routing test: the test methods that send the requests and compare URLs are not modelled, nor is the provider's mapping of cases through `createCase`.

## Findings

| source | as written | input that shows it | evidently intended | confidence | as-written member | corrected member |
|---|---|---|---|---|---|---|
| src/Administration/Resources/administration/src/module/sw-cms/page/sw-cms-detail/index.js:393 | the guard compares the index with the string `'undefined'` (`index === 'undefined'`), which no number and not `undefined` itself ever equals | `onAddSection('default', undefined)`: `splice(undefined, 0, section)` reads the start as 0 and inserts the section at the front | `index === undefined`: without an index, no section is added | not executed | CmsDetail.AddSectionAsWritten | CmsDetail.AddSection |

=== FILE: cache_store.dfy ===
/**
 The storefront HTTP cache store: cache keys derived from the request URI and
 its context variant, responses kept in a key-value cache, and a non-blocking
 lock per cache key recorded both in the cache and in a local lock table.
 The sha256 digest, the state validator and the cache-tag finder are opaque
 collaborators and enter as function parameters.
 */
module CacheStore {
  import opened Common

  /** The sha256 hex digest of a string. */
  type Digest = string -> string

  /** The parts of a request the store reads. */
  datatype Request = Request(
    uri: string,
    baseUrl: Option<string>,          // sales-channel base URL attribute
    contextCookie: Option<string>,    // context-cache cookie
    currencyCookie: Option<string>,   // currency cookie
    domainCurrency: Option<string>)   // domain-currency attribute

  datatype Response = Response(content: string, storefront: bool)

  /** What a cache entry holds: a serialized response with its cache tags,
      some other falsy value, or the `true` marker of a lock. */
  datatype Stored = Serialized(response: Response, tags: seq<string>) | Falsy | LockMarker

  /** The cache contents and the lock keys this store instance acquired. */
  datatype Store = Store(items: map<string, Stored>, locks: set<string>)

  datatype LockOutcome = Acquired | HeldBy(lockKey: string)

  const LockPrefix := "http_lock_"

  /** The URI the key is built from: the request URI followed by the base URL
      (an absent attribute concatenates as the empty string). */
  function KeyUri(r: Request): string {
    r.uri + r.baseUrl.GetOr("")
  }

  /** The request variant: the first present of the context cookie, the
      currency cookie and the domain-currency attribute. */
  function Variant(r: Request): (v: Option<string>)
    ensures r.contextCookie.Some? ==> v == r.contextCookie
    ensures r.contextCookie.None? && r.currencyCookie.Some? ==> v == r.currencyCookie
    ensures r.contextCookie.None? && r.currencyCookie.None? ==> v == r.domainCurrency
  {
    if r.contextCookie.Some? then r.contextCookie
    else if r.currencyCookie.Some? then r.currencyCookie
    else r.domainCurrency
  }

  /** `generateCacheKey`: `md` + digest of the URI, re-hashed with the variant
      when there is one. */
  function CacheKey(h: Digest, r: Request): (k: string)
    ensures Variant(r).None? ==> k == "md" + h(KeyUri(r))
    ensures Variant(r).Some? ==> k == h("md" + h(KeyUri(r)) + "-" + Variant(r).value)
  {
    var base := "md" + h(KeyUri(r));
    match Variant(r)
    case None => base
    case Some(v) => h(base + "-" + v)
  }

  function LockKey(h: Digest, r: Request): (k: string)
    ensures StartsWith(k, LockPrefix) && k[|LockPrefix|..] == CacheKey(h, r)
  {
    LockPrefix + CacheKey(h, r)
  }

  /** The key depends on nothing but the URI with base URL and the variant. */
  lemma CacheKeyDeterminedBy(h: Digest, r1: Request, r2: Request)
    requires KeyUri(r1) == KeyUri(r2) && Variant(r1) == Variant(r2)
    ensures CacheKey(h, r1) == CacheKey(h, r2)
  {
  }

  /** A present context cookie hides the currency cookie and the domain
      currency; a present currency cookie hides the domain currency. */
  lemma CacheKeyPriority(h: Digest, r: Request, currency: Option<string>, domain: Option<string>)
    ensures r.contextCookie.Some? ==>
              CacheKey(h, r.(currencyCookie := currency, domainCurrency := domain)) == CacheKey(h, r)
    ensures r.currencyCookie.Some? ==>
              CacheKey(h, r.(domainCurrency := domain)) == CacheKey(h, r)
  {
  }

  predicate IsHexDigit(c: char) {
    '0' <= c <= '9' || 'a' <= c <= 'f'
  }

  /** The digest yields lower-case hexadecimal text. */
  ghost predicate HexDigest(h: Digest) {
    forall s :: |h(s)| > 0 && IsHexDigit(h(s)[0])
  }

  /** With a hexadecimal digest a lock key can never collide with a cache key:
      cache keys start with `m` or a hex digit, lock keys with `h`. */
  lemma LockKeyNeverCacheKey(h: Digest, r1: Request, r2: Request)
    requires HexDigest(h)
    ensures LockKey(h, r1) != CacheKey(h, r2)
  {
    var k := CacheKey(h, r2);
    assert k[0] == 'm' || IsHexDigit(k[0]);
    assert LockKey(h, r1)[0] == 'h';
  }

  /** `lookup`: the stored response, unless the entry is missing or falsy, or
      the state validator rejects it for this request. */
  function Lookup(h: Digest, valid: (Request, Response) -> bool, s: Store, r: Request): (res: Option<Response>)
    ensures res.Some? <==> CacheKey(h, r) in s.items && s.items[CacheKey(h, r)].Serialized?
                           && valid(r, s.items[CacheKey(h, r)].response)
    ensures res.Some? ==> res.value == s.items[CacheKey(h, r)].response
  {
    var key := CacheKey(h, r);
    if key !in s.items then None
    else match s.items[key]
      case Serialized(resp, _) => if valid(r, resp) then Some(resp) else None
      case Falsy => None
      case LockMarker => None
  }

  /** The tags a written entry carries: those the finder reports for a
      storefront response, none for any other response. */
  function Tags(find: Response -> seq<string>, resp: Response): seq<string> {
    if resp.storefront then find(resp) else []
  }

  /** `write`: stores the serialized response under the request's key and
      returns that key; no other entry and no lock record changes. */
  function Write(h: Digest, find: Response -> seq<string>, s: Store, r: Request, resp: Response): (res: (Store, string))
    ensures res.1 == CacheKey(h, r)
    ensures res.1 in res.0.items && res.0.items[res.1].Serialized? && res.0.items[res.1].response == resp
    ensures res.0.locks == s.locks
    ensures forall k :: k in s.items && k != res.1 ==> k in res.0.items && res.0.items[k] == s.items[k]
    ensures res.0.items.Keys == s.items.Keys + {res.1}
  {
    var key := CacheKey(h, r);
    (s.(items := s.items[key := Serialized(resp, Tags(find, resp))]), key)
  }

  /** Writing then looking up with the same request gives the written response
      back, exactly when the validator accepts it. */
  lemma WriteThenLookup(h: Digest, find: Response -> seq<string>, valid: (Request, Response) -> bool,
                        s: Store, r: Request, resp: Response)
    ensures Lookup(h, valid, Write(h, find, s, r, resp).0, r) == if valid(r, resp) then Some(resp) else None
  {
  }

  /** `invalidate`: deletes the request's entry and nothing else. */
  function Invalidate(h: Digest, s: Store, r: Request): (s': Store)
    ensures CacheKey(h, r) !in s'.items
    ensures forall k :: k in s.items && k != CacheKey(h, r) ==> k in s'.items && s'.items[k] == s.items[k]
    ensures s'.items.Keys <= s.items.Keys && s'.locks == s.locks
  {
    s.(items := s.items - {CacheKey(h, r)})
  }

  lemma InvalidateThenLookup(h: Digest, valid: (Request, Response) -> bool, s: Store, r: Request)
    ensures Lookup(h, valid, Invalidate(h, s, r), r) == None
  {
  }

  /** `isLocked`: whether the cache holds the request's lock key. */
  predicate IsLocked(h: Digest, s: Store, r: Request) {
    LockKey(h, r) in s.items
  }

  /** `lock`: if the lock entry exists, reports its key and changes nothing;
      otherwise stores the lock marker, records the key locally and succeeds. */
  function Lock(h: Digest, s: Store, r: Request): (res: (Store, LockOutcome))
    ensures IsLocked(h, s, r) ==> res == (s, HeldBy(LockKey(h, r)))
    ensures !IsLocked(h, s, r) ==> res.1 == Acquired
    ensures !IsLocked(h, s, r) ==>
              res.0.items == s.items[LockKey(h, r) := LockMarker] && res.0.locks == s.locks + {LockKey(h, r)}
    ensures IsLocked(h, res.0, r)
  {
    var key := LockKey(h, r);
    if key in s.items then (s, HeldBy(key))
    else (Store(s.items[key := LockMarker], s.locks + {key}), Acquired)
  }

  /** Locking is non-blocking mutual exclusion: a second attempt is refused
      with the key of the lock already held. */
  lemma LockTwice(h: Digest, s: Store, r: Request)
    ensures Lock(h, Lock(h, s, r).0, r).1 == HeldBy(LockKey(h, r))
  {
  }

  /** `unlock`: deletes the lock entry and its local record; always succeeds. */
  function Unlock(h: Digest, s: Store, r: Request): (res: (Store, bool))
    ensures res.1
    ensures !IsLocked(h, res.0, r) && LockKey(h, r) !in res.0.locks
    ensures forall k :: k in s.items && k != LockKey(h, r) ==> k in res.0.items && res.0.items[k] == s.items[k]
    ensures res.0.locks == s.locks - {LockKey(h, r)}
    ensures res.0.items.Keys == s.items.Keys - {LockKey(h, r)}
  {
    var key := LockKey(h, r);
    (Store(s.items - {key}, s.locks - {key}), true)
  }

  /** Acquiring and releasing a free lock restores the store exactly. */
  lemma LockUnlockRestores(h: Digest, s: Store, r: Request)
    requires !IsLocked(h, s, r) && LockKey(h, r) !in s.locks
    ensures Unlock(h, Lock(h, s, r).0, r).0 == s
  {
    var key := LockKey(h, r);
    assert s.items[key := LockMarker] - {key} == s.items;
    assert s.locks + {key} - {key} == s.locks;
  }

  /** `cleanup`: deletes every locally recorded lock entry and forgets them. */
  function Cleanup(s: Store): (s': Store)
    ensures s'.locks == {}
    ensures forall k :: k in s.locks ==> k !in s'.items
    ensures forall k :: k in s.items && k !in s.locks ==> k in s'.items && s'.items[k] == s.items[k]
    ensures s'.items.Keys == s.items.Keys - s.locks
  {
    Store(s.items - s.locks, {})
  }

  /** After a cleanup no lock this store acquired is still held. */
  lemma CleanupReleasesOwnLocks(h: Digest, s: Store, r: Request)
    ensures !IsLocked(h, Cleanup(Lock(h, s, r).0), r) || (IsLocked(h, s, r) && LockKey(h, r) !in s.locks)
  {
  }

  /** `preg_replace('#^https:#', 'http:', url)`. */
  function HttpVariant(url: string): (v: string)
    ensures StartsWith(url, "https:") ==> v == "http:" + url[6..]
    ensures !StartsWith(url, "https:") ==> v == url
  {
    if StartsWith(url, "https:") then "http:" + url[6..] else url
  }

  /** `preg_replace('#^http:#', 'https:', url)`. */
  function HttpsVariant(url: string): (v: string)
    ensures StartsWith(url, "http:") ==> v == "https:" + url[5..]
    ensures !StartsWith(url, "http:") ==> v == url
  {
    if StartsWith(url, "http:") then "https:" + url[5..] else url
  }

  /** A bare request for a URL: no cookies, no attributes. */
  function UrlRequest(url: string): Request {
    Request(url, None, None, None, None)
  }

  /** `purge`: unlocks the http and https forms of the URL and reports success. */
  function Purge(h: Digest, s: Store, url: string): (res: (Store, bool))
    ensures res.1
    ensures !IsLocked(h, res.0, UrlRequest(HttpVariant(url)))
    ensures !IsLocked(h, res.0, UrlRequest(HttpsVariant(url)))
    ensures forall k :: (k in s.items && k != LockKey(h, UrlRequest(HttpVariant(url)))
                         && k != LockKey(h, UrlRequest(HttpsVariant(url)))) ==>
              k in res.0.items && res.0.items[k] == s.items[k]
    ensures res.0.items.Keys
            == s.items.Keys - {LockKey(h, UrlRequest(HttpVariant(url))), LockKey(h, UrlRequest(HttpsVariant(url)))}
    ensures res.0.locks
            == s.locks - {LockKey(h, UrlRequest(HttpVariant(url))), LockKey(h, UrlRequest(HttpsVariant(url)))}
  {
    var (s1, httpPurged) := Unlock(h, s, UrlRequest(HttpVariant(url)));
    var (s2, httpsPurged) := Unlock(h, s1, UrlRequest(HttpsVariant(url)));
    (s2, httpPurged || httpsPurged)
  }

  /** An http URL and its https form name the same pair of variants. */
  lemma PurgeVariantsAgree(rest: string)
    ensures HttpVariant("https:" + rest) == HttpVariant("http:" + rest) == "http:" + rest
    ensures HttpsVariant("https:" + rest) == HttpsVariant("http:" + rest) == "https:" + rest
  {
    assert ("https:" + rest)[6..] == rest;
    assert ("http:" + rest)[5..] == rest;
    assert !StartsWith("https:" + rest, "http:") by {
      assert ("https:" + rest)[4] == 's';
    }
  }
}

=== FILE: category_tree.dfy ===
/**
 The administration's category tree: opening the tree along the active
 category's path (`|root|…|parent|`), the watcher that does so at most once,
 and the creation of new categories.
 Loading a parent's children is an asynchronous call; the model records
 which parent ids were requested, in order.
 */
module CategoryTree {
  import opened Common

  /** The active category as the tree sees it; `None` is `null`/absent. */
  datatype Category = Category(id: Option<string>, parentId: Option<string>, path: Option<string>)

  datatype NewCategory = NewCategory(id: string, name: string, parentId: Option<string>, childCount: int,
                                     active: bool, visible: bool)

  datatype Tree = Tree(loadedParentIds: seq<string>, hasInitiallyLoaded: bool, categories: seq<NewCategory>)

  /** A string that JavaScript treats as truthy: present and non-empty. */
  predicate Truthy(s: Option<string>) {
    s.Some? && s.value != ""
  }

  predicate NonEmpty(s: string) {
    s != ""
  }

  /** The parent ids of a category path, nearest parent first: the path split
      on `|`, reversed, with empty segments dropped. */
  function ParentIds(path: string): (ids: seq<string>)
    ensures forall i :: 0 <= i < |ids| ==> ids[i] != "" && '|' !in ids[i]
  {
    var r := Common.Filter(Reverse(Split(path, '|')), NonEmpty);
    assert forall i :: 0 <= i < |r| ==> r[i] in Split(path, '|');
    r
  }

  /** Splitting a joined list followed by the separator yields the list, then
      the parts of whatever follows. */
  lemma {:induction false} SplitJoinThen(parts: seq<string>, rest: string)
    requires |parts| >= 1
    requires forall i :: 0 <= i < |parts| ==> '|' !in parts[i]
    ensures Split(Join(parts, '|') + ['|'] + rest, '|') == parts + Split(rest, '|')
  {
    if |parts| == 1 {
      SplitJoinSingle(parts, rest);
    } else {
      var tail := parts[1..];
      assert forall i :: 0 <= i < |tail| ==> '|' !in tail[i] by {
        forall i | 0 <= i < |tail| ensures '|' !in tail[i] {
          assert tail[i] == parts[i + 1];
        }
      }
      SplitJoinCons(parts, rest);
      SplitJoinThen(tail, rest);
      ConsThenAppend(parts, Split(rest, '|'));
    }
  }

  /** The head of a list, then its tail followed by more, is the list followed by more. */
  lemma ConsThenAppend<T>(s: seq<T>, more: seq<T>)
    requires |s| >= 1
    ensures [s[0]] + (s[1..] + more) == s + more
  {
    assert [s[0]] + s[1..] == s;
  }

  /** A single part followed by the separator splits off on its own. */
  lemma SplitJoinSingle(parts: seq<string>, rest: string)
    requires |parts| == 1 && '|' !in parts[0]
    ensures Split(Join(parts, '|') + ['|'] + rest, '|') == parts + Split(rest, '|')
  {
    assert Join(parts, '|') == parts[0] && parts == [parts[0]];
    SplitAfterPart(parts[0], '|', rest);
  }

  /** The first of several joined parts splits off on its own. */
  lemma SplitJoinCons(parts: seq<string>, rest: string)
    requires |parts| >= 2 && '|' !in parts[0]
    ensures Split(Join(parts, '|') + ['|'] + rest, '|') == [parts[0]] + Split(Join(parts[1..], '|') + ['|'] + rest, '|')
  {
    var tail := Join(parts[1..], '|') + ['|'] + rest;
    assert Join(parts, '|') + ['|'] + rest == parts[0] + ['|'] + tail;
    SplitAfterPart(parts[0], '|', tail);
  }

  /** The path the platform stores for a category below `ids`: `|id1|…|idn|`. */
  function StoredPath(ids: seq<string>): string
    requires |ids| >= 1
  {
    "|" + Join(ids, '|') + "|"
  }

  /** Splitting a stored path gives an empty segment on either side of the ids. */
  lemma SplitStoredPath(ids: seq<string>)
    requires |ids| >= 1
    requires forall i :: 0 <= i < |ids| ==> '|' !in ids[i]
    ensures Split(StoredPath(ids), '|') == [""] + ids + [""]
  {
    var joined := Join(ids, '|');
    var inner := joined + ['|'] + [];
    var path := [] + ['|'] + inner;
    assert path == "|" + joined + "|";
    SplitJoinThen(ids, []);
    SplitAfterPart([], '|', inner);
    assert Split([], '|') == [""];
  }

  /** Dropping the empty outer segments of a list of non-empty ids. */
  lemma DropOuterEmpty(r: seq<string>)
    requires forall i :: 0 <= i < |r| ==> r[i] != ""
    ensures Common.Filter([""] + r + [""], NonEmpty) == r
  {
    FilterConcat([""] + r, [""], NonEmpty);
    FilterConcat([""], r, NonEmpty);
    FilterAll(r, NonEmpty);
    assert Common.Filter([""], NonEmpty) == [];
  }

  /** The path the platform stores, `|id1|id2|…|idn|`, gives the ids back
      nearest parent first. */
  lemma ParentIdsOfStoredPath(ids: seq<string>)
    requires |ids| >= 1
    requires forall i :: 0 <= i < |ids| ==> ids[i] != "" && '|' !in ids[i]
    ensures ParentIds(StoredPath(ids)) == Reverse(ids)
  {
    SplitStoredPath(ids);
    ReverseFramed(ids);
    DropOuterEmpty(Reverse(ids));
  }

  /** Reversing keeps an empty segment on either side of the ids. */
  lemma ReverseFramed(ids: seq<string>)
    ensures Reverse([""] + ids + [""]) == [""] + Reverse(ids) + [""]
  {
    var parts := [""] + ids + [""];
    ReverseConcat([""] + ids, [""]);
    ReverseConcat([""], ids);
    assert Reverse([""]) == [""];
    assert Reverse(parts) == Reverse([""]) + (Reverse(ids) + Reverse([""]));
  }

  /** `getParentItems`: every id is recorded as loaded, in the given order,
      after those loaded before. */
  method GetParentItems(t: Tree, ids: seq<string>) returns (t': Tree)
    ensures t'.loadedParentIds == t.loadedParentIds + ids
    ensures t' == t.(loadedParentIds := t'.loadedParentIds)
  {
    var loaded := t.loadedParentIds;
    var i := 0;
    while i < |ids|
      invariant 0 <= i <= |ids|
      invariant loaded == t.loadedParentIds + ids[..i]
    {
      assert ids[..i + 1] == ids[..i] + [ids[i]];
      loaded := loaded + [ids[i]];
      i := i + 1;
    }
    assert ids[..i] == ids;
    t' := t.(loadedParentIds := loaded);
  }

  /** `getParentIdsByItemId`: loads the parents along the active category's
      path; nothing happens without an active category, an id or a path. */
  method OpenTreeById(t: Tree, active: Option<Category>) returns (t': Tree)
    ensures active.None? || !Truthy(active.value.id) || !Truthy(active.value.path) ==> t' == t
    ensures active.Some? && Truthy(active.value.id) && Truthy(active.value.path) ==>
              t' == t.(loadedParentIds := t.loadedParentIds + ParentIds(active.value.path.value))
  {
    if active.None? || !Truthy(active.value.id) {
      return t;
    }
    var category := active.value;
    if !Truthy(category.path) {
      return t;
    }
    t' := GetParentItems(t, ParentIds(category.path.value));
  }

  /** The parent ids opening the tree at `active` loads: those of its path,
      or none without an active category, an id or a path. */
  function PathParents(active: Option<Category>): seq<string> {
    if active.Some? && Truthy(active.value.id) && Truthy(active.value.path)
    then ParentIds(active.value.path.value)
    else []
  }

  /** The watcher fires: an active category with an id whose parent is not
      loaded yet. */
  predicate WatcherFires(t: Tree, active: Option<Category>) {
    !t.hasInitiallyLoaded && active.Some? && Truthy(active.value.id)
    && !(active.value.parentId.Some? && active.value.parentId.value in t.loadedParentIds)
  }

  /** The `activeCategory` watcher: opens the tree at most once. */
  method OnActiveCategoryChanged(t: Tree, active: Option<Category>) returns (t': Tree)
    ensures !WatcherFires(t, active) ==> t' == t
    ensures WatcherFires(t, active) ==> t'.hasInitiallyLoaded
    ensures WatcherFires(t, active) ==>
              t' == t.(hasInitiallyLoaded := true, loadedParentIds := t.loadedParentIds + PathParents(active))
    ensures t.hasInitiallyLoaded ==> t' == t
    ensures t'.categories == t.categories
    ensures |t.loadedParentIds| <= |t'.loadedParentIds| && t'.loadedParentIds[..|t.loadedParentIds|] == t.loadedParentIds
  {
    if t.hasInitiallyLoaded {
      return t;
    }
    if active.Some? && Truthy(active.value.id) {
      var parent := active.value.parentId;
      if !(parent.Some? && parent.value in t.loadedParentIds) {
        t' := t.(hasInitiallyLoaded := true);
        t' := OpenTreeById(t', active);
        return;
      }
    }
    return t;
  }

  /** After the watcher fired, no later change of the active category fires it
      again, and it loaded exactly what opening the tree on creation loads. */
  lemma WatcherFiresOnce(t: Tree, active: Option<Category>, later: Option<Category>)
    requires WatcherFires(t, active)
    ensures var t' := t.(hasInitiallyLoaded := true, loadedParentIds := t.loadedParentIds + PathParents(active));
            !WatcherFires(t', later)
            && t'.loadedParentIds[..|t.loadedParentIds|] == t.loadedParentIds
            && t'.loadedParentIds[|t.loadedParentIds|..] == PathParents(active)
  {
  }

  /** `createdComponent`: opens the tree when there is an active category with an id. */
  method Created(t: Tree, active: Option<Category>) returns (t': Tree)
    ensures active.Some? && Truthy(active.value.id) && Truthy(active.value.path) ==>
              t'.loadedParentIds == t.loadedParentIds + ParentIds(active.value.path.value)
    ensures !(active.Some? && Truthy(active.value.id)) ==> t' == t
    ensures t' == t.(loadedParentIds := t.loadedParentIds + PathParents(active))
  {
    t' := t;
    if active.Some? && Truthy(active.value.id) {
      t' := OpenTreeById(t, active);
    }
  }

  /** `createNewCategory`: inactive, visible, with no children unless told. */
  function CreateNewCategory(newId: string, name: string, parentId: Option<string>, childCount: Option<int>): (c: NewCategory)
    ensures c.name == name && c.parentId == parentId && c.id == newId
    ensures c.childCount == childCount.GetOr(0)
    ensures !c.active && c.visible
  {
    NewCategory(newId, name, parentId, childCount.GetOr(0), false, true)
  }

  /** `createNewElement`: a falsy parent id falls back to the context item's
      parent; the new category is appended to the list. */
  function CreateNewElement(t: Tree, newId: string, contextItem: Option<Category>, parentId: Option<string>,
                            name: Option<string>): (res: (Tree, NewCategory))
    ensures res.0 == t.(categories := t.categories + [res.1])
    ensures res.1.parentId == if !Truthy(parentId) && contextItem.Some? then contextItem.value.parentId else parentId
    ensures res.1.name == name.GetOr("") && res.1.childCount == 0 && !res.1.active && res.1.visible
  {
    var parent := if !Truthy(parentId) && contextItem.Some? then contextItem.value.parentId else parentId;
    var c := CreateNewCategory(newId, name.GetOr(""), parent, None);
    (t.(categories := t.categories + [c]), c)
  }
}

=== FILE: cms_detail.dfy ===
/**
 The list and validation rules of the administration's CMS page editor: the
 page type settings, adding a section, the two save gates, stripping the
 editor-only config keys, renumbering section and block positions, and
 duplicating a block with its slots.
 Ids of newly created entities come from the repository and enter as
 parameters; the page save itself is I/O and is represented by its payload.
 */
module CmsDetail {
  import opened Common

  /** The JavaScript values a slot config field holds. */
  datatype Value = Undefined | Null | Bool(b: bool) | Num(n: int) | Str(s: string) | Arr(items: seq<Value>) | Obj

  /** JavaScript truthiness (`!!v`). */
  predicate Truthy(v: Value) {
    match v
    case Undefined => false
    case Null => false
    case Bool(b) => b
    case Num(n) => n != 0
    case Str(s) => s != ""
    case Arr(_) => true
    case Obj => true
  }

  /** A config field is an object: its present keys and their values. */
  type ConfigField = map<string, Value>

  /** Reading a key of a config field; a missing key reads as `undefined`. */
  function Get(f: ConfigField, key: string): Value {
    if key in f then f[key] else Undefined
  }

  /** A slot's config, in `Object.values` order. */
  datatype ConfigEntry = ConfigEntry(name: string, field: ConfigField)

  datatype Slot = Slot(id: string, blockId: string, slot: string, slotType: string, config: seq<ConfigEntry>, data: Value)

  datatype Block = Block(id: string, sectionId: string, blockType: string, position: int,
                         backgroundMedia: Option<string>, slots: seq<Slot>)

  datatype Section = Section(id: string, pageId: string, sectionType: string, sizingMode: string,
                             position: int, blocks: seq<Block>)

  /** A page; `None` for `name` or `pageType` is a JavaScript `null`. */
  datatype Page = Page(id: string, name: Option<string>, pageType: Option<string>, sections: seq<Section>)

  /** What a page type maps to in the editor. */
  datatype Mode = Single | Static
  datatype TypeSettings = TypeSettings(entity: Option<string>, mode: Mode)

  /** `cmsPageTypeSettings`: product pages map to a single product, listing
      pages to a single category, every other page type is static. */
  function PageTypeSettings(pageType: Option<string>): (t: TypeSettings)
    ensures pageType == Some("product_detail") ==> t == TypeSettings(Some("product"), Single)
    ensures pageType == Some("product_list") ==> t == TypeSettings(Some("category"), Single)
    ensures t.entity.None? <==> t.mode == Static
    ensures t.mode == Static <==> pageType != Some("product_detail") && pageType != Some("product_list")
  {
    match pageType
    case Some("product_detail") => TypeSettings(Some("product"), Single)
    case Some("product_list") => TypeSettings(Some("category"), Single)
    case _ => TypeSettings(None, Static)
  }

  // ---------------------------------------------------------------- positions

  predicate BlocksNumbered(bs: seq<Block>) {
    forall i :: 0 <= i < |bs| ==> bs[i].position == i
  }

  /** Every section's position is its index, and every block's its index in its section. */
  predicate Numbered(ss: seq<Section>) {
    forall i :: 0 <= i < |ss| ==> ss[i].position == i && BlocksNumbered(ss[i].blocks)
  }

  /** `updateBlockPositions`. */
  function RenumberBlocks(bs: seq<Block>): (r: seq<Block>)
    ensures |r| == |bs| && BlocksNumbered(r)
    ensures forall i :: 0 <= i < |bs| ==> r[i].(position := bs[i].position) == bs[i]
  {
    seq(|bs|, i requires 0 <= i < |bs| => bs[i].(position := i))
  }

  /** A section moved to index `i`, its blocks renumbered in place. */
  function Renumbered(sec: Section, i: nat): Section {
    sec.(position := i, blocks := RenumberBlocks(sec.blocks))
  }

  /** `updateSectionAndBlockPositions`: only positions change. */
  function Renumber(ss: seq<Section>): (r: seq<Section>)
    ensures |r| == |ss| && Numbered(r)
    ensures forall i :: 0 <= i < |ss| ==> r[i].id == ss[i].id && |r[i].blocks| == |ss[i].blocks|
    ensures forall i :: 0 <= i < |ss| ==>
              r[i].(position := ss[i].position, blocks := ss[i].blocks) == ss[i]
              && forall j :: 0 <= j < |ss[i].blocks| ==>
                   r[i].blocks[j].(position := ss[i].blocks[j].position) == ss[i].blocks[j]
  {
    seq(|ss|, i requires 0 <= i < |ss| => Renumbered(ss[i], i))
  }

  /** Renumbering changes nothing exactly when the positions are already numbered. */
  lemma RenumberFixesNumbered(ss: seq<Section>)
    ensures Renumber(ss) == ss <==> Numbered(ss)
  {
    if Numbered(ss) {
      forall i | 0 <= i < |ss|
        ensures Renumber(ss)[i] == ss[i]
      {
        assert RenumberBlocks(ss[i].blocks) == ss[i].blocks;
      }
    }
  }

  /** Renumbering twice is renumbering once. */
  lemma RenumberIdempotent(ss: seq<Section>)
    ensures Renumber(Renumber(ss)) == Renumber(ss)
  {
    RenumberFixesNumbered(Renumber(ss));
  }

  // ---------------------------------------------------------------- sections

  /** `Array.prototype.splice`'s start index for an array of length `len`:
      negative starts count from the end, and the result is clamped to 0..len. */
  function SpliceStart(len: nat, start: int): (k: nat)
    ensures k <= len
    ensures 0 <= start <= len ==> k == start
    ensures start > len ==> k == len
    ensures start < 0 ==> k == if len + start < 0 then 0 else len + start
  {
    if start < 0 then (if len + start < 0 then 0 else len + start)
    else if start > len then len
    else start
  }

  function Insert<T>(s: seq<T>, k: nat, x: T): (r: seq<T>)
    requires k <= |s|
    ensures |r| == |s| + 1 && r[k] == x
    ensures r[..k] == s[..k] && r[k + 1..] == s[k..]
  {
    s[..k] + [x] + s[k..]
  }

  /** The index argument of `onAddSection`: a number, or absent. */
  datatype IndexArg = Missing | At(n: int)

  /** A falsy section type (`!type`). */
  predicate FalsyType(sectionType: Option<string>) {
    sectionType.None? || sectionType == Some("")
  }

  /** The section `onAddSection` creates. */
  function NewSection(p: Page, newId: string, sectionType: string, position: int): Section {
    Section(newId, p.id, sectionType, "boxed", position, [])
  }

  /** `onAddSection` as written: the guard compares the index with the string
      `'undefined'`, which neither a number nor `undefined` ever equals, so a
      missing index is passed on to `splice`, which reads it as 0. */
  function AddSectionAsWritten(p: Page, sectionType: Option<string>, index: IndexArg, newId: string): (p': Page)
    ensures FalsyType(sectionType) ==> p' == p
    ensures !FalsyType(sectionType) && index.Missing? ==>
              |p'.sections| == |p.sections| + 1 && p'.sections[0].id == newId
  {
    if FalsyType(sectionType) then p
    else
      var start := match index case Missing => 0 case At(n) => n;
      var k := SpliceStart(|p.sections|, start);
      p.(sections := Renumber(Insert(p.sections, k, NewSection(p, newId, sectionType.value, start))))
  }

  /** The missing index is not rejected: the new section lands first. */
  lemma AddSectionMissingIndexInserts(p: Page, newId: string)
    ensures AddSectionAsWritten(p, Some("default"), Missing, newId) != p
  {
    assert |AddSectionAsWritten(p, Some("default"), Missing, newId).sections| == |p.sections| + 1;
  }

  /** `onAddSection` with the evidently intended guard: a falsy type or a
      missing index leaves the page alone; otherwise a boxed section of the
      type is inserted at the (splice-normalised) index and positions are
      renumbered. */
  function AddSection(p: Page, sectionType: Option<string>, index: IndexArg, newId: string): (p': Page)
    ensures FalsyType(sectionType) || index.Missing? ==> p' == p
    ensures !FalsyType(sectionType) && index.At? ==>
              var k := SpliceStart(|p.sections|, index.n);
              && p'.id == p.id && p'.name == p.name && p'.pageType == p.pageType
              && |p'.sections| == |p.sections| + 1
              && Numbered(p'.sections)
              && p'.sections[k] == Section(newId, p.id, sectionType.value, "boxed", k, [])
              && (forall i :: 0 <= i < k ==> p'.sections[i] == Renumbered(p.sections[i], i))
              && (forall i :: k < i < |p'.sections| ==> p'.sections[i] == Renumbered(p.sections[i - 1], i))
  {
    if FalsyType(sectionType) || index.Missing? then p
    else
      var k := SpliceStart(|p.sections|, index.n);
      var inserted := Insert(p.sections, k, NewSection(p, newId, sectionType.value, index.n));
      RenumberInserted(p.sections, k, NewSection(p, newId, sectionType.value, index.n));
      p.(sections := Renumber(inserted))
  }

  /** Renumbering after an insertion at `k`: the sections before `k` keep their
      index, the inserted one gets `k`, the later ones move up by one. */
  lemma RenumberInserted(ss: seq<Section>, k: nat, x: Section)
    requires k <= |ss|
    ensures var r := Renumber(Insert(ss, k, x));
            && |r| == |ss| + 1
            && r[k] == Renumbered(x, k)
            && (forall i :: 0 <= i < k ==> r[i] == Renumbered(ss[i], i))
            && (forall i :: k < i < |r| ==> r[i] == Renumbered(ss[i - 1], i))
  {
    var inserted := Insert(ss, k, x);
    assert forall i :: 0 <= i < k ==> inserted[i] == ss[i];
    assert forall i :: k < i < |inserted| ==> inserted[i] == ss[i - 1];
  }

  /** Both versions agree whenever an index is given. */
  lemma AddSectionAgreesWithIndex(p: Page, sectionType: Option<string>, n: int, newId: string)
    ensures AddSectionAsWritten(p, sectionType, At(n), newId) == AddSection(p, sectionType, At(n), newId)
  {
  }

  // ---------------------------------------------------------------- saving

  /** A required field counts as empty when its value is `null` or has a
      length below 1; a value with no length (a number, a boolean, an object)
      never does. */
  predicate EmptyValue(v: Value) {
    v.Null? || (v.Str? && |v.s| < 1) || (v.Arr? && |v.items| < 1)
  }

  /** A config field the save gate reports: a truthy `required` with an empty value. */
  predicate RequiredButEmpty(f: ConfigField) {
    Truthy(Get(f, "required")) && EmptyValue(Get(f, "value"))
  }

  /** The config fields of a slot, in `Object.values` order. */
  function Fields(config: seq<ConfigEntry>): (fs: seq<ConfigField>)
    ensures |fs| == |config| && forall i :: 0 <= i < |config| ==> fs[i] == config[i].field
  {
    seq(|config|, i requires 0 <= i < |config| => config[i].field)
  }

  /** Reading `.length` of an absent value throws a TypeError. */
  datatype CheckError = TypeError

  /** `checkRequiredSlotConfigField`: the config fields with a truthy
      `required` whose value is empty, in config order; a required field
      without a `value` key makes the check throw. */
  function CheckRequired(config: seq<ConfigEntry>): (r: Result<seq<ConfigField>, CheckError>)
    ensures r.Err? <==> exists i :: 0 <= i < |config| && Truthy(Get(config[i].field, "required"))
                                    && Get(config[i].field, "value").Undefined?
    ensures r.Ok? ==> |r.value| <= |config|
    ensures r.Ok? ==> forall j :: 0 <= j < |r.value| ==>
              Truthy(Get(r.value[j], "required")) && EmptyValue(Get(r.value[j], "value"))
    ensures r.Ok? ==> forall i :: (0 <= i < |config| && Truthy(Get(config[i].field, "required"))
                                   && EmptyValue(Get(config[i].field, "value"))) ==> config[i].field in r.value
    ensures r.Ok? ==> r.value == Common.Filter(Fields(config), RequiredButEmpty)
  {
    if |config| == 0 then Ok([])
    else
      var f := config[0].field;
      var rest := CheckRequired(config[1..]);
      if Truthy(Get(f, "required")) && Get(f, "value").Undefined? then Err(TypeError)
      else if rest.Err? then
        var i :| 0 <= i < |config[1..]| && Truthy(Get(config[1..][i].field, "required"))
                 && Get(config[1..][i].field, "value").Undefined?;
        assert config[i + 1] == config[1..][i];
        Err(TypeError)
      else
        assert Fields(config)[1..] == Fields(config[1..]);
        if Truthy(Get(f, "required")) && EmptyValue(Get(f, "value")) then Ok([f] + rest.value)
        else Ok(rest.value)
  }

  /** Every slot of the page, section by section and block by block. */
  function BlockSlots(bs: seq<Block>): seq<Slot> {
    if |bs| == 0 then [] else bs[0].slots + BlockSlots(bs[1..])
  }

  function PageSlots(ss: seq<Section>): seq<Slot> {
    if |ss| == 0 then [] else BlockSlots(ss[0].blocks) + PageSlots(ss[1..])
  }

  /** Outcome of the save gates: `None` means some slot's check threw. */
  function MissingRequired(slots: seq<Slot>): (r: Option<bool>)
    ensures r == Some(false) ==> forall i :: 0 <= i < |slots| ==> CheckRequired(slots[i].config) == Ok([])
    ensures r == Some(true) ==> exists i :: 0 <= i < |slots| && CheckRequired(slots[i].config).Ok?
                                          && CheckRequired(slots[i].config).value != []
    ensures r.None? <==> exists i :: 0 <= i < |slots| && CheckRequired(slots[i].config).Err?
  {
    if |slots| == 0 then Some(false)
    else
      var head := CheckRequired(slots[0].config);
      var rest := MissingRequired(slots[1..]);
      if head.Err? then None
      else if rest.None? then
        var i :| 0 <= i < |slots[1..]| && CheckRequired(slots[1..][i].config).Err?;
        assert slots[i + 1] == slots[1..][i];
        None
      else if head.value != [] then Some(true)
      else if rest == Some(true) then
        var i :| 0 <= i < |slots[1..]| && CheckRequired(slots[1..][i].config).Ok?
                 && CheckRequired(slots[1..][i].config).value != [];
        assert slots[i + 1] == slots[1..][i];
        Some(true)
      else Some(false)
  }

  /** `block.backgroundMedia = null` for every block of a section. */
  function ClearBlocks(bs: seq<Block>): (r: seq<Block>)
    ensures |r| == |bs|
    ensures forall j :: 0 <= j < |bs| ==> r[j].backgroundMedia.None? && r[j].(backgroundMedia := bs[j].backgroundMedia) == bs[j]
  {
    seq(|bs|, j requires 0 <= j < |bs| => bs[j].(backgroundMedia := None))
  }

  /** `block.backgroundMedia = null` for every block of every section. */
  function ClearBackgroundMedia(ss: seq<Section>): (r: seq<Section>)
    ensures |r| == |ss|
    ensures forall i :: 0 <= i < |ss| ==> r[i] == ss[i].(blocks := ClearBlocks(ss[i].blocks))
  {
    seq(|ss|, i requires 0 <= i < |ss| => ss[i].(blocks := ClearBlocks(ss[i].blocks)))
  }

  /** Removing `entity` and `required` from a config field when truthy. */
  function StripField(f: ConfigField): (r: ConfigField)
    ensures "entity" in r <==> "entity" in f && !Truthy(f["entity"])
    ensures "required" in r <==> "required" in f && !Truthy(f["required"])
    ensures forall k :: k in r ==> k in f && r[k] == f[k]
    ensures forall k :: k in f && k != "entity" && k != "required" ==> k in r
  {
    var withoutEntity := if "entity" in f && Truthy(f["entity"]) then f - {"entity"} else f;
    if "required" in withoutEntity && Truthy(withoutEntity["required"]) then withoutEntity - {"required"}
    else withoutEntity
  }

  function StripConfig(config: seq<ConfigEntry>): (r: seq<ConfigEntry>)
    ensures |r| == |config|
    ensures forall i :: 0 <= i < |config| ==> r[i] == ConfigEntry(config[i].name, StripField(config[i].field))
  {
    seq(|config|, i requires 0 <= i < |config| => ConfigEntry(config[i].name, StripField(config[i].field)))
  }

  /** `deleteEntityAndRequiredConfigKey`: strips every slot config; nothing
      but the config fields changes. */
  function StripSections(ss: seq<Section>): (r: seq<Section>)
    ensures |r| == |ss|
    ensures forall i :: 0 <= i < |ss| ==> r[i].(blocks := ss[i].blocks) == ss[i] && |r[i].blocks| == |ss[i].blocks|
    ensures forall i, j :: 0 <= i < |ss| && 0 <= j < |ss[i].blocks| ==>
              r[i].blocks[j].(slots := ss[i].blocks[j].slots) == ss[i].blocks[j]
              && |r[i].blocks[j].slots| == |ss[i].blocks[j].slots|
              && forall k :: 0 <= k < |ss[i].blocks[j].slots| ==>
                   r[i].blocks[j].slots[k] == ss[i].blocks[j].slots[k].(config := StripConfig(ss[i].blocks[j].slots[k].config))
  {
    seq(|ss|, i requires 0 <= i < |ss| =>
      ss[i].(blocks := seq(|ss[i].blocks|, j requires 0 <= j < |ss[i].blocks| =>
        ss[i].blocks[j].(slots := seq(|ss[i].blocks[j].slots|, k requires 0 <= k < |ss[i].blocks[j].slots| =>
          ss[i].blocks[j].slots[k].(config := StripConfig(ss[i].blocks[j].slots[k].config)))))))
  }

  /** Stripping twice is stripping once. */
  lemma StripFieldIdempotent(f: ConfigField)
    ensures StripField(StripField(f)) == StripField(f)
  {
  }

  datatype SaveOutcome =
    | MissingPageFields                   // name or type missing; nothing changes
    | MissingBlockFields(sections: seq<Section>)  // rejected after background media were cleared
    | CheckThrew                          // a required field had no value key
    | Saved(page: Page)                   // the payload handed to the repository

  /** The first gate: a page without a type, or without a name while the
      system language is being edited, cannot be saved. */
  predicate PageFieldsMissing(p: Page, isSystemLanguage: bool) {
    (isSystemLanguage && (p.name.None? || p.name == Some(""))) || p.pageType.None? || p.pageType == Some("")
  }

  /** `onSave` up to the repository call. */
  function OnSave(p: Page, currentLanguageId: string, systemLanguageId: string): (o: SaveOutcome)
    ensures PageFieldsMissing(p, currentLanguageId == systemLanguageId) <==> o.MissingPageFields?
    ensures o.MissingBlockFields? ==> MissingRequired(PageSlots(p.sections)) == Some(true)
                                      && o.sections == ClearBackgroundMedia(p.sections)
    ensures o.Saved? ==> MissingRequired(PageSlots(p.sections)) == Some(false)
    ensures o.Saved? ==> o.page == p.(sections := StripSections(ClearBackgroundMedia(p.sections)))
    ensures !o.MissingPageFields? && MissingRequired(PageSlots(p.sections)) == Some(false) ==> o.Saved?
    ensures !o.MissingPageFields? && MissingRequired(PageSlots(p.sections)) == Some(true) ==>
              o == MissingBlockFields(ClearBackgroundMedia(p.sections))
    ensures o.CheckThrew? <==>
              !PageFieldsMissing(p, currentLanguageId == systemLanguageId) && MissingRequired(PageSlots(p.sections)).None?
  {
    if PageFieldsMissing(p, currentLanguageId == systemLanguageId) then MissingPageFields
    else
      var cleared := ClearBackgroundMedia(p.sections);
      ClearedSlotsSame(p.sections);
      match MissingRequired(PageSlots(cleared))
      case None => CheckThrew
      case Some(true) => MissingBlockFields(cleared)
      case Some(false) => Saved(p.(sections := StripSections(cleared)))
  }

  /** Clearing background media touches no slot. */
  lemma {:induction false} ClearedSlotsSame(ss: seq<Section>)
    ensures PageSlots(ClearBackgroundMedia(ss)) == PageSlots(ss)
  {
    if |ss| > 0 {
      var c := ClearBackgroundMedia(ss);
      assert c[1..] == ClearBackgroundMedia(ss[1..]);
      ClearedSlotsSame(ss[1..]);
      ClearedBlockSlotsSame(ss[0].blocks);
      assert PageSlots(c) == BlockSlots(c[0].blocks) + PageSlots(c[1..]);
    }
  }

  lemma {:induction false} ClearedBlockSlotsSame(bs: seq<Block>)
    ensures BlockSlots(ClearBlocks(bs)) == BlockSlots(bs)
  {
    if |bs| > 0 {
      var c := ClearBlocks(bs);
      assert c[1..] == ClearBlocks(bs[1..]);
      ClearedBlockSlotsSame(bs[1..]);
      assert BlockSlots(c) == c[0].slots + BlockSlots(c[1..]);
    }
  }

  // ---------------------------------------------------------------- duplication

  /** `cloneSlotsInBlock`: a fresh slot per original slot, owned by the new
      block, with the same slot name, type, config and data. */
  function CloneSlots(slots: seq<Slot>, newBlockId: string, newSlotId: Slot -> string): (r: seq<Slot>)
    ensures |r| == |slots|
    ensures forall i :: 0 <= i < |slots| ==>
              r[i] == slots[i].(id := newSlotId(slots[i]), blockId := newBlockId)
  {
    seq(|slots|, i requires 0 <= i < |slots| => slots[i].(id := newSlotId(slots[i]), blockId := newBlockId))
  }

  /** `onBlockDuplicate` for block `b` of section `s`: a copy with a fresh id
      and cloned slots is inserted at `b.position + 1`, then every position is
      renumbered. */
  function DuplicateBlock(p: Page, s: nat, b: Block, newBlockId: string, newSlotId: Slot -> string): (p': Page)
    requires s < |p.sections|
    ensures |p'.sections| == |p.sections| && Numbered(p'.sections)
    ensures |p'.sections[s].blocks| == |p.sections[s].blocks| + 1
    ensures forall i :: 0 <= i < |p.sections| && i != s ==> |p'.sections[i].blocks| == |p.sections[i].blocks|
    ensures var k := SpliceStart(|p.sections[s].blocks|, b.position + 1);
            var copy := p'.sections[s].blocks[k];
            copy.id == newBlockId && copy.sectionId == p.sections[s].id && copy.position == k
            && copy.blockType == b.blockType && copy.backgroundMedia == b.backgroundMedia
            && copy.slots == CloneSlots(b.slots, newBlockId, newSlotId)
    ensures p'.(sections := p.sections) == p
    ensures forall i :: 0 <= i < |p.sections| && i != s ==> p'.sections[i] == Renumbered(p.sections[i], i)
    ensures p'.sections[s].(position := p.sections[s].position, blocks := p.sections[s].blocks) == p.sections[s]
    ensures var k := SpliceStart(|p.sections[s].blocks|, b.position + 1);
            && (forall j :: 0 <= j < k ==> p'.sections[s].blocks[j] == p.sections[s].blocks[j].(position := j))
            && (forall j :: k < j < |p'.sections[s].blocks| ==>
                  p'.sections[s].blocks[j] == p.sections[s].blocks[j - 1].(position := j))
  {
    var section := p.sections[s];
    var copy := b.(id := newBlockId, position := b.position + 1, sectionId := section.id,
                   slots := CloneSlots(b.slots, newBlockId, newSlotId));
    var k := SpliceStart(|section.blocks|, copy.position);
    var sections := p.sections[s := section.(blocks := Insert(section.blocks, k, copy))];
    p.(sections := Renumber(sections))
  }

  /** In a numbered section the copy lands right after the original. */
  lemma DuplicateLandsAfterOriginal(p: Page, s: nat, j: nat, newBlockId: string, newSlotId: Slot -> string)
    requires s < |p.sections| && j < |p.sections[s].blocks| && Numbered(p.sections)
    ensures var p' := DuplicateBlock(p, s, p.sections[s].blocks[j], newBlockId, newSlotId);
            p'.sections[s].blocks[j + 1].id == newBlockId
            && p'.sections[s].blocks[j].id == p.sections[s].blocks[j].id
  {
    var b := p.sections[s].blocks[j];
    assert b.position == j;
    assert SpliceStart(|p.sections[s].blocks|, b.position + 1) == j + 1;
  }
}

=== FILE: cms_sidebar.dfy ===
/**
 The block navigator of the CMS sidebar: dragging a block between sections,
 where the sort handler fires each time the dragged block enters another
 block, tracking the section it currently sits in; ending or aborting a drag;
 and splitting a section's blocks into main and sidebar content.
 A section's block collection is a sequence; `has`, `remove`, `add` and
 `moveItem` of the entity collection are membership by id, removal by id,
 appending, and moving one element to another index.
 */
module CmsSidebar {
  import opened Common

  datatype Block = Block(id: string, position: int, sectionPosition: string, isDragging: bool)

  /** The data a drag or drop target carries: a block and its section's index. */
  datatype Target = Target(block: Block, sectionIndex: int)

  /** The sections' block collections and the section the dragged block is in now. */
  datatype Navigator = Navigator(sections: seq<seq<Block>>, currentDragSectionIndex: Option<int>)

  /** The result of a drag event: the navigator and the dragged block, whose
      flags the handler updates in place. */
  datatype DragResult = DragResult(nav: Navigator, dragged: Block)

  predicate Has(bs: seq<Block>, id: string) {
    exists i :: 0 <= i < |bs| && bs[i].id == id
  }

  /** `remove(id)`: every block with the id goes. Block ids are taken to be
      unique within a section, where removing the first match is the same. */
  function RemoveId(bs: seq<Block>, id: string): (r: seq<Block>)
    ensures !Has(r, id)
    ensures forall i :: 0 <= i < |r| ==> r[i] in bs
    ensures forall i :: 0 <= i < |bs| && bs[i].id != id ==> bs[i] in r
  {
    Common.Filter(bs, (b: Block) => b.id != id)
  }

  /** Removing only the first block with the id. */
  function RemoveFirst(bs: seq<Block>, id: string): (r: seq<Block>)
    ensures !Has(bs, id) ==> r == bs
    ensures Has(bs, id) ==> |r| == |bs| - 1
  {
    if |bs| == 0 then []
    else if bs[0].id == id then bs[1..]
    else
      assert Has(bs, id) ==> Has(bs[1..], id) by {
        if Has(bs, id) {
          var i :| 0 <= i < |bs| && bs[i].id == id;
          assert bs[1..][i - 1].id == id;
        }
      }
      [bs[0]] + RemoveFirst(bs[1..], id)
  }

  predicate UniqueIds(bs: seq<Block>) {
    forall i, j :: 0 <= i < j < |bs| ==> bs[i].id != bs[j].id
  }

  /** With unique ids, removing every block with the id is removing the first. */
  lemma {:induction false} RemoveIdIsRemoveFirst(bs: seq<Block>, id: string)
    requires UniqueIds(bs)
    ensures RemoveId(bs, id) == RemoveFirst(bs, id)
  {
    if |bs| > 0 {
      var p := (b: Block) => b.id != id;
      assert Common.Filter(bs, p) == (if p(bs[0]) then [bs[0]] else []) + Common.Filter(bs[1..], p);
      if bs[0].id == id {
        assert !Has(bs[1..], id) by {
          forall i | 0 <= i < |bs[1..]| ensures bs[1..][i].id != id {
            assert bs[1..][i] == bs[i + 1];
          }
        }
        FilterAll(bs[1..], p);
      } else {
        RemoveIdIsRemoveFirst(bs[1..], id);
      }
    }
  }

  /** `moveItem(from, to)`: the element at `from` is taken out and put back at
      `to` (clamped like a splice); an out-of-range `from` changes nothing. */
  function MoveItem(bs: seq<Block>, from: int, to: int): (r: seq<Block>)
    ensures |r| == |bs| && multiset(r) == multiset(bs)
    ensures 0 <= from < |bs| && 0 <= to < |bs| ==> r[to] == bs[from]
    ensures !(0 <= from < |bs|) ==> r == bs
  {
    if !(0 <= from < |bs|) then bs
    else
      var rest := bs[..from] + bs[from + 1..];
      assert bs == bs[..from] + [bs[from]] + bs[from + 1..];
      var k := if to < 0 then (if |rest| + to < 0 then 0 else |rest| + to) else if to > |rest| then |rest| else to;
      var r := rest[..k] + [bs[from]] + rest[k..];
      assert rest == rest[..k] + rest[k..];
      assert multiset(rest) == multiset(rest[..k]) + multiset(rest[k..]);
      assert multiset(rest) == multiset(bs[..from]) + multiset(bs[from + 1..]);
      assert multiset(r) == multiset(rest[..k]) + multiset([bs[from]]) + multiset(rest[k..]);
      assert multiset(bs) == multiset(bs[..from]) + multiset([bs[from]]) + multiset(bs[from + 1..]);
      r
  }

  /** The section the block is removed from on a cross-section move: the
      drag's start section, unless the block has already moved to another
      section that neighbours the drop section. */
  function RemoveIndex(current: int, dragSection: int, dropSection: int): (k: int)
    ensures k == dragSection || k == current
    ensures k == current <==> current == dragSection || (current - dropSection == 1 || dropSection - current == 1)
  {
    if current != dragSection && (current - dropSection == 1 || dropSection - current == 1) then current
    else dragSection
  }

  /** The tracked section after a cross-section move: one step toward the drop section. */
  function StepToward(current: int, dropSection: int): (c: int)
    ensures current < dropSection ==> c == current + 1
    ensures current > dropSection ==> c == current - 1
    ensures current == dropSection ==> c == current
  {
    var up := if current - dropSection < 0 then current + 1 else current;
    if up - dropSection > 0 then up - 1 else up
  }

  /** The drag and drop sections and the tracked section name real sections. */
  predicate InRange(n: Navigator, drag: Target, drop: Target) {
    drag.sectionIndex < |n.sections| && drop.sectionIndex < |n.sections|
    && (n.currentDragSectionIndex.Some? ==> 0 <= n.currentDragSectionIndex.value < |n.sections|)
  }

  /** The move `onBlockDragSort` performs across sections. */
  predicate CrossMove(n: Navigator, drag: Target, drop: Target) {
    0 <= drag.sectionIndex < |n.sections| && 0 <= drop.sectionIndex < |n.sections|
    && n.currentDragSectionIndex.GetOr(drag.sectionIndex) != drop.sectionIndex
    && !Has(n.sections[drop.sectionIndex], drag.block.id)
  }

  /** `onBlockDragSort`. */
  function OnBlockDragSort(n: Navigator, drag: Target, drop: Target, validDrop: bool): (r: DragResult)
    requires InRange(n, drag, drop)
    ensures !validDrop || drag.sectionIndex < 0 || drop.sectionIndex < 0 ==> r == DragResult(n, drag.block)
    ensures validDrop && drag.sectionIndex >= 0 && drop.sectionIndex >= 0 ==>
              && |r.nav.sections| == |n.sections|
              && r.dragged.id == drag.block.id && r.dragged.position == drag.block.position
              && r.dragged.sectionPosition == drop.block.sectionPosition
              && r.nav.currentDragSectionIndex.Some?
              && InRange(r.nav, drag, drop)
    ensures validDrop && CrossMove(n, drag, drop) ==>
              var current := n.currentDragSectionIndex.GetOr(drag.sectionIndex);
              var removeIndex := RemoveIndex(current, drag.sectionIndex, drop.sectionIndex);
              && r.dragged.isDragging
              && r.nav.currentDragSectionIndex == Some(StepToward(current, drop.sectionIndex))
              && r.nav.sections[drop.sectionIndex] ==
                   (if removeIndex == drop.sectionIndex then RemoveId(n.sections[drop.sectionIndex], drag.block.id)
                    else n.sections[drop.sectionIndex]) + [r.dragged]
              && (removeIndex != drop.sectionIndex ==>
                   r.nav.sections[removeIndex] == RemoveId(n.sections[removeIndex], drag.block.id))
              && (forall i :: 0 <= i < |n.sections| && i != removeIndex && i != drop.sectionIndex ==>
                   r.nav.sections[i] == n.sections[i])
    ensures validDrop && drag.sectionIndex >= 0 && drop.sectionIndex >= 0 && !CrossMove(n, drag, drop) ==>
              r.nav == n.(currentDragSectionIndex := Some(n.currentDragSectionIndex.GetOr(drag.sectionIndex)),
                          sections := n.sections[drop.sectionIndex :=
                            MoveItem(n.sections[drop.sectionIndex], drag.block.position, drop.block.position)])
  {
    if !validDrop || drag.sectionIndex < 0 || drop.sectionIndex < 0 then DragResult(n, drag.block)
    else
      var block :=
        if drag.block.sectionPosition != drop.block.sectionPosition
        then drag.block.(isDragging := true, sectionPosition := drop.block.sectionPosition)
        else drag.block;
      var current := n.currentDragSectionIndex.GetOr(drag.sectionIndex);
      var dropHasBlock := Has(n.sections[drop.sectionIndex], block.id);
      if current != drop.sectionIndex && !dropHasBlock then
        var moved := block.(isDragging := true);
        var removeIndex := RemoveIndex(current, drag.sectionIndex, drop.sectionIndex);
        var removed := n.sections[removeIndex := RemoveId(n.sections[removeIndex], moved.id)];
        var added := removed[drop.sectionIndex := removed[drop.sectionIndex] + [moved]];
        DragResult(Navigator(added, Some(StepToward(current, drop.sectionIndex))), moved)
      else
        var sections := n.sections[drop.sectionIndex :=
                          MoveItem(n.sections[drop.sectionIndex], block.position, drop.block.position)];
        DragResult(Navigator(sections, Some(current)), block)
  }

  /** After a cross-section move the block sits in the drop section and no
      longer in the section it was removed from. */
  lemma CrossMoveRelocates(n: Navigator, drag: Target, drop: Target)
    requires InRange(n, drag, drop) && CrossMove(n, drag, drop)
    ensures var r := OnBlockDragSort(n, drag, drop, true);
            var current := n.currentDragSectionIndex.GetOr(drag.sectionIndex);
            var removeIndex := RemoveIndex(current, drag.sectionIndex, drop.sectionIndex);
            Has(r.nav.sections[drop.sectionIndex], drag.block.id)
            && (removeIndex != drop.sectionIndex ==> !Has(r.nav.sections[removeIndex], drag.block.id))
  {
    var r := OnBlockDragSort(n, drag, drop, true);
    var s := r.nav.sections[drop.sectionIndex];
    assert s[|s| - 1] == r.dragged;
  }

  /** The tracked section never overshoots: it stays between where it was and
      the drop section, and gets strictly closer on a cross-section move. */
  lemma TrackingConverges(n: Navigator, drag: Target, drop: Target)
    requires InRange(n, drag, drop) && CrossMove(n, drag, drop)
    ensures var before := n.currentDragSectionIndex.GetOr(drag.sectionIndex);
            var after := OnBlockDragSort(n, drag, drop, true).nav.currentDragSectionIndex.value;
            (if after >= drop.sectionIndex then after - drop.sectionIndex else drop.sectionIndex - after)
            == (if before >= drop.sectionIndex then before - drop.sectionIndex else drop.sectionIndex - before) - 1
  {
  }

  /** `onBlockDragStop`: forgets the tracked section and ends the drag. */
  function OnBlockDragStop(n: Navigator, drag: Target): (r: DragResult)
    ensures r.nav.currentDragSectionIndex.None? && r.nav.sections == n.sections
    ensures !r.dragged.isDragging && r.dragged.(isDragging := drag.block.isDragging) == drag.block
  {
    DragResult(n.(currentDragSectionIndex := None), drag.block.(isDragging := false))
  }

  /** A drag stopped and started again latches to the new drag's start section. */
  lemma DragStopResetsLatch(n: Navigator, drag: Target, next: Target, drop: Target)
    requires 0 <= next.sectionIndex < |n.sections| && 0 <= drop.sectionIndex < |n.sections|
    requires !Has(n.sections[drop.sectionIndex], next.block.id) || next.sectionIndex == drop.sectionIndex
    ensures var stopped := OnBlockDragStop(n, drag).nav;
            InRange(stopped, next, drop)
            && (next.sectionIndex == drop.sectionIndex ==>
                  OnBlockDragSort(stopped, next, drop, true).nav.currentDragSectionIndex == Some(next.sectionIndex))
  {
  }

  /** Reading `.blocks` of a section index the page does not have throws a
      `TypeError`; the error names the index that was read. */
  datatype SectionError = NoSuchSection(sectionIndex: int)

  /** `onBlockDropAbort`: puts the block back into its drag section when the
      drag left it in neither section. The drag section is read first, so an
      index past the last section throws, naming the drag index before the drop index. */
  function OnBlockDropAbort(n: Navigator, drag: Target, drop: Target): (r: Result<Navigator, SectionError>)
    ensures drag.sectionIndex < 0 || drop.sectionIndex < 0 ==> r == Ok(n)
    ensures drag.sectionIndex >= 0 && drop.sectionIndex >= 0 ==>
              (r.Err? <==> drag.sectionIndex >= |n.sections| || drop.sectionIndex >= |n.sections|)
    ensures drag.sectionIndex >= |n.sections| && drop.sectionIndex >= 0 ==> r == Err(NoSuchSection(drag.sectionIndex))
    ensures 0 <= drag.sectionIndex < |n.sections| <= drop.sectionIndex ==> r == Err(NoSuchSection(drop.sectionIndex))
    ensures 0 <= drag.sectionIndex < |n.sections| && 0 <= drop.sectionIndex < |n.sections| ==>
              if !Has(n.sections[drag.sectionIndex], drag.block.id) && !Has(n.sections[drop.sectionIndex], drag.block.id)
              then r == Ok(n.(sections := n.sections[drag.sectionIndex := n.sections[drag.sectionIndex] + [drag.block]]))
              else r == Ok(n)
    ensures r.Ok? && drag.sectionIndex >= 0 && drop.sectionIndex >= 0 ==>
              Has(r.value.sections[drag.sectionIndex], drag.block.id) || Has(r.value.sections[drop.sectionIndex], drag.block.id)
  {
    if drag.sectionIndex < 0 || drop.sectionIndex < 0 then Ok(n)
    else if drag.sectionIndex >= |n.sections| then Err(NoSuchSection(drag.sectionIndex))
    else if drop.sectionIndex >= |n.sections| then Err(NoSuchSection(drop.sectionIndex))
    else if !Has(n.sections[drag.sectionIndex], drag.block.id) && !Has(n.sections[drop.sectionIndex], drag.block.id) then
      var bs := n.sections[drag.sectionIndex] + [drag.block];
      assert bs[|bs| - 1] == drag.block;
      Ok(n.(sections := n.sections[drag.sectionIndex := bs]))
    else Ok(n)
  }

  /** Aborting the same drop again changes nothing more. */
  lemma DropAbortIdempotent(n: Navigator, drag: Target, drop: Target)
    requires OnBlockDropAbort(n, drag, drop).Ok?
    ensures var n' := OnBlockDropAbort(n, drag, drop).value;
            OnBlockDropAbort(n', drag, drop) == Ok(n')
  {
    var n' := OnBlockDropAbort(n, drag, drop).value;
    if drag.sectionIndex >= 0 && drop.sectionIndex >= 0 {
      assert |n'.sections| == |n.sections|;
      assert Has(n'.sections[drag.sectionIndex], drag.block.id) || Has(n'.sections[drop.sectionIndex], drag.block.id);
    }
  }

  /** The test both content getters apply: the block sits at that place. */
  function PlacedAt(place: string): Block -> bool {
    (b: Block) => b.sectionPosition == place
  }

  /** The blocks of a section placed at `place`, in section order. */
  function PlacedIn(bs: seq<Block>, place: string): (r: seq<Block>)
    ensures forall i :: 0 <= i < |r| ==> r[i] in bs && r[i].sectionPosition == place
    ensures forall i :: 0 <= i < |bs| && bs[i].sectionPosition == place ==> bs[i] in r
  {
    Common.Filter(bs, PlacedAt(place))
  }

  /** Selecting by place keeps section order: it distributes over
      concatenation, and a single block is kept exactly when it is placed there. */
  lemma PlacedInKeepsOrder(a: seq<Block>, b: seq<Block>, place: string)
    ensures PlacedIn(a + b, place) == PlacedIn(a, place) + PlacedIn(b, place)
    ensures |a| == 1 ==> PlacedIn(a, place) == if a[0].sectionPosition == place then a else []
  {
    FilterConcat(a, b, PlacedAt(place));
    if |a| == 1 {
      assert a[1..] == [];
    }
  }

  /** `getMainContentBlocks`. */
  function MainContentBlocks(bs: seq<Block>): seq<Block> {
    PlacedIn(bs, "main")
  }

  /** `getSidebarContentBlocks`. */
  function SidebarContentBlocks(bs: seq<Block>): seq<Block> {
    PlacedIn(bs, "sidebar")
  }

  /** When every block is either main or sidebar content, the two lists
      split the section: together they hold every block exactly once. */
  lemma {:induction false} MainAndSidebarPartition(bs: seq<Block>)
    requires forall i :: 0 <= i < |bs| ==> bs[i].sectionPosition == "main" || bs[i].sectionPosition == "sidebar"
    ensures multiset(MainContentBlocks(bs)) + multiset(SidebarContentBlocks(bs)) == multiset(bs)
  {
    if |bs| > 0 {
      MainAndSidebarPartition(bs[1..]);
      assert bs == [bs[0]] + bs[1..];
    }
  }
}

=== FILE: common.dfy ===
/**
 Shared vocabulary of the model: an optional value, order-preserving filtering,
 and the three string operations the platform relies on (trimming a character
 from both ends, splitting on a separator, joining with a separator).
 */
module Common {

  /** A value that may be absent (PHP `null`, JavaScript `null`/`undefined`). */
  datatype Option<+T> = None | Some(value: T) {
    function GetOr(default: T): T {
      match this
      case Some(v) => v
      case None => default
    }
  }

  /** The outcome of an operation that may fail with an error value. */
  datatype Result<+T, +E> = Ok(value: T) | Err(error: E)

  /** Keeps exactly the elements that satisfy `p`, in their original order
      (`Array.prototype.filter`). */
  function Filter<T>(s: seq<T>, p: T -> bool): (r: seq<T>)
    ensures |r| <= |s|
    ensures forall i :: 0 <= i < |r| ==> r[i] in s && p(r[i])
    ensures forall i :: 0 <= i < |s| && p(s[i]) ==> s[i] in r
  {
    if |s| == 0 then []
    else if p(s[0]) then [s[0]] + Filter(s[1..], p)
    else Filter(s[1..], p)
  }

  /** Filtering a concatenation filters each part: the kept elements keep their order. */
  lemma {:induction false} FilterConcat<T>(a: seq<T>, b: seq<T>, p: T -> bool)
    ensures Filter(a + b, p) == Filter(a, p) + Filter(b, p)
  {
    if |a| == 0 {
      assert a + b == b;
    } else {
      assert (a + b)[1..] == a[1..] + b;
      FilterConcat(a[1..], b, p);
    }
  }

  /** A sequence whose every element passes the test is kept whole. */
  lemma {:induction false} FilterAll<T>(s: seq<T>, p: T -> bool)
    requires forall i :: 0 <= i < |s| ==> p(s[i])
    ensures Filter(s, p) == s
  {
    if |s| > 0 {
      FilterAll(s[1..], p);
    }
  }

  function Reverse<T>(s: seq<T>): (r: seq<T>)
    ensures |r| == |s|
    ensures forall i :: 0 <= i < |s| ==> r[i] == s[|s| - 1 - i]
  {
    if |s| == 0 then [] else Reverse(s[1..]) + [s[0]]
  }

  lemma {:induction false} ReverseConcat<T>(a: seq<T>, b: seq<T>)
    ensures Reverse(a + b) == Reverse(b) + Reverse(a)
  {
    var l := Reverse(a + b);
    var r := Reverse(b) + Reverse(a);
    assert |l| == |r|;
    forall i | 0 <= i < |l|
      ensures l[i] == r[i]
    {
      if i < |b| {
        assert r[i] == Reverse(b)[i] == b[|b| - 1 - i];
      } else {
        assert r[i] == Reverse(a)[i - |b|] == a[|a| - 1 - (i - |b|)];
      }
    }
  }

  /** Removes every leading `c` (PHP `ltrim($s, $c)`). */
  function TrimStart(s: string, c: char): (r: string)
    ensures |r| <= |s| && r == s[|s| - |r|..]
    ensures |r| > 0 ==> r[0] != c
    ensures forall i :: 0 <= i < |s| - |r| ==> s[i] == c
  {
    if |s| > 0 && s[0] == c then TrimStart(s[1..], c) else s
  }

  /** Removes every trailing `c` (PHP `rtrim($s, $c)`). */
  function TrimEnd(s: string, c: char): (r: string)
    ensures |r| <= |s| && r == s[..|r|]
    ensures |r| > 0 ==> r[|r| - 1] != c
    ensures forall i :: |r| <= i < |s| ==> s[i] == c
  {
    if |s| > 0 && s[|s| - 1] == c then TrimEnd(s[..|s| - 1], c) else s
  }

  /** PHP `trim($s, $c)` for a single character `c`: the longest infix of `s`
      that neither starts nor ends with `c`, obtained by removing only `c`s. */
  function Trim(s: string, c: char): (r: string)
    ensures |r| == 0 || (r[0] != c && r[|r| - 1] != c)
    ensures exists i, j :: 0 <= i <= j <= |s| && r == s[i..j]
                           && (forall k :: 0 <= k < i ==> s[k] == c)
                           && (forall k :: j <= k < |s| ==> s[k] == c)
  {
    var left := TrimStart(s, c);
    var r := TrimEnd(left, c);
    var i := |s| - |left|;
    assert r == s[i..i + |r|];
    r
  }

  /** Trimming a string that already neither starts nor ends with `c` changes nothing. */
  lemma TrimUntouched(s: string, c: char)
    requires |s| == 0 || (s[0] != c && s[|s| - 1] != c)
    ensures Trim(s, c) == s
  {
  }

  /** Trimming twice is trimming once. */
  lemma TrimIdempotent(s: string, c: char)
    ensures Trim(Trim(s, c), c) == Trim(s, c)
  {
    TrimUntouched(Trim(s, c), c);
  }

  /** JavaScript `s.split(sep)` for a one-character separator: every
      separator ends one part, so `n` separators give `n + 1` parts. */
  function Split(s: string, sep: char): (parts: seq<string>)
    ensures |parts| >= 1
    ensures forall i :: 0 <= i < |parts| ==> sep !in parts[i]
  {
    if |s| == 0 then [""]
    else
      var rest := Split(s[1..], sep);
      if s[0] == sep then [""] + rest
      else [[s[0]] + rest[0]] + rest[1..]
  }

  /** `parts.join(sep)`: the inverse of `Split` on parts free of the separator. */
  function Join(parts: seq<string>, sep: char): string
    requires |parts| >= 1
  {
    if |parts| == 1 then parts[0] else parts[0] + [sep] + Join(parts[1..], sep)
  }

  /** A separator-free string is split into exactly itself. */
  lemma {:induction false} SplitNoSeparator(p: string, sep: char)
    requires sep !in p
    ensures Split(p, sep) == [p]
  {
    if |p| > 0 {
      SplitNoSeparator(p[1..], sep);
      assert [p[0]] + p[1..] == p;
    }
  }

  /** A separator-free prefix followed by the separator becomes the first part. */
  lemma {:induction false} SplitAfterPart(p: string, sep: char, rest: string)
    requires sep !in p
    ensures Split(p + [sep] + rest, sep) == [p] + Split(rest, sep)
  {
    if |p| == 0 {
      assert p + [sep] + rest == [sep] + rest;
      assert ([sep] + rest)[1..] == rest;
    } else {
      assert (p + [sep] + rest)[1..] == p[1..] + [sep] + rest;
      SplitAfterPart(p[1..], sep, rest);
      assert [p[0]] + p[1..] == p;
    }
  }

  /** Splitting undoes joining when no part contains the separator. */
  lemma {:induction false} SplitJoin(parts: seq<string>, sep: char)
    requires |parts| >= 1
    requires forall i :: 0 <= i < |parts| ==> sep !in parts[i]
    ensures Split(Join(parts, sep), sep) == parts
  {
    if |parts| == 1 {
      SplitNoSeparator(parts[0], sep);
    } else {
      SplitJoin(parts[1..], sep);
      SplitAfterPart(parts[0], sep, Join(parts[1..], sep));
      assert [parts[0]] + parts[1..] == parts;
    }
  }

  /** True when `prefix` is a prefix of `s`. */
  predicate StartsWith(s: string, prefix: string) {
    |prefix| <= |s| && s[..|prefix|] == prefix
  }
}

=== FILE: delete_cascade.dfy ===
/**
 The three-table schema of the cascade-delete integration test and what the
 entity writer and the database do to it.

 `delete_cascade_parent` has the composite primary key `(id, version_id)` and a
 foreign key to `delete_cascade_many_to_one(id)`; `delete_cascade_child`
 references the parent through both `(delete_cascade_parent_id,
 delete_cascade_parent_version_id)`. Both foreign keys are `ON DELETE CASCADE`,
 so deleting a many-to-one row removes the parents referencing it and,
 transitively, their children.
 */
module DeleteCascade {
  import opened Common

  /** The composite primary key of a parent row. */
  datatype ParentKey = ParentKey(id: string, versionId: string)

  datatype ManyToOneRow = ManyToOneRow(id: string, name: string)
  datatype ParentRow = ParentRow(manyToOneId: string, name: string)
  datatype ChildRow = ChildRow(id: string, parent: ParentKey, name: string)

  /** The database: keyed tables as maps from primary key to row, and the
      child table (which declares no primary key) as a set of rows. */
  datatype Db = Db(
    manyToOnes: map<string, ManyToOneRow>,
    parents: map<ParentKey, ParentRow>,
    children: set<ChildRow>)

  const Empty := Db(map[], map[], {})

  /** Every foreign key points at an existing row: what the two constraints enforce. */
  predicate ReferentialIntegrity(db: Db) {
    && (forall k :: k in db.parents ==> db.parents[k].manyToOneId in db.manyToOnes)
    && (forall c :: c in db.children ==> c.parent in db.parents)
  }

  // ---------------------------------------------------------------------------
  // Deleting

  /** Deletes the parents with the given keys; the database cascades to every
      child referencing one of them. */
  function DeleteParents(db: Db, keys: set<ParentKey>): (r: Db)
    ensures r.manyToOnes == db.manyToOnes
    ensures r.parents.Keys == db.parents.Keys - keys
    ensures forall k :: k in r.parents ==> r.parents[k] == db.parents[k]
    ensures forall c :: c in r.children <==> c in db.children && c.parent !in keys
  {
    Db(db.manyToOnes, db.parents - keys, set c | c in db.children && c.parent !in keys)
  }

  /** Deleting one parent `(id, version_id)`: the parent and exactly the children
      referencing that pair go; nothing else changes. */
  function DeleteParent(db: Db, key: ParentKey): (r: Db)
    ensures key !in r.parents && forall c :: c in r.children ==> c.parent != key
    ensures ReferentialIntegrity(db) ==> ReferentialIntegrity(r)
    ensures r.manyToOnes == db.manyToOnes
    ensures forall k :: k != key && k in db.parents ==> k in r.parents && r.parents[k] == db.parents[k]
    ensures forall c :: c in db.children && c.parent != key ==> c in r.children
  {
    DeleteParents(db, {key})
  }

  /** The keys of the parents referencing a many-to-one row. */
  function ReferencingParents(db: Db, id: string): set<ParentKey> {
    set k | k in db.parents && db.parents[k].manyToOneId == id
  }

  /** Deleting a many-to-one row cascades to the parents referencing it and,
      through them, to their children. */
  function DeleteManyToOne(db: Db, id: string): (r: Db)
    ensures r.manyToOnes.Keys == db.manyToOnes.Keys - {id}
    ensures forall m :: m in r.manyToOnes ==> r.manyToOnes[m] == db.manyToOnes[m]
    ensures forall k :: k in r.parents <==> k in db.parents && db.parents[k].manyToOneId != id
    ensures forall k :: k in r.parents ==> r.parents[k] == db.parents[k]
    ensures forall c :: c in r.children <==>
              c in db.children && !(c.parent in db.parents && db.parents[c.parent].manyToOneId == id)
    ensures ReferentialIntegrity(db) ==> ReferentialIntegrity(r)
  {
    var cut := Db(db.manyToOnes - {id}, db.parents, db.children);
    DeleteParents(cut, ReferencingParents(db, id))
  }

  // ---------------------------------------------------------------------------
  // Nested insert

  datatype ChildPayload = ChildPayload(id: string, name: string)

  /** A nested parent payload: the many-to-one row it points at and the
      children under `cascades`. */
  datatype ParentPayload = ParentPayload(
    id: string,
    name: string,
    manyToOne: ManyToOneRow,
    cascades: seq<ChildPayload>)

  datatype WriteCommand =
    | InsertManyToOne(row: ManyToOneRow)
    | InsertParent(key: ParentKey, parentRow: ParentRow)
    | InsertChild(child: ChildRow)

  datatype Constraint = DuplicatePrimaryKey | MissingReference

  /** A per-row failure naming the table and the violated constraint. */
  datatype Violation = Violation(table: string, constraint: Constraint)

  /** The child rows a payload expands to; each references the parent's id at
      the context's version. */
  function ChildRows(p: ParentPayload, versionId: string): (cs: seq<ChildRow>)
    ensures |cs| == |p.cascades|
    ensures forall i :: 0 <= i < |cs| ==>
              cs[i] == ChildRow(p.cascades[i].id, ParentKey(p.id, versionId), p.cascades[i].name)
    decreases |p.cascades|
  {
    if |p.cascades| == 0 then []
    else [ChildRow(p.cascades[0].id, ParentKey(p.id, versionId), p.cascades[0].name)]
         + ChildRows(p.(cascades := p.cascades[1..]), versionId)
  }

  function ChildCommands(cs: seq<ChildRow>): (cmds: seq<WriteCommand>)
    ensures |cmds| == |cs|
    ensures forall i :: 0 <= i < |cs| ==> cmds[i] == InsertChild(cs[i])
  {
    if |cs| == 0 then [] else [InsertChild(cs[0])] + ChildCommands(cs[1..])
  }

  /** Expands a nested payload into commands in dependency order: the row a
      foreign key points at is always inserted before the row holding the key. */
  function PlanInsert(p: ParentPayload, versionId: string): (cmds: seq<WriteCommand>)
    ensures |cmds| == 2 + |p.cascades|
    ensures cmds[0] == InsertManyToOne(p.manyToOne)
    ensures cmds[1] == InsertParent(ParentKey(p.id, versionId), ParentRow(p.manyToOne.id, p.name))
    ensures forall i :: 2 <= i < |cmds| ==> cmds[i].InsertChild? && cmds[i].child.parent == ParentKey(p.id, versionId)
  {
    [InsertManyToOne(p.manyToOne), InsertParent(ParentKey(p.id, versionId), ParentRow(p.manyToOne.id, p.name))]
      + ChildCommands(ChildRows(p, versionId))
  }

  /** Executes one command against the constraints of the schema. */
  function Apply(db: Db, cmd: WriteCommand): Result<Db, Violation> {
    match cmd
    case InsertManyToOne(m) =>
      if m.id in db.manyToOnes then Err(Violation("delete_cascade_many_to_one", DuplicatePrimaryKey))
      else Ok(db.(manyToOnes := db.manyToOnes[m.id := m]))
    case InsertParent(k, row) =>
      if k in db.parents then Err(Violation("delete_cascade_parent", DuplicatePrimaryKey))
      else if row.manyToOneId !in db.manyToOnes then Err(Violation("delete_cascade_parent", MissingReference))
      else Ok(db.(parents := db.parents[k := row]))
    case InsertChild(c) =>
      if c.parent !in db.parents then Err(Violation("delete_cascade_child", MissingReference))
      else Ok(db.(children := db.children + {c}))
  }

  /** Executes commands in order inside one transaction: the first violation
      aborts the whole batch. */
  function ApplyAll(db: Db, cmds: seq<WriteCommand>): (r: Result<Db, Violation>)
    ensures r.Ok? && ReferentialIntegrity(db) ==> ReferentialIntegrity(r.value)
    decreases |cmds|
  {
    if |cmds| == 0 then Ok(db)
    else
      match Apply(db, cmds[0])
      case Err(e) => Err(e)
      case Ok(next) => ApplyAll(next, cmds[1..])
  }

  /** Inserting a nested payload; on a violation the database is left as it was. */
  function InsertNested(db: Db, p: ParentPayload, versionId: string): Result<Db, Violation> {
    ApplyAll(db, PlanInsert(p, versionId))
  }

  function RowSet(cs: seq<ChildRow>): set<ChildRow> {
    set c | c in cs
  }

  /** Child commands whose parent exists always succeed and add exactly their rows. */
  lemma {:induction false} ApplyChildren(db: Db, cs: seq<ChildRow>)
    requires forall i :: 0 <= i < |cs| ==> cs[i].parent in db.parents
    ensures ApplyAll(db, ChildCommands(cs))
         == Ok(db.(children := db.children + RowSet(cs)))
    decreases |cs|
  {
    if |cs| == 0 {
      assert db.children + RowSet(cs) == db.children;
      assert db.(children := db.children) == db;
    } else {
      var next := db.(children := db.children + {cs[0]});
      assert ChildCommands(cs)[1..] == ChildCommands(cs[1..]);
      ApplyChildren(next, cs[1..]);
      assert cs == [cs[0]] + cs[1..];
      assert RowSet(cs) == {cs[0]} + RowSet(cs[1..]);
      assert Apply(db, ChildCommands(cs)[0]) == Ok(next);
      assert ApplyAll(db, ChildCommands(cs)) == ApplyAll(next, ChildCommands(cs[1..]));
      assert next.children + RowSet(cs[1..]) == db.children + RowSet(cs);
    }
  }

  /** A nested insert with a fresh many-to-one id and a fresh parent key adds
      exactly one many-to-one row, one parent row, and one child row per
      `cascades` entry, each child pointing at `(id, versionId)`. */
  lemma InsertNestedFresh(db: Db, p: ParentPayload, versionId: string)
    requires p.manyToOne.id !in db.manyToOnes
    requires ParentKey(p.id, versionId) !in db.parents
    ensures var r := InsertNested(db, p, versionId);
            && r.Ok?
            && r.value.manyToOnes == db.manyToOnes[p.manyToOne.id := p.manyToOne]
            && r.value.parents == db.parents[ParentKey(p.id, versionId) := ParentRow(p.manyToOne.id, p.name)]
            && r.value.children == db.children + RowSet(ChildRows(p, versionId))
            && (ReferentialIntegrity(db) ==> ReferentialIntegrity(r.value))
  {
    var key := ParentKey(p.id, versionId);
    var cmds := PlanInsert(p, versionId);
    var db1 := db.(manyToOnes := db.manyToOnes[p.manyToOne.id := p.manyToOne]);
    var db2 := db1.(parents := db1.parents[key := ParentRow(p.manyToOne.id, p.name)]);
    assert Apply(db, cmds[0]) == Ok(db1);
    assert Apply(db1, cmds[1]) == Ok(db2);
    assert cmds[2..] == ChildCommands(ChildRows(p, versionId));
    ApplyChildren(db2, ChildRows(p, versionId));
    assert ApplyAll(db1, cmds[1..]) == ApplyAll(db2, cmds[2..]) by {
      assert cmds[1..][1..] == cmds[2..];
    }
  }

  /** The first test: one parent with one cascaded child, both deleted through
      the parent; the tables are empty of parents and children afterwards. */
  lemma InsertThenDeleteParent(id: string, versionId: string, name: string, m: ManyToOneRow, child: ChildPayload)
    ensures var p := ParentPayload(id, name, m, [child]);
            var r := InsertNested(Empty, p, versionId);
            && r.Ok?
            && |r.value.manyToOnes| == 1 && |r.value.parents| == 1 && |r.value.children| == 1
            && var after := DeleteParent(r.value, ParentKey(id, versionId));
               |after.parents| == 0 && |after.children| == 0
  {
    var p := ParentPayload(id, name, m, [child]);
    InsertNestedFresh(Empty, p, versionId);
    var r := InsertNested(Empty, p, versionId).value;
    var c := ChildRows(p, versionId)[0];
    assert r.children == {c} by {
      assert ChildRows(p, versionId) == [c];
    }
    var after := DeleteParent(r, ParentKey(id, versionId));
    assert after.parents.Keys == {};
    assert after.children == {};
  }

  /** The second test: deleting the many-to-one row empties all three tables. */
  lemma InsertThenDeleteManyToOne(id: string, versionId: string, name: string, m: ManyToOneRow, child: ChildPayload)
    ensures var p := ParentPayload(id, name, m, [child]);
            var r := InsertNested(Empty, p, versionId);
            && r.Ok?
            && var after := DeleteManyToOne(r.value, m.id);
               |after.manyToOnes| == 0 && |after.parents| == 0 && |after.children| == 0
  {
    var p := ParentPayload(id, name, m, [child]);
    InsertNestedFresh(Empty, p, versionId);
    var r := InsertNested(Empty, p, versionId).value;
    var c := ChildRows(p, versionId)[0];
    assert r.children == {c} by {
      assert ChildRows(p, versionId) == [c];
    }
    var after := DeleteManyToOne(r, m.id);
    assert after.manyToOnes.Keys == {};
    assert after.parents.Keys == {};
    assert c !in after.children;
    assert after.children == {};
  }
}

=== FILE: language_store.dfy ===
/**
 The administration's language store: the id of the language being edited,
 falling back to the system language, kept in step with the context
 service's language id; and the cached language entities by id.
 Fetching a language entity is asynchronous I/O and is not part of the model.
 */
module LanguageStore {
  import opened Common

  datatype Language = Language(id: string, name: string)

  /** The store and the part of the global context service it writes. */
  datatype Store = Store(
    systemLanguageId: string,
    currentLanguageId: string,
    contextLanguageId: string,
    entries: map<string, Language>)

  /** An initial id the constructor accepts: present and non-empty. */
  predicate Usable(initial: Option<string>) {
    initial.Some? && |initial.value| > 0
  }

  /** The constructor: an absent or empty initial id falls back to the
      system language id. */
  function Construct(systemLanguageId: string, contextLanguageId: string, initial: Option<string>): (s: Store)
    ensures Usable(initial) ==> s.currentLanguageId == initial.value
    ensures !Usable(initial) ==> s.currentLanguageId == systemLanguageId
    ensures s.systemLanguageId == systemLanguageId && s.contextLanguageId == contextLanguageId && s.entries == map[]
  {
    var current := if !Usable(initial) then systemLanguageId else initial.value;
    Store(systemLanguageId, current, contextLanguageId, map[])
  }

  /** A store never starts without a language when the system language has an id. */
  lemma ConstructHasLanguage(systemLanguageId: string, contextLanguageId: string, initial: Option<string>)
    requires systemLanguageId != ""
    ensures Construct(systemLanguageId, contextLanguageId, initial).currentLanguageId != ""
  {
  }

  /** `setCurrentId`: the store and the context service switch to the id. */
  function SetCurrentId(s: Store, languageId: string): (s': Store)
    ensures s'.currentLanguageId == languageId && s'.contextLanguageId == languageId
    ensures s'.systemLanguageId == s.systemLanguageId && s'.entries == s.entries
  {
    s.(currentLanguageId := languageId, contextLanguageId := languageId)
  }

  /** `getCurrentId`. */
  function GetCurrentId(s: Store): string {
    s.currentLanguageId
  }

  /** `getCurrentLanguage`: the cached entity of the current id, if cached. */
  function GetCurrentLanguage(s: Store): (l: Option<Language>)
    ensures l.Some? <==> s.currentLanguageId in s.entries
    ensures l.Some? ==> l.value == s.entries[s.currentLanguageId]
  {
    if s.currentLanguageId in s.entries then Some(s.entries[s.currentLanguageId]) else None
  }

  /** `getLanguageStore`: the store itself. */
  function GetLanguageStore(s: Store): (r: Store)
    ensures GetCurrentId(r) == GetCurrentId(s) && GetCurrentLanguage(r) == GetCurrentLanguage(s)
  {
    s
  }

  /** The current id is the one most recently set, whatever came before. */
  lemma GetAfterSet(s: Store, first: string, second: string)
    ensures GetCurrentId(SetCurrentId(s, first)) == first
    ensures GetCurrentId(SetCurrentId(SetCurrentId(s, first), second)) == second
    ensures SetCurrentId(SetCurrentId(s, first), second) == SetCurrentId(s, second)
  {
  }

  /** After switching, the store and the context service agree on the language. */
  lemma SetKeepsContextInStep(s: Store, languageId: string)
    ensures var s' := SetCurrentId(s, languageId);
            GetCurrentId(s') == s'.contextLanguageId
            && GetCurrentLanguage(s') == (if languageId in s.entries then Some(s.entries[languageId]) else None)
  {
  }
}

=== FILE: manufacturer_definition.dfy ===
/**
 The declarative definition of the `product_manufacturer` entity: its field
 collection with write flags, built once and then memoised, with registered
 extensions applied when (and only when) the collection is first built.
 */
module ManufacturerDefinition {
  import opened Common

  const EntityName := "product_manufacturer"

  datatype Flag = PrimaryKey | Required | CascadeDelete | RestrictDelete

  /** The kind of a field; association kinds carry their target definition. */
  datatype FieldKind =
    | IdField
    | VersionField
    | FkField(reference: string)
    | ReferenceVersionField(reference: string)
    | StringField
    | LongTextField
    | DateField
    | ManyToOneAssociation(storageKey: string, reference: string, autoload: bool)
    | OneToManyAssociation(reference: string, referenceField: string, autoload: bool, localField: string)
    | TranslationsAssociation(reference: string, referenceField: string, autoload: bool, localField: string)

  /** One field: its column (associations have none), its property name, its
      kind, whether it reads through the translation overlay, and its flags. */
  datatype Field = Field(
    storageName: Option<string>,
    propertyName: string,
    kind: FieldKind,
    translated: bool,
    flags: set<Flag>)

  /** A registered extension: the fields its `extendFields` adds. */
  datatype Extension = Extension(added: seq<Field>)

  /** The static state of the definition class: the memoised collection (none
      until first built) and the registered extensions, in registration order. */
  datatype DefinitionState = DefinitionState(fields: Option<seq<Field>>, extensions: seq<Extension>)

  function Column(storage: string, property: string, kind: FieldKind): Field {
    Field(Some(storage), property, kind, false, {})
  }

  function TranslatedColumn(storage: string, property: string, kind: FieldKind): Field {
    Field(Some(storage), property, kind, true, {})
  }

  function PropertyNames(fs: seq<Field>): set<string> {
    set i | 0 <= i < |fs| :: fs[i].propertyName
  }

  function TranslatedNames(fs: seq<Field>): set<string> {
    set i | 0 <= i < |fs| && fs[i].translated :: fs[i].propertyName
  }

  /** The fields the definition declares, before any extension. */
  function BaseFields(): seq<Field> {
    [
      Field(Some("id"), "id", IdField, false, {PrimaryKey, Required}),
      Column("version_id", "versionId", VersionField),
      Column("media_id", "mediaId", FkField("media")),
      Column("media_version_id", "mediaVersionId", ReferenceVersionField("media")),
      TranslatedColumn("name", "name", StringField),
      Column("link", "link", StringField),
      Column("updated_at", "updatedAt", DateField),
      Column("created_at", "createdAt", DateField),
      TranslatedColumn("description", "description", LongTextField),
      TranslatedColumn("meta_title", "metaTitle", StringField),
      TranslatedColumn("meta_description", "metaDescription", StringField),
      TranslatedColumn("meta_keywords", "metaKeywords", StringField),
      Field(None, "media", ManyToOneAssociation("media_id", "media", false), false, {}),
      Field(None, "products", OneToManyAssociation("product", "manufacturer_join_id", false, "id"), false, {RestrictDelete}),
      Field(None, "translations",
            TranslationsAssociation("product_manufacturer_translation", "product_manufacturer_id", false, "id"),
            false, {CascadeDelete, Required})
    ]
  }

  /** `id` is the only primary key, and it is required. */
  lemma BaseFieldsPrimaryKey()
    ensures var fs := BaseFields();
            forall i :: 0 <= i < |fs| ==> (PrimaryKey in fs[i].flags <==> fs[i].propertyName == "id")
    ensures var fs := BaseFields();
            forall i :: 0 <= i < |fs| && fs[i].propertyName == "id" ==> Required in fs[i].flags
  {
    var fs := BaseFields();
    assert |fs| == 15;
    forall i | 0 <= i < |fs|
      ensures PrimaryKey in fs[i].flags <==> fs[i].propertyName == "id"
    {
    }
  }

  /** Exactly the name, the description and the three meta texts are translated. */
  lemma BaseFieldsTranslated()
    ensures TranslatedNames(BaseFields()) == {"name", "description", "metaTitle", "metaDescription", "metaKeywords"}
  {
    var fs := BaseFields();
    assert fs[4].translated && fs[8].translated && fs[9].translated && fs[10].translated && fs[11].translated;
  }

  /** Deleting a manufacturer is refused while products reference it, and
      deletes its translations with it; translations must be written with it. */
  lemma BaseFieldsDeleteBehaviour()
    ensures var fs := BaseFields();
            forall i :: 0 <= i < |fs| && fs[i].propertyName == "products" ==> RestrictDelete in fs[i].flags
    ensures var fs := BaseFields();
            forall i :: 0 <= i < |fs| && fs[i].propertyName == "translations" ==>
              CascadeDelete in fs[i].flags && Required in fs[i].flags
  {
    var fs := BaseFields();
    assert |fs| == 15;
  }

  /** No two declared fields share a property name. */
  lemma BaseFieldsUnique()
    ensures var fs := BaseFields();
            forall i, j :: 0 <= i < j < |fs| ==> fs[i].propertyName != fs[j].propertyName
  {
    var fs := BaseFields();
    assert |fs| == 15;
  }

  /** The fields all extensions add, in registration order. */
  function ExtensionFields(exts: seq<Extension>): (fs: seq<Field>)
    ensures forall i :: 0 <= i < |fs| ==> exists k :: 0 <= k < |exts| && fs[i] in exts[k].added
  {
    if |exts| == 0 then []
    else
      var rest := ExtensionFields(exts[1..]);
      assert forall i :: 0 <= i < |rest| ==> exists k :: 0 <= k < |exts| && rest[i] in exts[k].added by {
        forall i | 0 <= i < |rest| ensures exists k :: 0 <= k < |exts| && rest[i] in exts[k].added {
          var k :| 0 <= k < |exts[1..]| && rest[i] in exts[1..][k].added;
          assert exts[k + 1] == exts[1..][k];
        }
      }
      exts[0].added + rest
  }

  /** Extensions registered in two batches add the first batch's fields, then the second's. */
  lemma {:induction false} ExtensionFieldsConcat(a: seq<Extension>, b: seq<Extension>)
    ensures ExtensionFields(a + b) == ExtensionFields(a) + ExtensionFields(b)
  {
    if |a| > 0 {
      assert (a + b)[0] == a[0] && (a + b)[1..] == a[1..] + b;
      ExtensionFieldsConcat(a[1..], b);
    } else {
      assert a + b == b;
    }
  }

  /** Registers an extension; it takes effect only if the collection is not built yet. */
  function AddExtension(s: DefinitionState, e: Extension): (r: DefinitionState)
    ensures r.fields == s.fields && r.extensions == s.extensions + [e]
  {
    s.(extensions := s.extensions + [e])
  }

  /** `getFields`: returns the memoised collection if there is one; otherwise
      builds the declared fields, lets every registered extension add its fields,
      and memoises the result. */
  function GetFields(s: DefinitionState): (res: (DefinitionState, seq<Field>))
    ensures res.0.fields == Some(res.1) && res.0.extensions == s.extensions
    ensures s.fields.Some? ==> res.0 == s
    ensures s.fields.None? ==> |BaseFields()| <= |res.1| && res.1[..|BaseFields()|] == BaseFields()
    ensures s.fields.None? ==> res.1 == BaseFields() + ExtensionFields(s.extensions)
  {
    match s.fields
    case Some(fs) => (s, fs)
    case None =>
      var fs := BaseFields() + ExtensionFields(s.extensions);
      (s.(fields := Some(fs)), fs)
  }

  /** Once built, the collection is returned unchanged on every later call,
      even if extensions were registered in between. */
  lemma GetFieldsMemoised(s: DefinitionState, later: seq<Extension>)
    ensures var (s1, fs1) := GetFields(s);
            var s2 := s1.(extensions := s1.extensions + later);
            GetFields(s2) == (s2, fs1)
  {
  }

  /** The first build: the declared fields first, then each extension's fields
      in the order the extensions were registered. */
  lemma {:induction false} FirstBuildOrder(s: DefinitionState, e1: Extension, e2: Extension)
    requires s.fields.None? && s.extensions == [e1, e2]
    ensures GetFields(s).1 == BaseFields() + e1.added + e2.added
  {
    assert ExtensionFields([e2]) == e2.added + ExtensionFields([]) by {
      assert [e2][1..] == [];
    }
    assert ExtensionFields(s.extensions) == e1.added + ExtensionFields([e2]) by {
      assert s.extensions[1..] == [e2];
    }
  }

  /** Registering one more extension before the first build appends exactly
      that extension's fields to what the build would have given. */
  lemma BuildAfterAddExtension(s: DefinitionState, e: Extension)
    requires s.fields.None?
    ensures GetFields(AddExtension(s, e)).1 == GetFields(s).1 + e.added
  {
    var base, exts := BaseFields(), s.extensions;
    ExtensionFieldsConcat(exts, [e]);
    assert ExtensionFields([e]) == e.added by {
      assert [e][1..] == [];
    }
    assert GetFields(AddExtension(s, e)).1 == base + ExtensionFields(exts + [e]);
    assert base + (ExtensionFields(exts) + e.added) == (base + ExtensionFields(exts)) + e.added;
  }

  lemma {:induction false} AddedInExtensionFields(exts: seq<Extension>, k: nat, j: nat)
    requires k < |exts| && j < |exts[k].added|
    ensures exts[k].added[j] in ExtensionFields(exts)
  {
    if k > 0 {
      AddedInExtensionFields(exts[1..], k - 1, j);
    }
  }

  /** Every field a registered extension adds is in the first-built collection,
      after the declared ones. */
  lemma ExtensionFieldsIncluded(s: DefinitionState, k: nat, j: nat)
    requires s.fields.None? && k < |s.extensions| && j < |s.extensions[k].added|
    ensures s.extensions[k].added[j] in GetFields(s).1[|BaseFields()|..]
  {
    AddedInExtensionFields(s.extensions, k, j);
    assert GetFields(s).1[|BaseFields()|..] == ExtensionFields(s.extensions);
  }
}

=== FILE: product_stream.dfy ===
/**
 Rebuilding a product stream's `api_filter` from its flat `product_stream_filter`
 rows, as the product-stream indexer does on refresh.

 The rows are first nested (every row whose `parent_id` names a `multi` row
 becomes one of that row's `queries`), then every nested node is parsed into a
 typed filter. A stream whose nodes all parse is stored with the serialised
 filters and `invalid = false`; a single unparsable node leaves the stream with
 `api_filter = null` and `invalid = true`.
 */
module ProductStreamFilter {
  import opened Common

  /** Range bounds keyed by `gte`, `lte`, `gt`, `lt`. */
  type Params = map<string, int>

  /** One row of the `product_stream_filter` table. Absent columns are `None`. */
  datatype FilterRow = FilterRow(
    id: string,
    kind: string,
    field: Option<string>,
    value: Option<string>,
    operator: Option<string>,
    parameters: Option<Params>,
    position: int,
    parentId: Option<string>)

  /** The plain structured form of one filter node, as persisted in `api_filter`. */
  datatype ApiNode = ApiNode(
    kind: string,
    field: Option<string>,
    value: Option<string>,
    operator: Option<string>,
    parameters: Option<Params>,
    queries: seq<ApiNode>)

  datatype Connection = And | Or

  /** The typed filter tree: one variant per recognised node type. */
  datatype Filter =
    | Equals(field: string, value: string)
    | EqualsAny(field: string, value: string)
    | Contains(field: string, value: string)
    | Range(field: string, parameters: Params)
    | Multi(operator: Connection, queries: seq<Filter>)

  /** Why a node could not be parsed; any of these makes the whole stream invalid. */
  datatype FilterError = UnknownType(kind: string) | MissingField(kind: string) | EmptyValue(kind: string)

  /** The persisted state of one product stream. */
  datatype StreamState = StreamState(apiFilter: Option<seq<ApiNode>>, invalid: bool)

  /** How a stream is stored before its first refresh: no filter, marked invalid. */
  const Unindexed := StreamState(None, true)

  const EqualsType := "equals"
  const EqualsAnyType := "equalsAny"
  const ContainsType := "contains"
  const RangeType := "range"
  const MultiType := "multi"

  /** Node types whose filter needs a non-empty `value`. */
  predicate NeedsValue(kind: string) {
    kind == EqualsType || kind == EqualsAnyType || kind == ContainsType
  }

  /** Node types whose filter needs a non-empty `field`. */
  predicate NeedsField(kind: string) {
    NeedsValue(kind) || kind == RangeType
  }

  predicate KnownType(kind: string) {
    NeedsField(kind) || kind == MultiType
  }

  predicate Present(s: Option<string>) {
    s.Some? && s.value != ""
  }

  function TypeName(f: Filter): string {
    match f
    case Equals(_, _) => EqualsType
    case EqualsAny(_, _) => EqualsAnyType
    case Contains(_, _) => ContainsType
    case Range(_, _) => RangeType
    case Multi(_, _) => MultiType
  }

  function OperatorName(c: Connection): string {
    match c
    case And => "AND"
    case Or => "OR"
  }

  /** A stored operator of `OR` connects with OR; any other or none connects with AND. */
  function OperatorOf(op: Option<string>): Connection {
    if op == Some("OR") then Or else And
  }

  /** Every leaf names a field, and every valued leaf carries a non-empty value. */
  predicate WellFormed(f: Filter) {
    match f
    case Equals(fd, v) => fd != "" && v != ""
    case EqualsAny(fd, v) => fd != "" && v != ""
    case Contains(fd, v) => fd != "" && v != ""
    case Range(fd, _) => fd != ""
    case Multi(_, qs) => forall i :: 0 <= i < |qs| ==> WellFormed(qs[i])
  }

  // ---------------------------------------------------------------------------
  // Nesting flat rows

  /** A row as a node with the given children. */
  function RowNode(r: FilterRow, queries: seq<ApiNode>): ApiNode {
    ApiNode(r.kind, r.field, r.value, r.operator, r.parameters, queries)
  }

  /** A node with its children dropped: what it says about itself alone. */
  function Head(n: ApiNode): ApiNode {
    n.(queries := [])
  }

  /** The rows whose parent is `parent`, in table order. */
  function ChildRows(rows: seq<FilterRow>, parent: Option<string>): seq<FilterRow> {
    Common.Filter(rows, (r: FilterRow) => r.parentId == parent)
  }

  function Heads(ns: seq<ApiNode>): (hs: seq<ApiNode>)
    ensures |hs| == |ns|
    ensures forall k :: 0 <= k < |ns| ==> hs[k] == Head(ns[k])
  {
    if |ns| == 0 then [] else [Head(ns[0])] + Heads(ns[1..])
  }

  function RowHeads(rows: seq<FilterRow>): (hs: seq<ApiNode>)
    ensures |hs| == |rows|
    ensures forall k :: 0 <= k < |rows| ==> hs[k] == RowNode(rows[k], [])
  {
    if |rows| == 0 then [] else [RowNode(rows[0], [])] + RowHeads(rows[1..])
  }

  /** The pool with its `j`-th row taken out. */
  function Without(pool: seq<FilterRow>, j: nat): (p: seq<FilterRow>)
    requires j < |pool|
    ensures |p| == |pool| - 1
    ensures forall k :: 0 <= k < j ==> p[k] == pool[k]
    ensures forall k :: j <= k < |p| ==> p[k] == pool[k + 1]
  {
    pool[..j] + pool[j + 1..]
  }

  /** The positions in `pool[i..]` of the rows whose parent is `parent`, ascending. */
  function ChildPositions(pool: seq<FilterRow>, i: nat, parent: Option<string>): (ps: seq<nat>)
    requires i <= |pool|
    ensures forall k :: 0 <= k < |ps| ==> i <= ps[k] < |pool| && pool[ps[k]].parentId == parent
    ensures forall k, l :: 0 <= k < l < |ps| ==> ps[k] < ps[l]
    ensures forall j :: i <= j < |pool| && pool[j].parentId == parent ==> j in ps
    decreases |pool| - i
  {
    if i == |pool| then []
    else if pool[i].parentId == parent then [i] + ChildPositions(pool, i + 1, parent)
    else ChildPositions(pool, i + 1, parent)
  }

  /** `n` is the node for the row at position `j` of the pool: that row's own
      columns, and, for a `multi` row, the rows naming it, taken from the pool
      without that row; any other row has no children. */
  ghost predicate NodeFor(pool: seq<FilterRow>, j: nat, n: ApiNode)
    requires j < |pool|
  {
    && Head(n) == RowNode(pool[j], [])
    && (pool[j].kind != MultiType ==> n.queries == [])
    && (pool[j].kind == MultiType ==> Heads(n.queries) == RowHeads(ChildRows(Without(pool, j), Some(pool[j].id))))
  }

  /** The nodes for the rows of `pool[i..]` whose parent is `parent`; a `multi`
      row gathers its own children from the pool without itself, so a row can
      never be nested below itself. Rows of any other type get no children. */
  function NestFrom(pool: seq<FilterRow>, i: nat, parent: Option<string>): (nodes: seq<ApiNode>)
    requires i <= |pool|
    ensures Heads(nodes) == RowHeads(ChildRows(pool[i..], parent))
    ensures |nodes| == |ChildPositions(pool, i, parent)|
    ensures forall k :: 0 <= k < |nodes| ==> NodeFor(pool, ChildPositions(pool, i, parent)[k], nodes[k])
    decreases |pool|, |pool| - i
  {
    if i == |pool| then []
    else
      var r := pool[i];
      assert pool[i..][0] == r && pool[i..][1..] == pool[i + 1..];
      var rest := NestFrom(pool, i + 1, parent);
      if r.parentId == parent then
        var queries := if r.kind == MultiType then NestFrom(Without(pool, i), 0, Some(r.id)) else [];
        RowNodeFor(pool, i, queries);
        PrependHeads(pool, i, parent, RowNode(r, queries), rest);
        PrependNode(pool, i, parent, RowNode(r, queries), rest);
        [RowNode(r, queries)] + rest
      else
        rest
  }

  lemma RowNodeFor(pool: seq<FilterRow>, i: nat, queries: seq<ApiNode>)
    requires i < |pool|
    requires pool[i].kind != MultiType ==> queries == []
    requires pool[i].kind == MultiType ==>
               Heads(queries) == RowHeads(ChildRows(Without(pool, i)[0..], Some(pool[i].id)))
    ensures NodeFor(pool, i, RowNode(pool[i], queries))
  {
    assert Without(pool, i)[0..] == Without(pool, i);
  }

  lemma PrependHeads(pool: seq<FilterRow>, i: nat, parent: Option<string>, head: ApiNode, rest: seq<ApiNode>)
    requires i < |pool| && pool[i].parentId == parent && Head(head) == RowNode(pool[i], [])
    requires Heads(rest) == RowHeads(ChildRows(pool[i + 1..], parent))
    ensures Heads([head] + rest) == RowHeads(ChildRows(pool[i..], parent))
  {
    assert pool[i..][0] == pool[i] && pool[i..][1..] == pool[i + 1..];
    assert Heads([head] + rest) == [Head(head)] + Heads(rest);
  }

  lemma PrependNode(pool: seq<FilterRow>, i: nat, parent: Option<string>, head: ApiNode, rest: seq<ApiNode>)
    requires i < |pool| && pool[i].parentId == parent && NodeFor(pool, i, head)
    requires |rest| == |ChildPositions(pool, i + 1, parent)|
    requires forall k :: 0 <= k < |rest| ==> NodeFor(pool, ChildPositions(pool, i + 1, parent)[k], rest[k])
    ensures |[head] + rest| == |ChildPositions(pool, i, parent)|
    ensures forall k :: 0 <= k < |[head] + rest| ==> NodeFor(pool, ChildPositions(pool, i, parent)[k], ([head] + rest)[k])
  {
    var nodes := [head] + rest;
    var ps := ChildPositions(pool, i, parent);
    var tail := ChildPositions(pool, i + 1, parent);
    assert ps == [i] + tail;
    forall k | 0 <= k < |nodes|
      ensures NodeFor(pool, ps[k], nodes[k])
    {
      if k > 0 {
        assert nodes[k] == rest[k - 1] && ps[k] == tail[k - 1];
      }
    }
  }

  /** The top-level nodes of a stream: one per row without a parent, in table
      order, each a `multi` row's own nested children or none. */
  function Nest(rows: seq<FilterRow>): (nodes: seq<ApiNode>)
    ensures Heads(nodes) == RowHeads(ChildRows(rows, None))
    ensures |nodes| == |ChildRows(rows, None)| == |ChildPositions(rows, 0, None)|
    ensures forall k :: 0 <= k < |nodes| ==> NodeFor(rows, ChildPositions(rows, 0, None)[k], nodes[k])
  {
    assert rows[0..] == rows;
    NestFrom(rows, 0, None)
  }

  // ---------------------------------------------------------------------------
  // Parsing and serialising

  /** Turns one node into a typed filter, or reports the first defect found. */
  function Parse(n: ApiNode): (r: Result<Filter, FilterError>)
    ensures r.Ok? ==> WellFormed(r.value) && TypeName(r.value) == n.kind
    ensures !KnownType(n.kind) ==> r == Err(UnknownType(n.kind))
    ensures NeedsField(n.kind) && !Present(n.field) ==> r == Err(MissingField(n.kind))
    ensures NeedsValue(n.kind) && Present(n.field) && !Present(n.value) ==> r == Err(EmptyValue(n.kind))
    ensures NeedsValue(n.kind) && Present(n.field) && Present(n.value) ==>
              r.Ok? && r.value.field == n.field.value && r.value.value == n.value.value
    ensures n.kind == RangeType && Present(n.field) ==>
              r.Ok? && r.value.field == n.field.value
              && r.value.parameters == (if n.parameters.Some? then n.parameters.value else map[])
    ensures n.kind == MultiType ==> (r.Ok? <==> forall k :: 0 <= k < |n.queries| ==> Parse(n.queries[k]).Ok?)
    ensures n.kind == MultiType && r.Ok? ==>
              r.value.operator == (if n.operator == Some("OR") then Or else And)
              && |r.value.queries| == |n.queries|
              && forall k :: 0 <= k < |n.queries| ==> Parse(n.queries[k]) == Ok(r.value.queries[k])
    decreases n, 1
  {
    if n.kind == MultiType then
      match ParseAll(n.queries)
      case Ok(qs) => Ok(Multi(OperatorOf(n.operator), qs))
      case Err(e) => Err(e)
    else if !NeedsField(n.kind) then Err(UnknownType(n.kind))
    else if !Present(n.field) then Err(MissingField(n.kind))
    else if n.kind == RangeType then Ok(Range(n.field.value, n.parameters.GetOr(map[])))
    else if !Present(n.value) then Err(EmptyValue(n.kind))
    else if n.kind == EqualsType then Ok(Equals(n.field.value, n.value.value))
    else if n.kind == EqualsAnyType then Ok(EqualsAny(n.field.value, n.value.value))
    else Ok(Contains(n.field.value, n.value.value))
  }

  /** Parses every node; fails as soon as one node fails. */
  function ParseAll(ns: seq<ApiNode>): (r: Result<seq<Filter>, FilterError>)
    ensures r.Ok? <==> forall k :: 0 <= k < |ns| ==> Parse(ns[k]).Ok?
    ensures r.Ok? ==> |r.value| == |ns| && forall k :: 0 <= k < |ns| ==> Parse(ns[k]) == Ok(r.value[k])
    decreases ns, 0
  {
    if |ns| == 0 then Ok([])
    else
      match Parse(ns[0])
      case Err(e) => Err(e)
      case Ok(f) =>
        match ParseAll(ns[1..])
        case Err(e) => Err(e)
        case Ok(fs) => Ok([f] + fs)
  }

  /** The persisted form of a filter. */
  function Serialize(f: Filter): (n: ApiNode)
    ensures n.kind == TypeName(f)
    ensures !f.Multi? ==> n.field == Some(f.field) && n.operator == None && n.queries == []
    ensures f.Range? ==> n.value == None && n.parameters == Some(f.parameters)
    ensures NeedsValue(n.kind) ==> n.value == Some(f.value) && n.parameters == None
    ensures f.Multi? ==>
              n.field == None && n.value == None && n.parameters == None
              && n.operator == Some(if f.operator == Or then "OR" else "AND")
              && |n.queries| == |f.queries|
              && forall k :: 0 <= k < |f.queries| ==> n.queries[k] == Serialize(f.queries[k])
  {
    match f
    case Equals(fd, v) => ApiNode(EqualsType, Some(fd), Some(v), None, None, [])
    case EqualsAny(fd, v) => ApiNode(EqualsAnyType, Some(fd), Some(v), None, None, [])
    case Contains(fd, v) => ApiNode(ContainsType, Some(fd), Some(v), None, None, [])
    case Range(fd, p) => ApiNode(RangeType, Some(fd), None, None, Some(p), [])
    case Multi(op, qs) => ApiNode(MultiType, None, None, Some(OperatorName(op)), None, SerializeAll(qs))
  }

  function SerializeAll(fs: seq<Filter>): (ns: seq<ApiNode>)
    ensures |ns| == |fs|
    ensures forall k :: 0 <= k < |fs| ==> ns[k] == Serialize(fs[k])
  {
    if |fs| == 0 then [] else [Serialize(fs[0])] + SerializeAll(fs[1..])
  }

  lemma ParseAllOne(n: ApiNode)
    requires Parse(n).Ok?
    ensures ParseAll([n]) == Ok([Parse(n).value])
  {
    assert [n][1..] == [];
    assert [Parse(n).value] + [] == [Parse(n).value];
  }

  /** Parsing a serialised well-formed filter gives the filter back. */
  lemma {:induction false} ParseSerialize(f: Filter)
    requires WellFormed(f)
    ensures Parse(Serialize(f)) == Ok(f)
    decreases f, 1
  {
    match f
    case Multi(op, qs) =>
      ParseSerializeAll(qs);
      assert OperatorOf(Some(OperatorName(op))) == op;
    case _ =>
  }

  lemma {:induction false} ParseSerializeAll(fs: seq<Filter>)
    requires forall k :: 0 <= k < |fs| ==> WellFormed(fs[k])
    ensures ParseAll(SerializeAll(fs)) == Ok(fs)
    decreases fs, 0
  {
    if |fs| > 0 {
      ParseSerialize(fs[0]);
      ParseSerializeAll(fs[1..]);
      assert [fs[0]] + fs[1..] == fs;
    }
  }

  // ---------------------------------------------------------------------------
  // Refresh

  /** Recomputes one stream from its filter rows. */
  function Refresh(rows: seq<FilterRow>): (s: StreamState)
    ensures s.invalid <==> s.apiFilter.None?
    ensures !s.invalid <==> ParseAll(Nest(rows)).Ok?
    ensures !s.invalid ==> |s.apiFilter.value| == |ChildRows(rows, None)|
    ensures !s.invalid ==> ParseAll(s.apiFilter.value) == ParseAll(Nest(rows))
  {
    var nodes := Nest(rows);
    var parsed := ParseAll(nodes);
    if parsed.Ok? then
      StoredRoundTrip(nodes);
      StreamState(Some(SerializeAll(parsed.value)), false)
    else
      StreamState(None, true)
  }

  /** A stream whose nodes parse stores the serialised filters, and is valid. */
  lemma RefreshValid(rows: seq<FilterRow>, fs: seq<Filter>)
    requires ParseAll(Nest(rows)) == Ok(fs)
    ensures Refresh(rows) == StreamState(Some(SerializeAll(fs)), false)
  {
  }

  /** What a valid stream stores parses back to what its nodes parsed to. */
  lemma StoredRoundTrip(nodes: seq<ApiNode>)
    requires ParseAll(nodes).Ok?
    ensures |SerializeAll(ParseAll(nodes).value)| == |nodes|
    ensures ParseAll(SerializeAll(ParseAll(nodes).value)) == ParseAll(nodes)
  {
    var fs := ParseAll(nodes).value;
    forall k | 0 <= k < |fs| ensures WellFormed(fs[k]) {
      assert Parse(nodes[k]) == Ok(fs[k]);
    }
    ParseSerializeAll(fs);
  }

  /** What a parsable node is stored as: its type and the columns that type
      uses, a missing `range` parameter map as the empty map, a `multi`
      operator as `AND` unless it was `OR`, and its children the same way. */
  function Normalize(n: ApiNode): (m: ApiNode)
    ensures m.kind == n.kind
    decreases n
  {
    if n.kind == MultiType then
      ApiNode(MultiType, None, None, Some(if n.operator == Some("OR") then "OR" else "AND"), None,
              seq(|n.queries|, k requires 0 <= k < |n.queries| => Normalize(n.queries[k])))
    else if n.kind == RangeType then
      ApiNode(RangeType, n.field, None, None, Some(if n.parameters.Some? then n.parameters.value else map[]), [])
    else
      ApiNode(n.kind, n.field, n.value, None, None, [])
  }

  /** Serialising a parsed node gives the node back in its stored form. */
  lemma {:induction false} SerializeParse(n: ApiNode)
    requires Parse(n).Ok?
    ensures Serialize(Parse(n).value) == Normalize(n)
    decreases n
  {
    if n.kind == MultiType {
      var f := Parse(n).value;
      forall k | 0 <= k < |n.queries|
        ensures Serialize(f.queries[k]) == Normalize(n.queries[k])
      {
        SerializeParse(n.queries[k]);
      }
      assert Serialize(f).queries == Normalize(n).queries;
    }
  }

  /** A valid refresh stores one node per top-level row, in table order: that
      row's type and the columns its type uses, with its nested children. */
  lemma RefreshStoresRows(rows: seq<FilterRow>)
    requires !Refresh(rows).invalid
    ensures var stored := Refresh(rows).apiFilter.value;
            var tops := ChildRows(rows, None);
            |stored| == |tops|
            && forall k :: 0 <= k < |tops| ==> stored[k] == Normalize(RowNode(tops[k], Nest(rows)[k].queries))
  {
    var nodes := Nest(rows);
    var fs := ParseAll(nodes).value;
    var stored := Refresh(rows).apiFilter.value;
    var tops := ChildRows(rows, None);
    forall k | 0 <= k < |tops|
      ensures stored[k] == Normalize(RowNode(tops[k], nodes[k].queries))
    {
      assert Heads(nodes)[k] == RowHeads(tops)[k];
      assert nodes[k] == RowNode(tops[k], nodes[k].queries);
      SerializeParse(nodes[k]);
    }
  }

  /** Parsing fails on a defective node whatever its siblings are. */
  predicate Defective(n: ApiNode) {
    || !KnownType(n.kind)
    || (NeedsField(n.kind) && !Present(n.field))
    || (NeedsValue(n.kind) && !Present(n.value))
  }

  lemma DefectiveFails(n: ApiNode)
    requires Defective(n)
    ensures Parse(n).Err?
  {
  }

  /** A top-level row with an unknown type, a missing field or an empty value
      makes the whole stream invalid with no filter, whatever the other rows. */
  lemma {:induction false} DefectiveRowInvalidates(rows: seq<FilterRow>, k: nat)
    requires k < |rows| && rows[k].parentId == None
    requires Defective(RowNode(rows[k], []))
    ensures Refresh(rows) == StreamState(None, true)
  {
    var nodes := Nest(rows);
    var tops := ChildRows(rows, None);
    assert rows[k] in tops;
    var j :| 0 <= j < |tops| && tops[j] == rows[k];
    assert Heads(nodes)[j] == RowHeads(tops)[j];
    assert Head(nodes[j]) == RowNode(rows[k], []);
    DefectiveFails(nodes[j]);
  }

  function EqualsRow(id: string, field: Option<string>, value: Option<string>): FilterRow {
    FilterRow(id, EqualsType, field, value, None, None, 1, None)
  }

  /** A single valid `equals` row yields one `equals` node with the same field and value. */
  lemma SingleEqualsRow(id: string, field: string, value: string)
    requires field != "" && value != ""
    ensures Refresh([EqualsRow(id, Some(field), Some(value))])
         == StreamState(Some([ApiNode(EqualsType, Some(field), Some(value), None, None, [])]), false)
  {
    var rows := [EqualsRow(id, Some(field), Some(value))];
    assert NestFrom(rows, 1, None) == [];
    assert Nest(rows) == [RowNode(rows[0], [])];
    assert Parse(RowNode(rows[0], [])) == Ok(Equals(field, value));
    ParseAllOne(RowNode(rows[0], []));
    assert SerializeAll([Equals(field, value)]) == [Serialize(Equals(field, value))];
  }

  /** An `equals` row without a field, or with an empty value, invalidates the stream. */
  lemma EqualsRowWithoutFieldOrValue(id: string, field: Option<string>, value: Option<string>)
    requires field == None || value == Some("")
    ensures Refresh([EqualsRow(id, field, value)]) == Unindexed
  {
    DefectiveRowInvalidates([EqualsRow(id, field, value)], 0);
  }

  /** A row of an unrecognised type invalidates the stream. */
  lemma UnknownTypeRow(r: FilterRow)
    requires r.parentId == None && !KnownType(r.kind)
    ensures Refresh([r]) == Unindexed
  {
    DefectiveRowInvalidates([r], 0);
  }

  /** A `range` row keeps its parameters verbatim and the stream is valid. */
  lemma SingleRangeRow(r: FilterRow, field: string, params: Params)
    requires r.kind == RangeType && r.parentId == None
    requires r.field == Some(field) && field != "" && r.parameters == Some(params)
    ensures Refresh([r]) == StreamState(Some([ApiNode(RangeType, Some(field), None, None, Some(params), [])]), false)
  {
    var rows := [r];
    assert NestFrom(rows, 1, None) == [];
    assert Nest(rows) == [RowNode(r, [])];
    assert Parse(RowNode(r, [])) == Ok(Range(field, params));
    ParseAllOne(RowNode(r, []));
    assert SerializeAll([Range(field, params)]) == [Serialize(Range(field, params))];
  }

  /** Nesting a `multi` row and one row naming it: one node holding the child. */
  lemma NestMultiWithChild(multi: FilterRow, child: FilterRow)
    requires multi.kind == MultiType && multi.parentId == None && child.parentId == Some(multi.id)
    ensures Nest([multi, child]) == [RowNode(multi, [RowNode(child, [])])]
  {
    var rows := [multi, child];
    assert Without(rows, 0) == [child];
    assert [child][1..] == [];
    assert NestFrom([child], 0, Some(multi.id)) == [RowNode(child, [])] by {
      assert NestFrom([child], 1, Some(multi.id)) == [];
    }
    assert NestFrom(rows, 1, None) == [] by {
      assert NestFrom(rows, 2, None) == [];
    }
  }

  /** A `multi` row stored without an operator and one valid `equals` child:
      one top-level AND node whose only query is the child. */
  lemma MultiWithChild(multiId: string, child: FilterRow, field: string, value: string)
    requires child.kind == EqualsType && child.parentId == Some(multiId)
    requires child.field == Some(field) && child.value == Some(value) && field != "" && value != ""
    ensures var multi := FilterRow(multiId, MultiType, None, None, None, None, 1, None);
            Refresh([multi, child])
            == StreamState(Some([ApiNode(MultiType, None, None, Some("AND"), None,
                                         [ApiNode(EqualsType, Some(field), Some(value), None, None, [])])]), false)
  {
    var multi := FilterRow(multiId, MultiType, None, None, None, None, 1, None);
    var f := Multi(And, [Equals(field, value)]);
    MultiWithChildParses(multi, child, field, value);
    RefreshValid([multi, child], [f]);
    SerializeAndOfEquals(field, value);
  }

  lemma MultiWithChildParses(multi: FilterRow, child: FilterRow, field: string, value: string)
    requires multi == FilterRow(multi.id, MultiType, None, None, None, None, 1, None)
    requires child.kind == EqualsType && child.parentId == Some(multi.id)
    requires child.field == Some(field) && child.value == Some(value) && field != "" && value != ""
    ensures ParseAll(Nest([multi, child])) == Ok([Multi(And, [Equals(field, value)])])
  {
    var leaf := RowNode(child, []);
    var node := RowNode(multi, [leaf]);
    NestMultiWithChild(multi, child);
    assert Parse(leaf) == Ok(Equals(field, value));
    ParseAllOne(leaf);
    assert Parse(node) == Ok(Multi(And, [Equals(field, value)]));
    ParseAllOne(node);
  }

  lemma SerializeAndOfEquals(field: string, value: string)
    ensures SerializeAll([Multi(And, [Equals(field, value)])])
            == [ApiNode(MultiType, None, None, Some("AND"), None,
                        [ApiNode(EqualsType, Some(field), Some(value), None, None, [])])]
  {
    var f := Multi(And, [Equals(field, value)]);
    assert SerializeAll([f]) == [Serialize(f)];
    assert SerializeAll([Equals(field, value)]) == [Serialize(Equals(field, value))];
  }
}

=== FILE: promotion_discount.dfy ===
/**
 The option and side-effect rules of the administration's promotion discount
 editor: which discount types and scopes it offers, the graduation lists, the
 effect of changing the scope or the maximum value, and the per-currency
 advanced prices it creates and clears.
 The currency conversion of an advanced price (a floating-point product with
 the currency factor, clamped by a minimum) and the id a new price entity gets
 are opaque and enter as function parameters.
 */
module PromotionDiscount {
  import opened Common

  datatype DiscountType = Absolute | Percentage | FixedUnit | Fixed

  /** A discount scope key; `SetGroup(i)` is the key `setgroup-i`, and a
      stored key this editor does not know is carried as `Other`. */
  datatype Scope = Cart | Delivery | Set | SetGroup(index: nat) | Other(raw: string)

  /** A graduation option key: `ALL` or a number. */
  datatype GraduationKey = All | Count(n: int)

  datatype Currency = Currency(id: string)

  datatype AdvancedPrice = AdvancedPrice(id: string, discountId: string, currencyId: string, price: int)

  /** The discount being edited; `None` stands for JavaScript `null`. */
  datatype Discount = Discount(
    id: string,
    scope: Scope,
    discountType: DiscountType,
    value: Option<int>,
    maxValue: Option<int>,
    considerAdvancedRules: bool,
    prices: seq<AdvancedPrice>)

  /** The component's own data next to the discount. */
  datatype Editor = Editor(
    discount: Discount,
    currencies: seq<Currency>,
    displayAdvancedPrices: bool,
    cartScope: bool,
    shippingScope: bool,
    considerAdvancedRules: bool)   // the value remembered when the editor opened

  /** The component's initial data for a discount. */
  function Open(d: Discount, currencies: seq<Currency>): (e: Editor)
    ensures e.discount == d && !e.displayAdvancedPrices
    ensures e.cartScope <==> d.scope == Cart
    ensures e.shippingScope <==> d.scope == Delivery
    ensures e.considerAdvancedRules == d.considerAdvancedRules
  {
    Editor(d, currencies, false, d.scope == Cart, d.scope == Delivery, d.considerAdvancedRules)
  }

  /** `types`: the three always-offered types, then `FIXED` unless the scope is
      the cart without advanced rules (a fixed total for the whole cart). */
  function Types(e: Editor): (ts: seq<DiscountType>)
    ensures |ts| >= 3 && ts[..3] == [Absolute, Percentage, FixedUnit]
    ensures multiset(ts)[Fixed] == if !e.cartScope || e.discount.considerAdvancedRules then 1 else 0
    ensures multiset(ts)[Absolute] == 1
    ensures |ts| == 3 + multiset(ts)[Fixed]
  {
    var base := [Absolute, Percentage, FixedUnit];
    var withoutCart := if !e.cartScope then base + [Fixed] else base;
    if e.cartScope && e.discount.considerAdvancedRules then withoutCart + [Fixed] else withoutCart
  }

  /** The whole list of offered types: the three always-offered ones, then
      `FIXED` exactly when the scope is not the cart or advanced rules are on. */
  lemma TypesList(e: Editor)
    ensures Types(e) == [Absolute, Percentage, FixedUnit]
                        + (if !e.cartScope || e.discount.considerAdvancedRules then [Fixed] else [])
  {
    var ts := Types(e);
    assert ts == ts[..3] + ts[3..];
    assert |ts| == 3 + multiset(ts)[Fixed];
    if |ts| == 4 {
      assert multiset(ts)[Fixed] == multiset(ts[..3])[Fixed] + multiset(ts[3..])[Fixed] by {
        assert multiset(ts) == multiset(ts[..3]) + multiset(ts[3..]);
      }
      assert ts[3..] == [ts[3]];
    }
  }

  /** `scopes`: cart, delivery and set, one set-group entry per loaded set
      group numbered from 1, or, while none are loaded, the current scope. */
  method Scopes(setGroupCount: nat, current: Scope) returns (scopes: seq<Scope>)
    ensures |scopes| == 3 + (if setGroupCount == 0 then 1 else setGroupCount)
    ensures scopes[..3] == [Cart, Delivery, Set]
    ensures forall i :: 3 <= i < 3 + setGroupCount ==> scopes[i] == SetGroup(i - 2)
    ensures setGroupCount == 0 ==> scopes[3] == current
  {
    scopes := [Cart, Delivery, Set];
    var index := 1;
    while index <= setGroupCount
      invariant 1 <= index <= setGroupCount + 1
      invariant |scopes| == 2 + index && scopes[..3] == [Cart, Delivery, Set]
      invariant forall i :: 3 <= i < |scopes| ==> scopes[i] == SetGroup(i - 2)
    {
      scopes := scopes + [SetGroup(index)];
      index := index + 1;
    }
    if setGroupCount <= 0 {
      scopes := scopes + [current];
    }
  }

  /** `ALL` followed by the numbers `first`..9. */
  method Graduation(first: int) returns (keys: seq<GraduationKey>)
    requires 1 <= first <= 10
    ensures |keys| == 11 - first && keys[0] == All
    ensures forall k :: 1 <= k < |keys| ==> keys[k] == Count(first + k - 1)
  {
    keys := [All];
    var i := first;
    while i < 10
      invariant first <= i <= 10
      invariant |keys| == 1 + i - first && keys[0] == All
      invariant forall k :: 1 <= k < |keys| ==> keys[k] == Count(first + k - 1)
    {
      keys := keys + [Count(i)];
      i := i + 1;
    }
  }

  /** `graduationAppliers`: `ALL`, then 2..9. */
  method GraduationAppliers() returns (keys: seq<GraduationKey>)
    ensures |keys| == 9 && keys[0] == All
    ensures forall k :: 1 <= k < 9 ==> keys[k] == Count(k + 1)
  {
    keys := Graduation(2);
  }

  /** `graduationCounts`: `ALL`, then 1..9. */
  method GraduationCounts() returns (keys: seq<GraduationKey>)
    ensures |keys| == 10 && keys[0] == All
    ensures forall k :: 1 <= k < 10 ==> keys[k] == Count(k)
  {
    keys := Graduation(1);
  }

  /** `showMaxValueAdvancedPrices`: a percentage discount with a maximum value. */
  predicate ShowMaxValueAdvancedPrices(d: Discount) {
    d.discountType == Percentage && d.maxValue.Some?
  }

  /** `onDiscountScopeChanged`: recomputes the cart and shipping flags; the
      delivery scope switches advanced rules off, any other scope restores the
      value remembered when the editor opened. */
  function OnDiscountScopeChanged(e: Editor, value: Scope): (e': Editor)
    ensures e'.cartScope <==> value == Cart
    ensures e'.shippingScope <==> value == Delivery
    ensures value == Delivery ==> !e'.discount.considerAdvancedRules
    ensures value != Delivery ==> e'.discount.considerAdvancedRules == e.considerAdvancedRules
    ensures e'.discount == e.discount.(considerAdvancedRules := e'.discount.considerAdvancedRules)
    ensures e'.considerAdvancedRules == e.considerAdvancedRules && e'.currencies == e.currencies
    ensures e'.displayAdvancedPrices == e.displayAdvancedPrices
  {
    e.(cartScope := value == Cart,
       shippingScope := value == Delivery,
       discount := e.discount.(considerAdvancedRules := if value == Delivery then false else e.considerAdvancedRules))
  }

  /** Leaving the delivery scope gives the discount back its original setting. */
  lemma DeliveryRoundTrip(d: Discount, currencies: seq<Currency>, other: Scope)
    requires other != Delivery
    ensures OnDiscountScopeChanged(OnDiscountScopeChanged(Open(d, currencies), Delivery), other).discount == d
  {
  }

  /** The prices whose id is not among `ids`, in their order; removing the
      entity with id `x` is `Without(prices, [x])`. */
  function Without(prices: seq<AdvancedPrice>, ids: seq<string>): seq<AdvancedPrice> {
    if |prices| == 0 then []
    else (if prices[0].id in ids then [] else [prices[0]]) + Without(prices[1..], ids)
  }

  /** Removing one more id from what remains. */
  lemma {:induction false} WithoutStep(prices: seq<AdvancedPrice>, ids: seq<string>, id: string)
    ensures Without(Without(prices, ids), [id]) == Without(prices, ids + [id])
  {
    if |prices| > 0 {
      WithoutStep(prices[1..], ids, id);
      var x := prices[0];
      assert x.id in ids + [id] <==> x.id in ids || x.id == id;
      var w1 := Without(prices[1..], ids);
      if x.id !in ids {
        var rest := Without(prices, ids);
        assert rest == [x] + w1;
        assert rest[0] == x && rest[1..] == w1;
        assert Without(rest, [id]) == (if x.id in [id] then [] else [x]) + Without(w1, [id]);
        assert x.id in [id] <==> x.id == id;
      } else {
        assert Without(prices, ids) == [] + w1 == w1;
        assert Without(prices, ids + [id]) == [] + Without(prices[1..], ids + [id]);
      }
    }
  }

  /** Removing no id keeps the collection. */
  lemma {:induction false} WithoutNone(prices: seq<AdvancedPrice>)
    ensures Without(prices, []) == prices
  {
    if |prices| > 0 {
      WithoutNone(prices[1..]);
    }
  }

  /** Removing every id of a collection empties it. */
  lemma {:induction false} WithoutAllIds(prices: seq<AdvancedPrice>, ids: seq<string>)
    requires forall i :: 0 <= i < |prices| ==> prices[i].id in ids
    ensures Without(prices, ids) == []
  {
    if |prices| > 0 {
      WithoutAllIds(prices[1..], ids);
    }
  }

  function Ids(prices: seq<AdvancedPrice>): (ids: seq<string>)
    ensures |ids| == |prices| && forall i :: 0 <= i < |prices| ==> ids[i] == prices[i].id
  {
    if |prices| == 0 then [] else [prices[0].id] + Ids(prices[1..])
  }

  /** Removing the `i`-th id after the ones before it. */
  lemma RemoveNextId(prices: seq<AdvancedPrice>, ids: seq<string>, i: nat)
    requires i < |ids|
    ensures Without(Without(prices, ids[..i]), [ids[i]]) == Without(prices, ids[..i + 1])
  {
    WithoutStep(prices, ids[..i], ids[i]);
    assert ids[..i + 1] == ids[..i] + [ids[i]];
  }

  /** Removing the ids of every price leaves nothing. */
  lemma RemoveEveryId(prices: seq<AdvancedPrice>)
    ensures Without(prices, Ids(prices)[..|prices|]) == []
  {
    var ids := Ids(prices);
    assert ids[..|prices|] == ids;
    forall k | 0 <= k < |prices|
      ensures prices[k].id in ids
    {
      assert ids[k] == prices[k].id;
    }
    WithoutAllIds(prices, ids);
  }

  /** `clearAdvancedPrices`: removes the prices one id at a time; the
      collection ends up empty. */
  method ClearAdvancedPrices(d: Discount) returns (d': Discount)
    ensures d'.prices == []
    ensures d' == d.(prices := [])
  {
    var ids := Ids(d.prices);
    var prices := d.prices;
    var i := 0;
    WithoutNone(d.prices);
    assert ids[..0] == [];
    while i < |ids|
      invariant 0 <= i <= |ids|
      invariant prices == Without(d.prices, ids[..i])
    {
      RemoveNextId(d.prices, ids, i);
      prices := Without(prices, [ids[i]]);
      i := i + 1;
    }
    RemoveEveryId(d.prices);
    d' := d.(prices := prices);
  }

  /** `onMaxValueChanged`: a zero clears the maximum value and every advanced
      price; any other value changes nothing. */
  method OnMaxValueChanged(d: Discount, value: int) returns (d': Discount)
    ensures value == 0 ==> d'.maxValue.None? && d'.prices == [] && d' == d.(maxValue := None, prices := [])
    ensures value != 0 ==> d' == d
  {
    d' := d;
    if value == 0 {
      d' := d'.(maxValue := None);
      d' := ClearAdvancedPrices(d');
    }
  }

  /** Some price of the collection is for this currency. */
  predicate HasCurrency(prices: seq<AdvancedPrice>, currencyId: string) {
    exists i :: 0 <= i < |prices| && prices[i].currencyId == currencyId
  }

  /** `isMemberOfCollection`: scans every price for the currency's id. */
  method IsMemberOfCollection(prices: seq<AdvancedPrice>, currency: Currency) returns (found: bool)
    ensures found <==> HasCurrency(prices, currency.id)
  {
    found := false;
    var i := 0;
    while i < |prices|
      invariant 0 <= i <= |prices|
      invariant found <==> exists k :: 0 <= k < i && prices[k].currencyId == currency.id
    {
      if prices[i].currencyId == currency.id {
        found := true;
      }
      i := i + 1;
    }
  }

  /** The base an advanced price is derived from: the maximum value when the
      maximum-value prices are shown, the discount value otherwise. */
  function AdvancedPriceBase(d: Discount): Option<int> {
    if ShowMaxValueAdvancedPrices(d) then d.maxValue else d.value
  }

  /** The price `onClickAdvancedPrices` adds for a currency without one. */
  function NewPrice(d: Discount, c: Currency, newId: Currency -> string, convert: (Currency, Option<int>) -> int): AdvancedPrice {
    AdvancedPrice(newId(c), d.id, c.id, convert(c, AdvancedPriceBase(d)))
  }

  /** `p` is one of the prices added for the first `j` currencies: the new price
      of one of them, for a currency the original prices lacked. */
  predicate AddedFor(d: Discount, cs: seq<Currency>, j: nat, p: AdvancedPrice,
                     newId: Currency -> string, convert: (Currency, Option<int>) -> int)
    requires j <= |cs|
  {
    !HasCurrency(d.prices, p.currencyId) && exists i :: 0 <= i < j && p == NewPrice(d, cs[i], newId, convert)
  }

  /** After the first `j` currencies: the original prices come first, every one
      of those currencies has a price, and each added price is the new price of
      one of them, for a currency the original prices lacked, with no currency
      added twice. */
  ghost predicate Extended(d: Discount, cs: seq<Currency>, j: nat, prices: seq<AdvancedPrice>,
                           newId: Currency -> string, convert: (Currency, Option<int>) -> int)
    requires j <= |cs|
  {
    && |d.prices| <= |prices| && prices[..|d.prices|] == d.prices
    && (forall i :: 0 <= i < j ==> HasCurrency(prices, cs[i].id))
    && (forall k :: |d.prices| <= k < |prices| ==> AddedFor(d, cs, j, prices[k], newId, convert))
    && (forall k1, k2 :: |d.prices| <= k1 < k2 < |prices| ==> prices[k1].currencyId != prices[k2].currencyId)
  }

  /** One more currency: nothing to add when it already has a price, else its new price. */
  lemma ExtendedStep(d: Discount, cs: seq<Currency>, j: nat, prices: seq<AdvancedPrice>,
                     newId: Currency -> string, convert: (Currency, Option<int>) -> int)
    requires j < |cs| && Extended(d, cs, j, prices, newId, convert)
    ensures HasCurrency(prices, cs[j].id) ==> Extended(d, cs, j + 1, prices, newId, convert)
    ensures !HasCurrency(prices, cs[j].id) ==>
              Extended(d, cs, j + 1, prices + [NewPrice(d, cs[j], newId, convert)], newId, convert)
  {
    var n := |d.prices|;
    var c := cs[j];
    if !HasCurrency(prices, c.id) {
      var added := NewPrice(d, c, newId, convert);
      var grown := prices + [added];
      assert !HasCurrency(d.prices, c.id) by {
        forall k | 0 <= k < n
          ensures d.prices[k].currencyId != c.id
        {
          assert prices[k] == d.prices[k];
        }
      }
      assert grown[..n] == d.prices;
      forall i | 0 <= i < j + 1
        ensures HasCurrency(grown, cs[i].id)
      {
        if i < j {
          assert HasCurrency(prices, cs[i].id);
          var k :| 0 <= k < |prices| && prices[k].currencyId == cs[i].id;
          assert grown[k] == prices[k];
        } else {
          assert grown[|prices|].currencyId == c.id;
        }
      }
      forall k | n <= k < |grown|
        ensures AddedFor(d, cs, j + 1, grown[k], newId, convert)
      {
        if k < |prices| {
          assert grown[k] == prices[k] && AddedFor(d, cs, j, prices[k], newId, convert);
        } else {
          assert grown[k] == NewPrice(d, cs[j], newId, convert);
        }
      }
      forall k1, k2 | n <= k1 < k2 < |grown|
        ensures grown[k1].currencyId != grown[k2].currencyId
      {
        if k2 == |prices| {
          assert grown[k1] == prices[k1];
        }
      }
    }
  }

  /** `onClickAdvancedPrices`: adds, in currency order, a price for every
      currency that has none yet, then opens the advanced prices. */
  method OnClickAdvancedPrices(e: Editor, newId: Currency -> string, convert: (Currency, Option<int>) -> int)
    returns (e': Editor)
    ensures e'.displayAdvancedPrices
    ensures e' == e.(displayAdvancedPrices := true, discount := e.discount.(prices := e'.discount.prices))
    ensures |e.discount.prices| <= |e'.discount.prices|
    ensures e'.discount.prices[..|e.discount.prices|] == e.discount.prices
    ensures forall j :: 0 <= j < |e.currencies| ==> HasCurrency(e'.discount.prices, e.currencies[j].id)
    ensures forall k :: |e.discount.prices| <= k < |e'.discount.prices| ==>
              AddedFor(e.discount, e.currencies, |e.currencies|, e'.discount.prices[k], newId, convert)
    ensures forall k1, k2 :: |e.discount.prices| <= k1 < k2 < |e'.discount.prices| ==>
              e'.discount.prices[k1].currencyId != e'.discount.prices[k2].currencyId
  {
    var d := e.discount;
    var prices := d.prices;
    var j := 0;
    assert prices[..|d.prices|] == d.prices;
    while j < |e.currencies|
      invariant 0 <= j <= |e.currencies|
      invariant Extended(d, e.currencies, j, prices, newId, convert)
    {
      var currency := e.currencies[j];
      var member := IsMemberOfCollection(prices, currency);
      ExtendedStep(d, e.currencies, j, prices, newId, convert);
      if !member {
        prices := prices + [NewPrice(d, currency, newId, convert)];
      }
      j := j + 1;
    }
    assert Extended(d, e.currencies, |e.currencies|, prices, newId, convert);
    e' := e.(displayAdvancedPrices := true, discount := d.(prices := prices));
  }
}

=== FILE: routing_cases.dfy ===
/**
 The storefront routing test's case matrix: the recursive generator that
 builds one parameter assignment per combination of option values, the
 port selection of the request context, and the construction of one
 request case from its parameters.
 A parameter assignment is a PHP array with string keys, modelled as a map;
 `array_merge` on string keys lets the right operand win, as `+` on Dafny maps.
 */
module RoutingCases {
  import opened Common

  /** An option value of the matrix: the `https` flag or a string. */
  datatype Param = Flag(b: bool) | Text(s: string)

  type Assignment = map<string, Param>
  type Config = map<string, seq<Param>>

  /** The keys of a configuration, in their order, all present in it. */
  predicate Covers(keys: seq<string>, config: Config) {
    forall i :: 0 <= i < |keys| ==> keys[i] in config
  }

  predicate Distinct(keys: seq<string>) {
    forall i, j :: 0 <= i < j < |keys| ==> keys[i] != keys[j]
  }

  /** Every key has at least one option. */
  predicate AllOffered(keys: seq<string>, config: Config)
    requires Covers(keys, config)
  {
    forall i :: 0 <= i < |keys| ==> |config[keys[i]]| > 0
  }

  // ---------------------------------------------------------------------
  // The generator as written

  /** The inner loop over the child results: `$base` accumulates every
      child merged so far, and each accumulated value is appended. */
  function Accumulate(base: Assignment, children: seq<Assignment>): (r: seq<Assignment>)
    ensures |r| == |children|
    decreases |children|
  {
    if |children| == 0 then []
    else
      var merged := base + children[0];
      [merged] + Accumulate(merged, children[1..])
  }

  /** One value of the popped key: its accumulated merges with the child
      results, or the key alone when there are none. */
  function ForValue(key: string, value: Param, children: seq<Assignment>): seq<Assignment> {
    if |children| == 0 then [map[key := value]] else Accumulate(map[key := value], children)
  }

  /** The outer loop over the popped key's options. */
  function OverValues(key: string, values: seq<Param>, children: seq<Assignment>): seq<Assignment> {
    if |values| == 0 then []
    else ForValue(key, values[0], children) + OverValues(key, values[1..], children)
  }

  /** `generateCases`: pops the last key and combines its options with the
      cases of the remaining keys. */
  function GenerateCases(keys: seq<string>, config: Config): (r: seq<Assignment>)
    requires Covers(keys, config)
    ensures |keys| == 0 ==> r == []
    decreases |keys|
  {
    if |keys| == 0 then []
    else
      var key := keys[|keys| - 1];
      OverValues(key, config[key], GenerateCases(keys[..|keys| - 1], config))
  }

  // ---------------------------------------------------------------------
  // The cartesian product, as a reference definition

  function Extend(key: string, value: Param, children: seq<Assignment>): (r: seq<Assignment>)
    ensures |r| == |children|
    ensures forall i :: 0 <= i < |r| ==> r[i] == map[key := value] + children[i]
  {
    seq(|children|, i requires 0 <= i < |children| => map[key := value] + children[i])
  }

  function CrossWith(key: string, values: seq<Param>, children: seq<Assignment>): seq<Assignment> {
    if |values| == 0 then [] else Extend(key, values[0], children) + CrossWith(key, values[1..], children)
  }

  /** Every assignment of one option to each key; the empty key list has the
      one empty assignment. */
  function Cartesian(keys: seq<string>, config: Config): seq<Assignment>
    requires Covers(keys, config)
    decreases |keys|
  {
    if |keys| == 0 then [map[]]
    else
      var key := keys[|keys| - 1];
      CrossWith(key, config[key], Cartesian(keys[..|keys| - 1], config))
  }

  /** The product of the option counts. */
  function Product(keys: seq<string>, config: Config): nat
    requires Covers(keys, config)
    decreases |keys|
  {
    if |keys| == 0 then 1 else |config[keys[|keys| - 1]]| * Product(keys[..|keys| - 1], config)
  }

  /** An assignment the matrix should contain: exactly the keys, each with one
      of its options. */
  ghost predicate Valid(a: Assignment, keys: seq<string>, config: Config)
    requires Covers(keys, config)
  {
    (forall k :: k in a <==> k in keys)
    && forall i :: 0 <= i < |keys| ==> a[keys[i]] in config[keys[i]]
  }

  lemma {:induction false} CrossWithCount(key: string, values: seq<Param>, children: seq<Assignment>)
    ensures |CrossWith(key, values, children)| == |values| * |children|
    decreases |values|
  {
    if |values| > 0 {
      CrossWithCount(key, values[1..], children);
    }
  }

  lemma {:induction false} CartesianCount(keys: seq<string>, config: Config)
    requires Covers(keys, config)
    ensures |Cartesian(keys, config)| == Product(keys, config)
    decreases |keys|
  {
    if |keys| > 0 {
      var key := keys[|keys| - 1];
      CartesianCount(keys[..|keys| - 1], config);
      CrossWithCount(key, config[key], Cartesian(keys[..|keys| - 1], config));
    }
  }

  /** Every member of a cross is one option merged over one child. */
  lemma {:induction false} CrossWithMember(key: string, values: seq<Param>, children: seq<Assignment>, n: nat)
    requires n < |CrossWith(key, values, children)|
    ensures exists v, j :: v in values && 0 <= j < |children|
                           && CrossWith(key, values, children)[n] == map[key := v] + children[j]
    decreases |values|
  {
    var head := Extend(key, values[0], children);
    if n < |head| {
      assert CrossWith(key, values, children)[n] == map[key := values[0]] + children[n];
    } else {
      CrossWithMember(key, values[1..], children, n - |head|);
      var v, j :| v in values[1..] && 0 <= j < |children|
                  && CrossWith(key, values[1..], children)[n - |head|] == map[key := v] + children[j];
      assert CrossWith(key, values, children)[n] == map[key := v] + children[j];
    }
  }

  /** Every option merged over every child is in the cross. */
  lemma {:induction false} CrossWithHas(key: string, values: seq<Param>, children: seq<Assignment>, v: Param, j: nat)
    requires v in values && j < |children|
    ensures map[key := v] + children[j] in CrossWith(key, values, children)
    decreases |values|
  {
    if values[0] == v {
      assert Extend(key, v, children)[j] == map[key := v] + children[j];
    } else {
      CrossWithHas(key, values[1..], children, v, j);
    }
  }

  /** Soundness: the product contains only valid assignments. */
  lemma {:induction false} CartesianSound(keys: seq<string>, config: Config, n: nat)
    requires Covers(keys, config) && n < |Cartesian(keys, config)|
    ensures Valid(Cartesian(keys, config)[n], keys, config)
    decreases |keys|
  {
    if |keys| > 0 {
      var key := keys[|keys| - 1];
      var rest := keys[..|keys| - 1];
      var children := Cartesian(rest, config);
      CrossWithMember(key, config[key], children, n);
      var v, j :| v in config[key] && 0 <= j < |children|
                  && Cartesian(keys, config)[n] == map[key := v] + children[j];
      CartesianSound(rest, config, j);
      var a := Cartesian(keys, config)[n];
      assert keys == rest + [key];
      forall i | 0 <= i < |keys|
        ensures a[keys[i]] in config[keys[i]]
      {
        if keys[i] != key {
          assert keys[i] == rest[i];
        }
      }
    }
  }

  /** Removing the last key of a valid assignment leaves a valid assignment
      of the remaining keys, from which the whole is rebuilt. */
  lemma DropLastKey(keys: seq<string>, config: Config, a: Assignment)
    requires Covers(keys, config) && Distinct(keys) && Valid(a, keys, config) && |keys| > 0
    ensures Covers(keys[..|keys| - 1], config) && Distinct(keys[..|keys| - 1])
    ensures Valid(a - {keys[|keys| - 1]}, keys[..|keys| - 1], config)
    ensures keys[|keys| - 1] in a && a == map[keys[|keys| - 1] := a[keys[|keys| - 1]]] + (a - {keys[|keys| - 1]})
  {
    var key := keys[|keys| - 1];
    var rest := keys[..|keys| - 1];
    assert keys == rest + [key];
    assert key !in rest;
    var sub := a - {key};
    forall i | 0 <= i < |rest|
      ensures sub[rest[i]] in config[rest[i]]
    {
      assert rest[i] == keys[i];
    }
    assert a == map[key := a[key]] + sub;
  }

  /** Completeness: every valid assignment of distinct keys is in the product. */
  lemma {:induction false} CartesianComplete(keys: seq<string>, config: Config, a: Assignment)
    requires Covers(keys, config) && Distinct(keys) && Valid(a, keys, config)
    ensures a in Cartesian(keys, config)
    decreases |keys|
  {
    if |keys| == 0 {
      assert a == map[];
    } else {
      var key := keys[|keys| - 1];
      var rest := keys[..|keys| - 1];
      var sub := a - {key};
      DropLastKey(keys, config, a);
      CartesianComplete(rest, config, sub);
      var children := Cartesian(rest, config);
      var j :| 0 <= j < |children| && children[j] == sub;
      CrossWithHas(key, config[key], children, a[key], j);
    }
  }

  // ---------------------------------------------------------------------
  // The generator agrees with the product

  /** While every child has the same keys, none of them the popped key, the
      accumulated base never shows through: each result is the popped key's
      value merged over that child alone. */
  lemma {:induction false} AccumulateExtends(base: Assignment, key: string, value: Param, keySet: set<string>,
                                             children: seq<Assignment>)
    requires key in base && base[key] == value && key !in keySet
    requires forall k :: k in base ==> k == key || k in keySet
    requires forall i :: 0 <= i < |children| ==> children[i].Keys == keySet
    ensures Accumulate(base, children) == Extend(key, value, children)
    decreases |children|
  {
    if |children| > 0 {
      var merged := base + children[0];
      assert merged == map[key := value] + children[0];
      AccumulateExtends(merged, key, value, keySet, children[1..]);
      var r := Accumulate(base, children);
      var e := Extend(key, value, children);
      assert r == [merged] + Accumulate(merged, children[1..]);
      forall i | 0 <= i < |r|
        ensures r[i] == e[i]
      {
        if i > 0 {
          assert r[i] == Accumulate(merged, children[1..])[i - 1];
        }
      }
    }
  }

  lemma {:induction false} OverValuesNoChildren(key: string, values: seq<Param>)
    ensures OverValues(key, values, []) == CrossWith(key, values, [map[]])
    decreases |values|
  {
    if |values| > 0 {
      assert map[key := values[0]] + map[] == map[key := values[0]];
      assert Extend(key, values[0], [map[]]) == [map[key := values[0]]];
      OverValuesNoChildren(key, values[1..]);
    }
  }

  lemma {:induction false} OverValuesWithChildren(key: string, values: seq<Param>, keySet: set<string>,
                                                  children: seq<Assignment>)
    requires |children| > 0 && key !in keySet
    requires forall i :: 0 <= i < |children| ==> children[i].Keys == keySet
    ensures OverValues(key, values, children) == CrossWith(key, values, children)
    decreases |values|
  {
    if |values| > 0 {
      AccumulateExtends(map[key := values[0]], key, values[0], keySet, children);
      OverValuesWithChildren(key, values[1..], keySet, children);
    }
  }

  lemma {:induction false} ProductPositive(keys: seq<string>, config: Config)
    requires Covers(keys, config) && AllOffered(keys, config)
    ensures Product(keys, config) > 0
    decreases |keys|
  {
    if |keys| > 0 {
      ProductPositive(keys[..|keys| - 1], config);
    }
  }

  /** With distinct keys that all have options, the generator builds exactly
      the cartesian product, in its order. */
  lemma {:induction false} GenerateIsCartesian(keys: seq<string>, config: Config)
    requires Covers(keys, config) && Distinct(keys) && AllOffered(keys, config) && |keys| > 0
    ensures GenerateCases(keys, config) == Cartesian(keys, config)
    decreases |keys|
  {
    var key := keys[|keys| - 1];
    var rest := keys[..|keys| - 1];
    if |rest| == 0 {
      OverValuesNoChildren(key, config[key]);
    } else {
      GenerateIsCartesian(rest, config);
      var children := Cartesian(rest, config);
      CartesianCount(rest, config);
      ProductPositive(rest, config);
      var keySet := set k | k in rest;
      forall i | 0 <= i < |children|
        ensures children[i].Keys == keySet
      {
        CartesianSound(rest, config, i);
      }
      assert key !in keySet;
      OverValuesWithChildren(key, config[key], keySet, children);
    }
  }

  /** The generator's count is the product of the option counts. */
  lemma GenerateCount(keys: seq<string>, config: Config)
    requires Covers(keys, config) && Distinct(keys) && AllOffered(keys, config) && |keys| > 0
    ensures |GenerateCases(keys, config)| == Product(keys, config)
  {
    GenerateIsCartesian(keys, config);
    CartesianCount(keys, config);
  }

  /** Every generated case assigns each key one of its options, and every
      such assignment is generated. */
  lemma GenerateSoundAndComplete(keys: seq<string>, config: Config, a: Assignment)
    requires Covers(keys, config) && Distinct(keys) && AllOffered(keys, config) && |keys| > 0
    ensures a in GenerateCases(keys, config) <==> Valid(a, keys, config)
  {
    GenerateIsCartesian(keys, config);
    if a in Cartesian(keys, config) {
      var n :| 0 <= n < |Cartesian(keys, config)| && Cartesian(keys, config)[n] == a;
      CartesianSound(keys, config, n);
    }
    if Valid(a, keys, config) {
      CartesianComplete(keys, config, a);
    }
  }

  /** A single key yields one case per option, each mapping only that key,
      whether or not the list is empty. */
  lemma SingleKey(key: string, config: Config)
    requires key in config
    ensures var r := GenerateCases([key], config);
            |r| == |config[key]|
            && forall i :: 0 <= i < |r| ==> r[i] == map[key := config[key][i]]
  {
    var values := config[key];
    assert [key][..0] == [];
    OverValuesNoChildren(key, values);
    CrossWithCount(key, values, [map[]]);
    var r := GenerateCases([key], config);
    forall i | 0 <= i < |r|
      ensures r[i] == map[key := values[i]]
    {
      CrossWithIndex(key, values, i);
    }
  }

  lemma {:induction false} CrossWithIndex(key: string, values: seq<Param>, i: nat)
    requires i < |values|
    ensures |CrossWith(key, values, [map[]])| == |values|
    ensures CrossWith(key, values, [map[]])[i] == map[key := values[i]]
    decreases |values|
  {
    CrossWithCount(key, values, [map[]]);
    assert map[key := values[0]] + map[] == map[key := values[0]];
    if i > 0 {
      CrossWithIndex(key, values[1..], i - 1);
    }
  }

  // ---------------------------------------------------------------------
  // The matrix of the routing test

  function MatrixKeys(): seq<string> {
    ["https", "host", "subDir", "salesChannel"]
  }

  function Matrix(): (c: Config)
    ensures Covers(MatrixKeys(), c)
  {
    map[
      "https" := [Flag(false), Flag(true)],
      "host" := [Text("router.test"), Text("router.test:8000")],
      "subDir" := [Text(""), Text("/public"), Text("/sw/public")],
      "salesChannel" := [Text(""), Text("/de"), Text("/de/premium"), Text("/public")]
    ]
  }

  /** The routing test runs 2 * 2 * 3 * 4 cases. */
  lemma MatrixCount()
    ensures |GenerateCases(MatrixKeys(), Matrix())| == 48
  {
    var keys := MatrixKeys();
    var c := Matrix();
    assert keys[..3] == ["https", "host", "subDir"];
    assert keys[..3][..2] == ["https", "host"];
    assert keys[..3][..2][..1] == ["https"];
    assert keys[..3][..2][..1][..0] == [];
    assert Product(["https"], c) == 2;
    assert Product(["https", "host"], c) == 4;
    assert Product(["https", "host", "subDir"], c) == 12;
    assert Product(keys, c) == 48;
    GenerateCount(keys, c);
  }

  // ---------------------------------------------------------------------
  // Request context and request cases

  /** The request context's HTTP port: the request's port when the request is
      plain and not on 80, else 80. */
  function HttpPort(secure: bool, port: int): (p: int)
    ensures p == 80 || (p == port && !secure)
    ensures secure ==> p == 80
  {
    if !secure && port != 80 then port else 80
  }

  /** The request context's HTTPS port: the request's port when the request
      is secure and not on 443, else 443. */
  function HttpsPort(secure: bool, port: int): (p: int)
    ensures p == 443 || (p == port && secure)
    ensures !secure ==> p == 443
  {
    if secure && port != 443 then port else 443
  }

  /** The port of the request's own scheme is always the request's port; the
      other scheme gets its default. */
  lemma OwnSchemeKeepsPort(secure: bool, port: int)
    ensures secure ==> HttpsPort(secure, port) == port && HttpPort(secure, port) == 80
    ensures !secure ==> HttpPort(secure, port) == port && HttpsPort(secure, port) == 443
  {
  }

  datatype RequestTestCase = RequestTestCase(
    httpMethod: string,
    route: string,
    scriptFilename: string,
    scriptName: string,
    host: string,
    uri: string,
    pathInfo: string,
    salesChannelPrefix: string,
    https: bool)

  const RegisterPath := "/account/register"
  const IndexScript := "/index.php"

  /** `createCase`: the registration form posted below the sub directory and
      the sales channel prefix. */
  function CreateCase(https: bool, host: string, subDir: string, salesChannel: string): (c: RequestTestCase)
    ensures c.httpMethod == "POST" && c.route == "frontend.account.register.save"
    ensures c.host == host && c.https == https && c.salesChannelPrefix == salesChannel
    ensures c.pathInfo == RegisterPath
  {
    RequestTestCase("POST", "frontend.account.register.save", "/app" + subDir + IndexScript,
                    subDir + IndexScript, host, subDir + salesChannel + RegisterPath,
                    RegisterPath, salesChannel, https)
  }

  /** The base URL a front controller derives from the script name: the
      script name without its file. */
  function BaseUrl(c: RequestTestCase): string
    requires |c.scriptName| >= |IndexScript|
  {
    c.scriptName[..|c.scriptName| - |IndexScript|]
  }

  /** A case's URI is its base URL, then its sales channel prefix, then its
      path info; the script file lies under `/app` at the script name. */
  lemma CaseDecomposes(https: bool, host: string, subDir: string, salesChannel: string)
    ensures var c := CreateCase(https, host, subDir, salesChannel);
            |c.scriptName| >= |IndexScript|
            && BaseUrl(c) == subDir
            && c.uri == BaseUrl(c) + c.salesChannelPrefix + c.pathInfo
            && c.scriptFilename == "/app" + c.scriptName
  {
    var c := CreateCase(https, host, subDir, salesChannel);
    assert c.scriptName == subDir + IndexScript;
    assert (subDir + IndexScript)[..|subDir|] == subDir;
  }
}

=== FILE: seo_resolver.dfy ===
/**
 Storefront SEO path resolution: a requested path is trimmed of slashes and
 looked up in the `seo_url` table, where a row for the requested sales channel
 beats a row that applies to every channel; a non-canonical result is paired
 with the canonical SEO path of the same technical path, if one exists.
 The table is a sequence of rows; among equally good rows the first in table
 order is taken.
 */
module SeoResolver {
  import opened Common

  /** One `seo_url` row; `salesChannelId` is `None` for a row valid in every channel. */
  datatype SeoUrl = SeoUrl(
    id: string,
    languageId: string,
    salesChannelId: Option<string>,
    pathInfo: string,
    seoPathInfo: string,
    isCanonical: bool)

  /** The row (or the fallback for no row) a path resolves to. */
  datatype Match = Match(id: Option<string>, pathInfo: string, isCanonical: bool)

  /** The array `resolveSeoPath` returns. */
  datatype Resolved = Resolved(
    pathInfo: string,
    isCanonical: bool,
    id: Option<string>,
    canonicalPathInfo: Option<string>)

  /** `'/' . trim($p, '/')`: a path with exactly one leading slash. */
  function Rooted(p: string): (s: string)
    ensures |s| >= 1 && s[0] == '/'
  {
    "/" + Trim(p, '/')
  }

  /** `'/' . trim($p, '/') . '/'`: a path between single slashes. */
  function Slashed(p: string): (s: string)
    ensures |s| >= 2 && s[0] == '/' && s[|s| - 1] == '/'
  {
    Rooted(p) + "/"
  }

  /** The first index whose row satisfies `p`. */
  function FirstIndex(table: seq<SeoUrl>, p: SeoUrl -> bool): (r: Option<nat>)
    ensures r.Some? ==> r.value < |table| && p(table[r.value]) && forall j :: 0 <= j < r.value ==> !p(table[j])
    ensures r.None? ==> forall j :: 0 <= j < |table| ==> !p(table[j])
  {
    if |table| == 0 then None
    else if p(table[0]) then Some(0)
    else match FirstIndex(table[1..], p)
         case Some(i) => Some(i + 1)
         case None => None
  }

  /** A row may answer the lookup: same language, the requested channel or
      every channel, and exactly the trimmed SEO path. */
  predicate Eligible(u: SeoUrl, languageId: string, salesChannelId: string, seoPath: string) {
    u.languageId == languageId
    && (u.salesChannelId == Some(salesChannelId) || u.salesChannelId.None?)
    && u.seoPathInfo == seoPath
  }

  /** The first query: a channel-specific eligible row if there is one,
      otherwise an eligible row for every channel. */
  function SelectRow(table: seq<SeoUrl>, languageId: string, salesChannelId: string, seoPath: string): (r: Option<SeoUrl>)
    ensures r.Some? ==> r.value in table && Eligible(r.value, languageId, salesChannelId, seoPath)
    ensures r.None? <==> forall j :: 0 <= j < |table| ==> !Eligible(table[j], languageId, salesChannelId, seoPath)
    ensures r.Some? && r.value.salesChannelId.None? ==>
              forall j :: 0 <= j < |table| && Eligible(table[j], languageId, salesChannelId, seoPath)
                          ==> table[j].salesChannelId.None?
  {
    var specific := FirstIndex(table, u => Eligible(u, languageId, salesChannelId, seoPath) && u.salesChannelId.Some?);
    if specific.Some? then Some(table[specific.value])
    else
      var any := FirstIndex(table, u => Eligible(u, languageId, salesChannelId, seoPath));
      if any.Some? then Some(table[any.value]) else None
  }

  /** The first query's row, or the trimmed path itself as a non-canonical match. */
  function MatchFor(table: seq<SeoUrl>, languageId: string, salesChannelId: string, seoPath: string): (m: Match)
    ensures SelectRow(table, languageId, salesChannelId, seoPath).None? ==> m == Match(None, seoPath, false)
    ensures SelectRow(table, languageId, salesChannelId, seoPath).Some? ==>
              var u := SelectRow(table, languageId, salesChannelId, seoPath).value;
              m == Match(Some(u.id), u.pathInfo, u.isCanonical)
  {
    match SelectRow(table, languageId, salesChannelId, seoPath)
    case Some(u) => Match(Some(u.id), u.pathInfo, u.isCanonical)
    case None => Match(None, seoPath, false)
  }

  /** A row that is the canonical SEO URL for a technical path: same language,
      exactly the requested channel, not the matched row, canonical. */
  predicate CanonicalFor(u: SeoUrl, languageId: string, salesChannelId: string, excludedId: string, pathInfo: string) {
    u.languageId == languageId
    && u.salesChannelId == Some(salesChannelId)
    && u.id != excludedId
    && u.pathInfo == pathInfo
    && u.isCanonical
  }

  /** The second query: for a non-canonical match, the slash-normalised SEO
      path of a canonical row with the same technical path. */
  function CanonicalPath(table: seq<SeoUrl>, languageId: string, salesChannelId: string, m: Match): (c: Option<string>)
    ensures c.Some? ==> !m.isCanonical
    ensures c.Some? ==>
              exists j :: 0 <= j < |table|
                          && CanonicalFor(table[j], languageId, salesChannelId, m.id.GetOr(""), Rooted(m.pathInfo))
                          && c.value == Rooted(table[j].seoPathInfo)
    ensures c.None? && !m.isCanonical ==>
              forall j :: 0 <= j < |table| ==>
                !CanonicalFor(table[j], languageId, salesChannelId, m.id.GetOr(""), Rooted(m.pathInfo))
  {
    if m.isCanonical then None
    else
      var target := Rooted(m.pathInfo);
      var i := FirstIndex(table, u => CanonicalFor(u, languageId, salesChannelId, m.id.GetOr(""), target));
      if i.Some? then Some(Rooted(table[i.value].seoPathInfo)) else None
  }

  /** `resolveSeoPath`. */
  function Resolve(table: seq<SeoUrl>, languageId: string, salesChannelId: string, path: string): (r: Resolved)
    ensures |r.pathInfo| >= 1 && r.pathInfo[0] == '/' && r.pathInfo[|r.pathInfo| - 1] == '/'
    ensures Trim(path, '/') == "" ==> r == Resolved("/", false, None, None)
    ensures Trim(path, '/') != "" && SelectRow(table, languageId, salesChannelId, Trim(path, '/')).None? ==>
              r.pathInfo == Slashed(path) && !r.isCanonical && r.id.None?
              && r.canonicalPathInfo == CanonicalPath(table, languageId, salesChannelId, Match(None, Trim(path, '/'), false))
    ensures Trim(path, '/') != "" && SelectRow(table, languageId, salesChannelId, Trim(path, '/')).Some? ==>
              var u := SelectRow(table, languageId, salesChannelId, Trim(path, '/')).value;
              r.id == Some(u.id) && r.isCanonical == u.isCanonical
              && r.pathInfo == Slashed(u.pathInfo)
              && r.canonicalPathInfo == CanonicalPath(table, languageId, salesChannelId, Match(Some(u.id), u.pathInfo, u.isCanonical))
    ensures r.canonicalPathInfo.Some? ==> !r.isCanonical
    ensures r.canonicalPathInfo.Some? ==>
              exists j :: 0 <= j < |table| && table[j].isCanonical && table[j].languageId == languageId
                          && table[j].salesChannelId == Some(salesChannelId)
                          && r.canonicalPathInfo.value == Rooted(table[j].seoPathInfo)
  {
    var seoPath := Trim(path, '/');
    if seoPath == "" then Resolved("/", false, None, None)
    else
      var row := SelectRow(table, languageId, salesChannelId, seoPath);
      var m := MatchFor(table, languageId, salesChannelId, seoPath);
      assert row.Some? ==> m == Match(Some(row.value.id), row.value.pathInfo, row.value.isCanonical);
      var normalised := Slashed(m.pathInfo);
      assert row.None? ==> normalised == Slashed(path) by {
        TrimIdempotent(path, '/');
      }
      var c := CanonicalPath(table, languageId, salesChannelId, m);
      CanonicalFromCanonicalRow(table, languageId, salesChannelId, m);
      Resolved(normalised, m.isCanonical, m.id, c)
  }

  /** A reported canonical path is the SEO path of a canonical row of the
      requested language and channel. */
  lemma CanonicalFromCanonicalRow(table: seq<SeoUrl>, languageId: string, salesChannelId: string, m: Match)
    ensures var c := CanonicalPath(table, languageId, salesChannelId, m);
            c.Some? ==>
              exists j :: 0 <= j < |table| && table[j].isCanonical && table[j].languageId == languageId
                          && table[j].salesChannelId == Some(salesChannelId)
                          && c.value == Rooted(table[j].seoPathInfo)
  {
    var c := CanonicalPath(table, languageId, salesChannelId, m);
    if c.Some? {
      var j :| 0 <= j < |table|
               && CanonicalFor(table[j], languageId, salesChannelId, m.id.GetOr(""), Rooted(m.pathInfo))
               && c.value == Rooted(table[j].seoPathInfo);
    }
  }

  /** A row for the requested channel wins over a row for every channel. */
  lemma {:induction false} ChannelSpecificWins(table: seq<SeoUrl>, languageId: string, salesChannelId: string,
                                               path: string, j: nat)
    requires j < |table| && Trim(path, '/') != ""
    requires Eligible(table[j], languageId, salesChannelId, Trim(path, '/')) && table[j].salesChannelId.Some?
    ensures exists k :: 0 <= k < |table| && table[k].salesChannelId == Some(salesChannelId)
                        && Eligible(table[k], languageId, salesChannelId, Trim(path, '/'))
                        && Resolve(table, languageId, salesChannelId, path).id == Some(table[k].id)
  {
    var seoPath := Trim(path, '/');
    var p := u => Eligible(u, languageId, salesChannelId, seoPath) && u.salesChannelId.Some?;
    assert p(table[j]);
    var k := FirstIndex(table, p);
    assert k.Some?;
    assert SelectRow(table, languageId, salesChannelId, seoPath) == Some(table[k.value]);
  }

  /** A path some row is eligible for resolves to one of the eligible rows:
      its id, its canonical flag and its technical path between slashes. */
  lemma EligibleRowResolves(table: seq<SeoUrl>, languageId: string, salesChannelId: string, path: string, j: nat)
    requires j < |table| && Trim(path, '/') != ""
    requires Eligible(table[j], languageId, salesChannelId, Trim(path, '/'))
    ensures var r := Resolve(table, languageId, salesChannelId, path);
            exists k :: 0 <= k < |table| && Eligible(table[k], languageId, salesChannelId, Trim(path, '/'))
                        && r.id == Some(table[k].id) && r.isCanonical == table[k].isCanonical
                        && r.pathInfo == Slashed(table[k].pathInfo)
  {
    var seoPath := Trim(path, '/');
    var row := SelectRow(table, languageId, salesChannelId, seoPath);
    assert row.Some?;
    var k :| 0 <= k < |table| && table[k] == row.value;
  }

  /** A canonical path is reported exactly when the match is not canonical and
      a canonical row for its technical path exists in the requested channel. */
  lemma CanonicalReportedIff(table: seq<SeoUrl>, languageId: string, salesChannelId: string, path: string)
    requires Trim(path, '/') != ""
    ensures var m := MatchFor(table, languageId, salesChannelId, Trim(path, '/'));
            Resolve(table, languageId, salesChannelId, path).canonicalPathInfo.Some?
            <==> !m.isCanonical
                 && exists j :: 0 <= j < |table|
                                && CanonicalFor(table[j], languageId, salesChannelId, m.id.GetOr(""), Rooted(m.pathInfo))
  {
  }

  /** Resolving a path with extra leading and trailing slashes gives the same result. */
  lemma SlashesIgnored(table: seq<SeoUrl>, languageId: string, salesChannelId: string, path: string)
    ensures Resolve(table, languageId, salesChannelId, "/" + path + "/") == Resolve(table, languageId, salesChannelId, path)
  {
    TrimSlashes(path);
  }

  /** Surrounding a string with one more slash on each side does not change its trim. */
  lemma TrimSlashes(s: string)
    ensures Trim("/" + s + "/", '/') == Trim(s, '/')
  {
    var w := "/" + s + "/";
    assert w[1..] == s + "/";
    assert TrimStart(w, '/') == TrimStart(s + "/", '/');
    TrimStartAppend(s, '/');
    var left := TrimStart(s, '/');
    if |left| == 0 {
      assert TrimStart(s + "/", '/') == "";
    } else {
      assert TrimStart(s + "/", '/') == left + "/";
      assert (left + "/")[..|left + "/"| - 1] == left;
    }
  }

  /** Trimming the front of `s + [c]` trims the front of `s` and keeps the `c`,
      unless `s` was nothing but `c`s. */
  lemma {:induction false} TrimStartAppend(s: string, c: char)
    ensures TrimStart(s + [c], c) == if TrimStart(s, c) == "" then "" else TrimStart(s, c) + [c]
  {
    if |s| == 0 {
      assert s + [c] == [c] && [c][1..] == [];
      assert TrimStart([c], c) == TrimStart([], c);
    } else {
      assert (s + [c])[0] == s[0] && (s + [c])[1..] == s[1..] + [c];
      if s[0] == c {
        assert TrimStart(s + [c], c) == TrimStart(s[1..] + [c], c);
        assert TrimStart(s, c) == TrimStart(s[1..], c);
        TrimStartAppend(s[1..], c);
      } else {
        assert TrimStart(s + [c], c) == s + [c];
        assert TrimStart(s, c) == s;
      }
    }
  }
}
